=== FILE: README.md ===
# Expense tracker: reporting arithmetic and owner-scoped stores

This project models the core of a personal expense tracker: a React front
end and an Express/Mongoose back end. There are two halves.

The first half is the reporting arithmetic of the views:
- the time windows each view selects records by: today, a rolling seven
  days, a Sunday-start week, this month, this year, a day of the displayed
  month;
- the folds over the selected records: totals, per-category sums for the
  pies, (year, month) buckets for the income/expense line, the 12-slot
  month bar, wallet balance and savings, the five-item activity feed;
- list maintenance: paging with "load more", month/day sections with day
  and month totals, the date-descending sort, delete by id and replace by
  id;
- calendar geometry: month length, the weekday of the 1st, and month
  stepping.

The second half is the back end:
- the three Mongoose schemas, as datatypes with validity predicates and a
  `Create` function that applies their casts, defaults and validators;
- the expense, income and khata controllers, as store classes whose methods
  change a sequence of owned documents and return the HTTP status.

Modelling conventions:
- Dates are calendar days `Date(year, month, day)`. Months are 0-based, as
  `getMonth()` returns them. `DayNumber` counts days for window arithmetic.
- A date field is `Missing` (absent or empty), `Invalid` (a JavaScript
  Invalid Date, which fails every comparison) or `On(day)`.
- Amounts are integers, and an absent amount is `None`.
- The clock is a parameter: `today` on the pages, `now` on the server.
- JavaScript's stable sort with a date comparator is an insertion sort on
  a rank. The rank is the day number, or -1 for a record without a date.
- Where a view fills an object or an array in a `forEach` loop, the model
  is a method with a loop. It is proved equal to a specification function,
  and the properties are proved about that function. `reduce`, `filter` and
  `map` chains are functions.
- Generic pieces shared by several views live in their own modules:
  - `Folds`: totals, filter, grouping in first-appearance order, per-key
    sums and the stable sort;
  - `MonthDay`: the two-level month/day grouping;
  - `ListEdits`: delete and replace by id;
  - `ArraySort`: the in-place sort.

## Model

| member | source | states |
|---|---|---|
| Home.MonthlyIncomeSnoc | Frontend/src/pages/Home.jsx:104-113 | monthly income starts at 0 and grows by an income's amount (0 when absent) exactly when its date is in today's month and year |
| Home.MonthlyExpenseSnoc | Frontend/src/pages/Home.jsx:117-126 | monthly expense grows by an entry's amount exactly when the entry exists and is dated in today's month and year; undefined, dateless and unparseable entries add nothing |
| Home.DatedFirst | Frontend/src/pages/Home.jsx:117-119 | the `e?.date` pre-filter followed by a date test counts an entry exactly when the date test holds |
| Home.TodayExpenseSnoc | Frontend/src/pages/Home.jsx:128-133 | today's expense grows by an entry's amount exactly when it is dated today |
| Home.TodayWithinMonth | Frontend/src/pages/Home.jsx:117-133 | with non-negative amounts, 0 <= today's expense <= monthly expense |
| Home.SavingsIgnoreOtherMonths | Frontend/src/pages/Home.jsx:104-135 | an income and an expense dated outside today's month leave the savings unchanged (no carry-forward) |
| Home.SavingsCanBeNegative | Frontend/src/pages/Home.jsx:135 | with no income and one expense this month, savings are minus that expense |
| Home.LatestIncome | Frontend/src/pages/Home.jsx:57-62 | no income gives nothing; otherwise the pick is one of the incomes and no income has a later date |
| Home.LatestIsMaximal | Frontend/src/pages/Home.jsx:60-62 | the head of a date-descending permutation is a member with the maximal date |
| Home.SubmitAsWritten | Frontend/src/pages/Home.jsx:180-202 | as written: an unfilled form or a failed request leaves the list alone; otherwise one entry is appended and earlier entries stay |
| Home.SubmitAsWrittenLosesExpense | Frontend/src/pages/Home.jsx:197 | as written, a successful add of a positive expense dated today changes neither this month's nor today's expense |
| Home.Submit | Frontend/src/pages/Home.jsx:183-197 | an unfilled form or a failed request leaves the list alone; otherwise the stored record is appended at the end |
| Home.SubmitCountsExpense | Frontend/src/pages/Home.jsx:183-197 | after Submit, the earlier entries are unchanged and monthly and today's expense grow by exactly the new record's amount when it is in the period |
| MonthlyExpense.FilteredExpenses | Frontend/src/pages/MonthlyExpense.jsx:45-79 | the filtered list is an order-preserving subsequence holding exactly the input records the active period keeps |
| MonthlyExpense.KeepSpec | Frontend/src/pages/MonthlyExpense.jsx:51-77 | Today keeps the current day; Week keeps day numbers from today-6 to today; Month keeps same month and year; Year keeps same year; any other value keeps everything |
| MonthlyExpense.WeekIsPastSevenDays | Frontend/src/pages/MonthlyExpense.jsx:55-64 | the week holds today's records and never a future date |
| MonthlyExpense.MonthWithinYear | Frontend/src/pages/MonthlyExpense.jsx:66-73 | every record the Month filter keeps is kept by the Year filter |
| MonthlyExpense.AnyOtherKeepsAll | Frontend/src/pages/MonthlyExpense.jsx:75-76 | an unmatched filter value returns the input unchanged |
| MonthlyExpense.PieData | Frontend/src/pages/MonthlyExpense.jsx:82-93 | the `forEach` fill of the category map yields the per-category sums in first-appearance order |
| MonthlyExpense.PieDataSpec | Frontend/src/pages/MonthlyExpense.jsx:82-98 | one pie entry per distinct category, each the sum of that category's records, all entries adding up to `totalAmount` |
| CategoryAnalyzer.Filtered | Frontend/src/components/CategoryAnalyzer.jsx:60-88 | the selection is an order-preserving subsequence holding exactly the records the period keeps |
| CategoryAnalyzer.WeekIsCalendarWeek | Frontend/src/components/CategoryAnalyzer.jsx:68-77 | Week keeps the seven days from the Sunday on or before today, today included |
| CategoryAnalyzer.AllKeepsEverything | Frontend/src/components/CategoryAnalyzer.jsx:62-88 | "All" or an unmatched value keeps the whole list |
| CategoryAnalyzer.CategoryOrOther | Frontend/src/components/CategoryAnalyzer.jsx:92 | the key is never empty, and an absent or empty category becomes "Other" |
| CategoryAnalyzer.ChartDataSpec | Frontend/src/components/CategoryAnalyzer.jsx:90-100 | one entry per distinct category, each summing its records and carried by at least one record, amounts adding up to the selection's total |
| CategoryAnalyzer.UncategorisedIsOther | Frontend/src/components/CategoryAnalyzer.jsx:91-95 | a selected record without a category makes an "Other" entry appear |
| Analytics.Extract | Frontend/src/pages/Analytics.jsx:18-22 | the first present of the named list, `data.<name>` and `data` wins; an absent response or absent fields give []; a `data` object without the list gives no list |
| Analytics.ExtractControllerAnswer | Frontend/src/pages/Analytics.jsx:18-22 | the controllers' answers are extracted as the list they carry |
| Analytics.CurrentMonthIncome | Frontend/src/pages/Analytics.jsx:45-51 | an order-preserving subsequence of exactly the incomes dated in today's month and year |
| Analytics.CurrentMonthExpense | Frontend/src/pages/Analytics.jsx:53-59 | an order-preserving subsequence of exactly the expenses dated in today's month and year |
| Analytics.SavingsSnoc | Frontend/src/pages/Analytics.jsx:62-70 | savings (income total minus expense total this month) move by a record's amount exactly when it is dated this month |
| Analytics.TalliedSnoc | Frontend/src/pages/Analytics.jsx:80-88 | the `map[key] = map[key] \|\| {...}; map[key].income += ...` step keeps the object equal to the key order and per-key sums of the records seen |
| Analytics.AddFlow | Frontend/src/pages/Analytics.jsx:76-104 | one loop step of either `forEach` keeps the object tallied |
| Analytics.Values | Frontend/src/pages/Analytics.jsx:106 | `Object.values(map)` gives one bucket per key in insertion order, with the key's sums |
| Analytics.IncomeExpenseLine | Frontend/src/pages/Analytics.jsx:73-107 | the two loops produce exactly the specified line |
| Analytics.LineSpec | Frontend/src/pages/Analytics.jsx:73-107 | one bucket per distinct (year, month) key of a non-skipped record; bucket incomes sum to the non-skipped income amounts and bucket expenses to the non-skipped expense amounts |
| Analytics.IncomeFlowsTotals | Frontend/src/pages/Analytics.jsx:76-89 | the income loop contributes exactly the amounts of incomes with a date and a non-zero amount, and no expense |
| Analytics.ExpenseFlowsTotals | Frontend/src/pages/Analytics.jsx:91-104 | the expense loop contributes exactly the amounts of expenses with a date and a non-zero amount, and no income |
| Analytics.BucketsAsSums | Frontend/src/pages/Analytics.jsx:88-103 | bucket incomes and expenses are the per-key sums of the contributions |
| Analytics.CountedHasBucket | Frontend/src/pages/Analytics.jsx:77-80 | a record with a date and a non-zero amount always has its key among the buckets; a skipped one adds nothing |
| Analytics.MonthlyBar | Frontend/src/pages/Analytics.jsx:110-122 | exactly 12 slots; today's month holds this month's expense total and every other slot is 0 |
| MyWallet.TotalsSnoc | Frontend/src/pages/MyWallet.jsx:38-50 | totals start at 0 and grow by each record's amount (0 when absent) with no date filter; balance is income minus expense |
| MyWallet.ActivitySpec | Frontend/src/pages/MyWallet.jsx:53-64 | income items carry the amount and expense items its negation; titles fall back to source, title, "Income" (or "Expense") and are never empty; no item is undated |
| MyWallet.ActivitiesSpec | Frontend/src/pages/MyWallet.jsx:66-68 | the feed has min(5, n) items, is date-descending, is drawn from the merged list, and no item left out is more recent than one shown |
| MyWallet.IncomeMovements | Frontend/src/pages/MyWallet.jsx:54-58 | the income items' amounts add up to total income |
| MyWallet.ExpenseMovements | Frontend/src/pages/MyWallet.jsx:60-64 | the expense items' amounts add up to minus total expense |
| MyWallet.MovementsAddUpToBalance | Frontend/src/pages/MyWallet.jsx:50-68 | the sorted merged feed, before the cut to 5, adds up to the balance |
| MyWallet.AddIncomeRequest | Frontend/src/pages/MyWallet.jsx:72-86 | refused exactly when the title is empty or the amount is a number <= 0; otherwise the request carries the title as source, the amount and today |
| MyWallet.AddedIncomeRaisesBalance | Frontend/src/pages/MyWallet.jsx:72-88 | an accepted numeric income, once stored and fetched back, raises the balance |
| ExpenseList.PagingSpec | Frontend/src/pages/ExpenseList.jsx:231-234 | the visible list is the first `visibleCount` expenses; "Load more" shows exactly when some are hidden; a click reveals ten more (or the rest) and keeps the visible ones in front |
| ExpenseList.GroupExpenses | Frontend/src/pages/ExpenseList.jsx:66-101 | the nested `forEach` fill yields exactly the month/day sections of the visible expenses |
| ExpenseList.Grouping | Frontend/src/pages/ExpenseList.jsx:76-98 | an expense is in group (m, d) exactly when it is visible and its headings are m and d; a group keeps list order; nothing beyond the page is grouped |
| ExpenseList.EveryVisibleExpenseIsFiled | Frontend/src/pages/ExpenseList.jsx:76-98 | every visible expense's month is a heading, and its day a heading within that month |
| ExpenseList.Totals | Frontend/src/pages/ExpenseList.jsx:132-150 | a month total (flattened days) equals the sum of its day totals and the total of its expenses; month totals add up to the page total |
| ExpenseList.Delete | Frontend/src/pages/ExpenseList.jsx:39 | exactly the expenses without that id remain, in their order |
| ExpenseList.Edit | Frontend/src/pages/ExpenseList.jsx:55-57 | same length; entries with the id are replaced by the returned record and every other entry stays in place |
| ExpenseList.DeleteKeepsOtherGroups | Frontend/src/pages/ExpenseList.jsx:39 | deleting an id no record of month m carries leaves every group of month m as it was |
| Labels.MonthOf | Frontend/src/pages/ExpenseList.jsx:79-82 | a parsed date gives its (year, month) heading; an unparseable one gives the invalid heading |
| Labels.DayOfSpec | Frontend/src/pages/ExpenseList.jsx:84-92 | the day heading is "Today" exactly for today, "Yesterday" exactly for the day before, the invalid heading exactly for an unparsed date, and the date otherwise |
| Labels.SameHeadingSameDay | Frontend/src/pages/ExpenseList.jsx:84-92 | two parsed dates under one day heading are the same day, so they also share the month heading |
| MonthDay.GroupByMonthDay | Frontend/src/pages/ExpenseList.jsx:69-101 | the map-filling loop and the `Object.entries` walk produce exactly the specified sections |
| MonthDay.Walk | Frontend/src/pages/ExpenseList.jsx:76-98 | walking the entries while filing each keeps the nested map equal to the grouping of the entries seen |
| MonthDay.File | Frontend/src/pages/ExpenseList.jsx:94-97 | creating a missing month or day entry and pushing the record keeps the nested map consistent |
| MonthDay.DayGroups | Frontend/src/pages/ExpenseList.jsx:146 | a month's day entries, in insertion order, are the day groups of that month's records |
| MonthDay.Placement | Frontend/src/pages/ExpenseList.jsx:94-97 | a record is in group (m, d) exactly when it is in the list with month key m and day key d; each group is a subsequence of its month, and the month of the list |
| MonthDay.SectionsSpec | Frontend/src/pages/ExpenseList.jsx:94-97 | month headings are distinct, one section each, and every record's month and day have a section |
| MonthDay.SectionTotals | Frontend/src/pages/ExpenseList.jsx:132-150 | month total = sum of day totals = total of the month's records; month totals add up to the list total |
| MonthDay.MonthTotalIsSumOfDays | Frontend/src/pages/ExpenseList.jsx:133-150 | the flattened-days total equals the sum of the day totals |
| MonthDay.DayTotalsAreSums | Frontend/src/pages/ExpenseList.jsx:146-150 | each day total is the sum of the amounts of that day's records |
| KhataBook.Normalise | Frontend/src/pages/KhataBook.jsx:34 | an array answer is kept as is; anything else gives [] |
| KhataBook.FirstLoad | Frontend/src/pages/KhataBook.jsx:30-45 | the list is the normalised answer sorted in place, date descending |
| KhataBook.FirstLoadSpec | Frontend/src/pages/KhataBook.jsx:34-37 | the loaded list is date-descending and a permutation of the answer's entries, and empty for a non-array answer |
| KhataBook.Safe | Frontend/src/pages/KhataBook.jsx:48 | the safe list is a subsequence holding exactly the entries with a date field |
| KhataBook.GroupKhata | Frontend/src/pages/KhataBook.jsx:51-83 | the loop yields exactly the sections of the first `visibleCount` safe entries whose dates parse |
| KhataBook.GroupingSpec | Frontend/src/pages/KhataBook.jsx:58-79 | an entry is in group (m, d) exactly when it is among the first `visibleCount` safe entries, parses, and has headings m and d; no grouped entry has the invalid heading |
| KhataBook.LoadMoreSpec | Frontend/src/pages/KhataBook.jsx:272-275 | "Load more" shows exactly when the visible prefix leaves safe entries out; a click reveals the next fifteen (or the rest) and keeps the visible ones in front |
| KhataBook.SubmitRequest | Frontend/src/pages/KhataBook.jsx:88-98 | no request unless person, amount and date are filled; an update of `editId` when it is set, an add otherwise |
| KhataBook.Submit | Frontend/src/pages/KhataBook.jsx:88-117 | an unfilled form, a failed request or a non-array refresh changes nothing; otherwise the list is the refreshed entries sorted date-descending, the form is reset to Taken/Cash/empty and edit mode ends |
| KhataBook.Delete | Frontend/src/pages/KhataBook.jsx:119-124 | a cancelled confirm or a rejected request leaves the page unchanged; otherwise exactly the entries without that id remain, in order; paging and form are untouched |
| KhataBook.DeleteKeepsOrder | Frontend/src/pages/KhataBook.jsx:123 | deleting keeps a date-descending list date-descending |
| ArraySort.InsertAt | Frontend/src/pages/KhataBook.jsx:37 | one insertion step places the next element after every element ranked at least as high, leaving the rest of the array alone |
| ArraySort.SortByDateDesc | Frontend/src/pages/KhataBook.jsx:37 | the in-place sort leaves the array equal to the stable date-descending sort of its old contents |
| Folds.SortDescSpec | Frontend/src/components/Transaction.jsx:65-67 | the stable sort is date-descending and a permutation of its input |
| Folds.TopOfSorted | Frontend/src/pages/MyWallet.jsx:66-68 | the first n of a sorted list are sorted, drawn from the list, and rank no lower than anything left out |
| Folds.CategorySumsTotal | Frontend/src/pages/MonthlyExpense.jsx:82-98 | per-key sums add up to the total of the records |
| Folds.GroupsPartition | Frontend/src/components/Transaction.jsx:69-74 | every record lies in the group of its key and the group sizes add up to the number of records |
| Tally.SumByKey | Frontend/src/pages/DailyExpense.jsx:77-88 | the `forEach` fill of `map[key] = (map[key] \|\| 0) + amount` followed by `Object.entries` yields the per-key sums in first-appearance order |
| DailyExpense.TodayExpenses | Frontend/src/pages/DailyExpense.jsx:69-74 | an order-preserving subsequence of exactly the expenses dated today |
| DailyExpense.CategoryData | Frontend/src/pages/DailyExpense.jsx:77-88 | the loop yields the per-category sums of today's expenses |
| DailyExpense.CategoryDataSpec | Frontend/src/pages/DailyExpense.jsx:77-93 | one entry per distinct category of today's records, in first-appearance order, each holding that category's sum, all adding up to `totalAmount` |
| DailyExpense.NothingToday | Frontend/src/pages/DailyExpense.jsx:69-93 | with no expense today, the category data is empty and the total is 0 |
| CalendarView.SelectedDayExpenses | Frontend/src/components/Calendar.jsx:61-69 | no selection gives []; otherwise an order-preserving subsequence of exactly the expenses on the selected day |
| CalendarView.DotMeansExpenses | Frontend/src/components/Calendar.jsx:51-59 | a day cell has a dot exactly when some expense falls on that day of the displayed month, exactly when clicking it selects a non-empty list |
| CalendarView.CategoryDataSpec | Frontend/src/components/Calendar.jsx:71-82 | one entry per distinct category of the selected day, each its sum, adding up to `dailyTotal` |
| CalendarView.NoSelection | Frontend/src/components/Calendar.jsx:61-82 | with no selected date, the daily total is 0 and the pie is empty |
| Dates.LastDate | Frontend/src/components/Calendar.jsx:36 | the month length is 28 to 31, its last day is valid and is followed by the 1st of the next month, and February has 29 days exactly in leap years |
| Dates.FirstDay | Frontend/src/components/Calendar.jsx:35 | the weekday (0 to 6, Sunday 0) of the 1st of the month |
| Dates.GridColumns | Frontend/src/components/Calendar.jsx:153-167 | the grid is `firstDay` blanks then `lastDate` cells; cell n sits in the column of its own weekday |
| Dates.NextMonthContinuesWeek | Frontend/src/components/Calendar.jsx:35-36 | the next month's 1st falls on (firstDay + lastDate) mod 7 |
| Dates.PrevMonth | Frontend/src/components/Calendar.jsx:47 | steps back exactly one month, from January to December of the year before |
| Dates.NextMonth | Frontend/src/components/Calendar.jsx:48 | steps forward exactly one month, from December to January of the year after |
| Dates.MonthStepsInverse | Frontend/src/components/Calendar.jsx:47-48 | the previous and next month steps undo each other |
| Dates.WeekdayAnchors | Frontend/src/components/Calendar.jsx:13 | weekdays count from Sunday = 0: 1 January 1970 is a Thursday (4) |
| Dates.RollingWeek | Frontend/src/pages/MonthlyExpense.jsx:55-64 | the rolling week spans seven day numbers ending with today |
| Dates.CalendarWeek | Frontend/src/components/CategoryAnalyzer.jsx:68-72 | the calendar week spans seven day numbers holding today and starting on a Sunday |
| Dates.PeriodsNest | Frontend/src/pages/MonthlyExpense.jsx:52-73 | same day implies same month, and same month implies same year |
| Dates.DayNumberOrdered | Frontend/src/pages/MonthlyExpense.jsx:63 | the day number respects calendar order, so a date comparison is a day-number comparison |
| Records.Amount0 | Frontend/src/pages/Home.jsx:113 | `Number(x.amount \|\| 0)`: an absent amount is 0, a present one itself |
| Records.DateRank | Frontend/src/components/Transaction.jsx:65-67 | the sort key is the day number for a parsed date and -1 otherwise |
| Records.CategoryKey | Frontend/src/pages/MonthlyExpense.jsx:85-86 | an absent category becomes the object key "undefined" |
| ExpenseCalendar.TileContent | Frontend/src/components/ExpenseCalendar.jsx:14-18 | a tile shows content exactly when its day's total is non-zero, and then shows that total |
| ExpenseCalendar.TotalForDateSnoc | Frontend/src/components/ExpenseCalendar.jsx:5-9 | the day total starts at 0 and grows by an expense's amount exactly when it is dated that day |
| ExpenseCalendar.EmptyDay | Frontend/src/components/ExpenseCalendar.jsx:5-18 | a day without expenses has total 0 and no tile content |
| ExpenseCalendar.TotalNonNegativeOnDay | Frontend/src/components/ExpenseCalendar.jsx:8 | with non-negative amounts the day total is non-negative |
| Transactions.GroupedTransactions | Frontend/src/components/Transaction.jsx:64-75 | a sorted copy, grouped by calendar day; the state list is not reordered |
| Transactions.GroupsSpec | Frontend/src/components/Transaction.jsx:69-74 | day keys are distinct, one group each, every transaction's day has a group, and group sizes add up to the number of transactions |
| Transactions.GroupOrder | Frontend/src/components/Transaction.jsx:65-73 | sorting before grouping lists the day groups newest day first (strictly, for two dated groups), with the "Invalid Date" group after every group from year 0 on; each group holds only input transactions of its own day |
| Folds.KeysSortedDesc | Frontend/src/components/Transaction.jsx:65-73 | grouping a list sorted by rank lists the group keys in the same rank order, when a record's rank is its key's rank |
| Transactions.Delete | Frontend/src/components/Transaction.jsx:30-41 | unconfirmed or failed leaves the list; otherwise exactly the items without that id remain, in order |
| Transactions.Edit | Frontend/src/components/Transaction.jsx:44-61 | a cancelled prompt or a failed request leaves the list; otherwise items with the id are replaced by the answer and the others stay in place |
| Transactions.EditBody | Frontend/src/components/Transaction.jsx:49-52 | the body is the transaction with only its title changed |
| ListEdits.RemoveId | Frontend/src/pages/ExpenseList.jsx:39 | exactly the records without the id remain, as a subsequence |
| ListEdits.RemoveAbsent | Frontend/src/pages/ExpenseList.jsx:39 | deleting an id no record carries changes nothing |
| ListEdits.RemoveIdempotent | Frontend/src/pages/ExpenseList.jsx:39 | deleting twice is deleting once |
| ListEdits.RemoveUnique | Backend/controllers/expenseController.js:81 | with unique ids, deleting a present id removes exactly one record and keeps ids unique |
| ListEdits.ReplaceId | Frontend/src/pages/ExpenseList.jsx:55-57 | same length; records with the id replaced, all others in place |
| ListEdits.ReplaceAbsent | Frontend/src/pages/ExpenseList.jsx:55-57 | replacing an id no record carries changes nothing |
| Basics.TrimIdempotent | Backend/models/expenseModel.js:5 | trimming a trimmed string changes nothing |
| Basics.TrimDropsNoBreakSpace | Backend/models/expenseModel.js:5 | `trim` removes Unicode white space such as a trailing no-break space, not only ASCII blanks |
| ExpenseModel.TrimField | Backend/models/expenseModel.js:5-9 | a present text field is stored as its own trim; an absent one stays absent |
| ExpenseModel.Create | Backend/models/expenseModel.js:5-10 | created exactly when the date parses, the amount is not negative and the category is listed; a created document is valid, has trimmed text, category default "Other", date default now, and the given owner and amount |
| ExpenseModel.PresenceNotEnforced | Backend/models/expenseModel.js:5-10 | a document with no title, amount or owner is stored, because `require` is not a schema option |
| ExpenseModel.BoundsEnforced | Backend/models/expenseModel.js:6-7 | a negative amount or an unlisted category is refused |
| IncomeModel.Create | Backend/models/incomeModel.js:4-14 | created exactly when owner, amount, a non-empty source and a parsed date are given; title and notes optional |
| IncomeModel.AnyAmountAccepted | Backend/models/incomeModel.js:6 | any amount, zero or negative included, is stored |
| KhataModel.Create | Backend/models/khataModel.js:5-11 | created exactly when owner, a non-empty person and an amount are given, type is Taken/Given, method is Cash/UPI/Card and the date is absent or parses; the stored type, person, method, amount, notes and owner are the ones given, and the date defaults to now |
| KhataModel.BlankChoicesAccepted | Backend/models/khataModel.js:6-9 | the form's reset choices Taken and Cash are accepted, empty choices are not |
| ExpenseController.ExpenseStore.Add | Backend/controllers/expenseController.js:4-44 | 400 and no change without a caller, with a falsy title, amount, category or date (amount 0 included), or when the schema refuses; else 201 and the document, owned by the caller with notes defaulting to "", is appended |
| ExpenseController.ExpenseStore.Get | Backend/controllers/expenseController.js:47-68 | 400 without a caller; else 200 and exactly the caller's documents, date-descending |
| ExpenseController.ExpenseStore.Delete | Backend/controllers/expenseController.js:71-102 | 400 and no change without a caller or without a document matching id and owner; else 200 and exactly that document is removed |
| IncomeController.IncomeStore.Add | Backend/controllers/incomeController.js:3-31 | 401 and nothing stored without a caller; 500 when the schema refuses; else 201 and the document, owned by the caller whatever the body says, is appended |
| IncomeController.IncomeStore.Get | Backend/controllers/incomeController.js:33-47 | 401 without a caller; else exactly the caller's incomes, date-descending |
| IncomeController.WalletRequestStored | Frontend/src/pages/MyWallet.jsx:75-86 | a request the wallet lets through is stored exactly when its amount is a number, and then with that positive amount and the title as source |
| KhataController.KhataStore.Get | Backend/controllers/khataController.js:4-20 | 500 when a date filter does not parse; else 200 and exactly the caller's entries meeting every given filter, oldest first |
| KhataController.NoFiltersListsAllOwn | Backend/controllers/khataController.js:7-13 | with no filters, exactly the caller's entries are listed |
| KhataController.ListingIsPrivate | Backend/controllers/khataController.js:7 | whatever the filters, no other user's entry is listed |
| KhataController.KhataStore.Add | Backend/controllers/khataController.js:23-39 | 500 and no change when the schema refuses; else 201 and a valid entry owned by the caller is appended |
| KhataController.Apply | Backend/controllers/khataController.js:44-48 | an update writes each field the body carries and keeps the others, id and owner included |
| KhataController.KhataStore.Update | Backend/controllers/khataController.js:42-54 | 500 for an unparseable date, 404 and no change when the caller has no entry with the id; else 200, that entry is rewritten and returned and every other entry stays |
| KhataController.UpdateSkipsValidation | Backend/controllers/khataController.js:44-48 | an update can store a type outside the schema's enum, since no validator runs |
| KhataController.KhataStore.Delete | Backend/controllers/khataController.js:57-65 | 404 and no change when the caller has no entry with the id; else 200 and exactly that entry is removed |

## Left out

- Authentication, routing, the service wrappers and Mongoose persistence (indexes, timestamps, ids as ObjectIds) are not part of this model. The caller is an optional user id, and a store is a sequence of documents with a counter for fresh ids.
- The clock is a parameter (`today`, `now`), and the time zone is not modelled.
- Times of day are not modelled; every date is a calendar day. This covers four cases:
  - the week bounds in the category panel keep the current time of day;
  - the rolling week starts at 00:00;
  - a khata `endDate` falls at midnight;
  - every date sort orders records on the same day by time of day, which the model does not (the sort lines below name the members this weakens).
- Years 0 to 99 in the calendar: `new Date(year, month, day)` reads a year from 0 to 99 as 1900 + year. Stepping back from January of year 100 shows "December 99", whose cells then hold days of 1999. The model treats every year alike. Dates beyond the range a JavaScript Date can hold (±8.64e15 ms, about year ±275,000) are Invalid in the source, while the model's years are unbounded. The members below are stated for every year and so do not match the source for a displayed year 0 to 99 or a year outside that range:
- Dates.PrevMonth: from a displayed year 0 to 99 the source steps into 19xx (back from December 99 to November 1999, back from January of year 0 to December 1899).
- Dates.NextMonth: from a displayed year 0 to 99 the source steps into 19xx or 2000 (from December 99 to January 2000, from January of year 0 to February 1900).
- Dates.MonthStepsInverse: back then forward from a displayed year 0 to 99 lands in 19xx, not on the starting month.
- Dates.FirstDay: for a displayed year 0 to 99 the source gives the weekday of the 1st in 19xx (3 for December 99, the weekday of 1 Dec 1999).
- Dates.GridColumns: for a displayed year 0 to 99 the source's cells sit in the columns of the 19xx month.
- CalendarView.ClickedDay: in a displayed year 0 to 99 a click selects the day in 19xx.
- CalendarView.DotMeansExpenses: in a displayed year 0 to 99 the dot tests the year as shown while a click selects the day in 19xx, so the two can disagree.
- Locale text is not produced. The month headings ("January 2026"), the day headings ("05 Jan 2026") and the line labels are represented by the values they are formatted from.
- Floating point and `Number()` parsing are left out. Amounts are integers, and a typed amount on the wallet form is a number or "not a number".
- MonthlyExpense.PieData: a record without an amount adds NaN in the source (`Number(e.amount)` has no `|| 0`); the model adds 0.
- Some other folds also use `Number(e.amount)` without `|| 0`: CategoryAnalyzer.ChartDataSpec, DailyExpense.CategoryData, ExpenseList.Totals and Analytics.MonthlyBar. For a missing amount they count 0 where the source yields NaN.
- DailyExpense.TotalAmount: `totalAmount` is `sum + Number(e.amount)` with no `|| 0`, so a record without an amount makes the source's total NaN. The model counts it as 0, and the totals stated by DailyExpense.CategoryDataSpec and DailyExpense.NothingToday are those of the model.
- ExpenseCalendar.TotalForDateSnoc: the source adds `e.amount` with no conversion at all. The model takes amounts as numbers.
- Sorting with an unparseable or missing date: the JavaScript comparator returns NaN there, and the resulting order is engine-dependent. The model ranks such records as -1, below every real date.
- Every date sort compares whole timestamps: `new Date(b.date) - new Date(a.date)` at Home.jsx:60-62, MyWallet.jsx:66-68, KhataBook.jsx:37 and 102, and Transaction.jsx:65-67, and `sort({ date: -1 })` / `sort({ date: 1 })` at expenseController.js:56, incomeController.js:39 and khataController.js:15. The model ranks by calendar day, so two records on the same day keep their input order, while the source orders them by time of day (six incomes added through the wallet at 09:00 to 14:00 list 14:00 first in the source, 09:00 first in the model). The members below promise "newest first" by day only:
- Home.LatestIncome: the income it returns has the latest day, but not necessarily the latest time on that day.
- MyWallet.ActivitiesSpec: the five items are newest first by day; within a day the order, and so which items survive the cut, is not the source's.
- KhataBook.FirstLoadSpec: the loaded list is newest first by day, with same-day entries in fetched order.
- KhataBook.Submit: the refreshed list is newest first by day, with same-day entries in fetched order.
- Transactions.GroupOrder: the groups are in day order, but the order of the transactions inside one day's group is not modelled.
- ExpenseController.ExpenseStore.Get: newest first by day; same-day documents stay in store order.
- IncomeController.IncomeStore.Get: newest first by day; same-day documents stay in store order.
- KhataController.KhataStore.Get: oldest first by day; same-day entries stay in store order.
- Records with exactly equal timestamps have no defined order in a Mongo `sort`. The model uses the stable sort for them too.
- Home's income popup (`handleIncomeSave`) is not modelled: its edit branch calls an `editIncome` that the income service does not export. Receipt scanning is not modelled either: it is a network call.
- The expense edit controller (`editExpense`) is not modelled. It passes a filter object where `findByIdAndUpdate` expects an id, so its owner scoping cannot be stated. The views' edit updates are modelled from the answer they receive.
- The income edit route is not modelled: it names a handler the income controller does not define.
- In the khata book, the edit button copying an entry into the form is not modelled.
- In the khata book, `null` entries in the fetched list are not modelled. The first-load comparator reads `.date` of each entry before `safeKhata` could drop one.
- KhataController.Apply: only the six schema fields of an update body are modelled. A body's `user` or `_id` and an empty-string date (cast to null) are not.
- A database failure (the 500 branches of the get and delete handlers) is not modelled.
- Analytics.Extract: when `data` is an object without the list, the page goes on to call `.filter` on that object and throws. The model returns None and stops there.

## Findings

| source | as written | input that shows it | evidently intended | confidence | as-written member | corrected member |
|---|---|---|---|---|---|---|
| Frontend/src/pages/Home.jsx:197 | after a successful add, appends `res.expense`; the add-expense answer carries the record as `data` (Backend/controllers/expenseController.js:31-35), so `undefined` is appended | a filled form whose request stores an expense dated today with amount 50: the list grows by `undefined`, and this month's and today's expense stay as they were | append the stored record, so both figures grow by 50 | not executed | Home.SubmitAsWritten, Home.SubmitAsWrittenLosesExpense | Home.Submit, Home.SubmitCountsExpense |

=== FILE: analytics.dfy ===
/**
 * The analytics page: response extraction, this month's income, expense
 * and savings, the income/expense line by (year, month), and the 12-slot
 * bar of this year's months.
 */
module Analytics {
  import opened Basics
  import opened Dates
  import opened Folds
  import opened Records

  // ---------------------------------------------------------------- extraction

  /** What `res.data` may hold: the list itself, or an object that may carry the list. */
  datatype Payload<T> = List(items: seq<T>) | Wrapper(inner: Option<seq<T>>)

  /** A response body: the list under its own name (`expenses` / `income`) and a `data` field. */
  datatype Body<T> = Body(own: Option<seq<T>>, data: Option<Payload<T>>)

  /**
   * `res?.expenses || res?.data?.expenses || res?.data || []` (and the same
   * with `income`). Every array is truthy, so the first present list wins.
   * None stands for `res.data` being an object without the list: the
   * extractor then returns that object, which is not a list.
   */
  function Extract<T>(res: Option<Body<T>>): (r: Option<seq<T>>)
    ensures r.None? <==> res.Some? && res.value.own.None? && res.value.data == Some(Wrapper(None))
    ensures res.None? || (res.value.own.None? && res.value.data.None?) ==> r == Some([])
    ensures res.Some? && res.value.own.Some? ==> r == res.value.own
    ensures (res.Some? && res.value.own.None? && res.value.data.Some? && res.value.data.value.Wrapper?
             && res.value.data.value.inner.Some?) ==> r == res.value.data.value.inner
    ensures res.Some? && res.value.own.None? && res.value.data.Some? && res.value.data.value.List?
            ==> r == Some(res.value.data.value.items)
  {
    match res
    case None => Some([])
    case Some(Body(own, data)) =>
      if own.Some? then own
      else match data
        case None => Some([])
        case Some(List(items)) => Some(items)
        case Some(Wrapper(inner)) => if inner.Some? then inner else None
  }

  /** The controllers answer `{ success, expenses }` and `{ success, income }`: the list is taken as sent. */
  lemma ExtractControllerAnswer<T>(rows: seq<T>)
    ensures Extract(Some(Body(Some(rows), None))) == Some(rows)
    ensures Extract(Some(Body(None, Some(List(rows))))) == Some(rows)
  {
  }

  // ---------------------------------------------------------------- this month

  function IncomeInMonth(today: Day): Income -> bool
  {
    (i: Income) => SameMonth(i.date, today)
  }

  /** `currentMonthIncome`: records with a date in today's month and year. */
  function CurrentMonthIncome(incomes: seq<Income>, today: Day): (r: seq<Income>)
    ensures Subseq(r, incomes)
    ensures forall i :: i in r <==> i in incomes && i.date.On? && i.date.date.month == today.month && i.date.date.year == today.year
  {
    FilterSpec(incomes, IncomeInMonth(today));
    Filter(incomes, IncomeInMonth(today))
  }

  /** `currentMonthExpense`: records with a date in today's month and year. */
  function CurrentMonthExpense(expenses: seq<Expense>, today: Day): (r: seq<Expense>)
    ensures Subseq(r, expenses)
    ensures forall e :: e in r <==> e in expenses && e.date.On? && e.date.date.month == today.month && e.date.date.year == today.year
  {
    FilterSpec(expenses, ExpenseInMonth(today));
    Filter(expenses, ExpenseInMonth(today))
  }

  function TotalIncome(incomes: seq<Income>, today: Day): int
  {
    Total(CurrentMonthIncome(incomes, today), IncomeAmount)
  }

  function TotalExpense(expenses: seq<Expense>, today: Day): int
  {
    Total(CurrentMonthExpense(expenses, today), ExpenseAmount)
  }

  /** "This Month Savings". */
  function Savings(incomes: seq<Income>, expenses: seq<Expense>, today: Day): int
  {
    TotalIncome(incomes, today) - TotalExpense(expenses, today)
  }

  /** One record at a time: a record moves this month's figures exactly when it is dated this month. */
  lemma SavingsSnoc(incomes: seq<Income>, expenses: seq<Expense>, i: Income, e: Expense, today: Day)
    ensures Savings(incomes + [i], expenses, today)
         == Savings(incomes, expenses, today) + (if SameMonth(i.date, today) then IncomeAmount(i) else 0)
    ensures Savings(incomes, expenses + [e], today)
         == Savings(incomes, expenses, today) - (if SameMonth(e.date, today) then ExpenseAmount(e) else 0)
  {
    TotalFilterSnoc(incomes, i, IncomeInMonth(today), IncomeAmount);
    TotalFilterSnoc(expenses, e, ExpenseInMonth(today), ExpenseAmount);
  }

  // ---------------------------------------------------------------- income / expense line

  /**
   * `${d.getFullYear()}-${d.getMonth()}`: a parsed date gives its (year,
   * month); an unparseable one gives "NaN-NaN", modelled as None.
   */
  type LineKey = Option<(int, int)>

  function KeyOf(w: When): LineKey
  {
    if w.On? then Some((w.date.year, w.date.month)) else None
  }

  /** `if (!x.date || !x.amount) return;`: dateless records and absent or zero amounts are skipped. */
  predicate Counted(w: When, amount: Option<int>)
  {
    !w.Missing? && amount.Some? && amount.value != 0
  }

  /** One record's contribution to a bucket. */
  datatype Flow = Flow(key: LineKey, income: int, expense: int)

  function FlowKey(f: Flow): LineKey
  {
    f.key
  }

  function FlowIncome(f: Flow): int
  {
    f.income
  }

  function FlowExpense(f: Flow): int
  {
    f.expense
  }

  function IncomeCounted(i: Income): bool
  {
    Counted(i.date, i.amount)
  }

  function ExpenseCounted(e: Expense): bool
  {
    Counted(e.date, e.amount)
  }

  /** The contributions of the incomes the first loop does not skip. */
  function IncomeFlows(incomes: seq<Income>): seq<Flow>
  {
    if incomes == [] then []
    else
      var i := incomes[|incomes| - 1];
      IncomeFlows(incomes[..|incomes| - 1]) + (if IncomeCounted(i) then [Flow(KeyOf(i.date), IncomeAmount(i), 0)] else [])
  }

  function ExpenseFlows(expenses: seq<Expense>): seq<Flow>
  {
    if expenses == [] then []
    else
      var e := expenses[|expenses| - 1];
      ExpenseFlows(expenses[..|expenses| - 1]) + (if ExpenseCounted(e) then [Flow(KeyOf(e.date), 0, ExpenseAmount(e))] else [])
  }

  /** A bucket of the line: its key, summed income and summed expense. */
  datatype Bucket = Bucket(key: LineKey, income: int, expense: int)

  function BucketsFor(flows: seq<Flow>, ks: seq<LineKey>): seq<Bucket>
  {
    if ks == [] then []
    else
      var k := ks[|ks| - 1];
      BucketsFor(flows, ks[..|ks| - 1])
        + [Bucket(k, Total(Select(flows, FlowKey, k), FlowIncome), Total(Select(flows, FlowKey, k), FlowExpense))]
  }

  /** `Object.values(map)`: one bucket per key, in order of first appearance over incomes then expenses. */
  function Line(incomes: seq<Income>, expenses: seq<Expense>): seq<Bucket>
  {
    var flows := IncomeFlows(incomes) + ExpenseFlows(expenses);
    BucketsFor(flows, Keys(flows, FlowKey))
  }

  /** The object the two loops fill: keys in insertion order, and the sums under each key. */
  ghost predicate Tallied(flows: seq<Flow>, order: seq<LineKey>, sums: map<LineKey, (int, int)>)
  {
    && order == Keys(flows, FlowKey)
    && (forall k :: k in sums <==> k in order)
    && (forall k :: k in sums ==> sums[k] == SumsAt(flows, k))
  }

  /** The sums a tallied object holds under key k. */
  function SumsAt(flows: seq<Flow>, k: LineKey): (int, int)
  {
    (Total(Select(flows, FlowKey, k), FlowIncome), Total(Select(flows, FlowKey, k), FlowExpense))
  }

  /** The key of an appended flow is added at the end if it is new. */
  lemma TalliedOrder(flows: seq<Flow>, order: seq<LineKey>, sums: map<LineKey, (int, int)>, f: Flow)
    requires Tallied(flows, order, sums)
    ensures (if f.key in sums then order else order + [f.key]) == Keys(flows + [f], FlowKey)
  {
    KeysSnoc(flows, f, FlowKey);
  }

  /** The appended flow's amounts land under its own key. */
  lemma TalliedOwnKey(flows: seq<Flow>, order: seq<LineKey>, sums: map<LineKey, (int, int)>, f: Flow)
    requires Tallied(flows, order, sums)
    ensures SumsAt(flows + [f], f.key)
         == ((if f.key in sums then sums[f.key].0 else 0) + f.income, (if f.key in sums then sums[f.key].1 else 0) + f.expense)
  {
    var k := f.key;
    SelectSnoc(flows, f, FlowKey, k);
    var before := Select(flows, FlowKey, k);
    if k !in sums {
      SelectAbsent(flows, FlowKey, k);
    }
    TotalAppend(before, [f], FlowIncome);
    TotalAppend(before, [f], FlowExpense);
    assert Total([f], FlowIncome) == f.income && Total([f], FlowExpense) == f.expense;
  }

  /** Other keys keep their sums. */
  lemma TalliedOtherKey(flows: seq<Flow>, f: Flow, k: LineKey)
    requires k != f.key
    ensures SumsAt(flows + [f], k) == SumsAt(flows, k)
  {
    SelectSnoc(flows, f, FlowKey, k);
  }

  /** `map[key] = map[key] || { income: 0, expense: 0 }; map[key].income += ...` keeps the object tallied. */
  lemma TalliedSnoc(flows: seq<Flow>, order: seq<LineKey>, sums: map<LineKey, (int, int)>, f: Flow,
                    order': seq<LineKey>, sums': map<LineKey, (int, int)>)
    requires Tallied(flows, order, sums)
    requires order' == if f.key in sums then order else order + [f.key]
    requires sums' == sums[f.key := ((if f.key in sums then sums[f.key].0 else 0) + f.income,
                                     (if f.key in sums then sums[f.key].1 else 0) + f.expense)]
    ensures Tallied(flows + [f], order', sums')
  {
    TalliedOrder(flows, order, sums, f);
    TalliedOwnKey(flows, order, sums, f);
    forall k | k in sums' && k != f.key
      ensures sums'[k] == SumsAt(flows + [f], k)
    {
      TalliedOtherKey(flows, f, k);
    }
  }

  lemma IncomeFlowsSnoc(incomes: seq<Income>, i: Income)
    ensures IncomeFlows(incomes + [i])
         == IncomeFlows(incomes) + (if IncomeCounted(i) then [Flow(KeyOf(i.date), IncomeAmount(i), 0)] else [])
  {
    assert (incomes + [i])[..|incomes|] == incomes;
  }

  lemma ExpenseFlowsSnoc(expenses: seq<Expense>, e: Expense)
    ensures ExpenseFlows(expenses + [e])
         == ExpenseFlows(expenses) + (if ExpenseCounted(e) then [Flow(KeyOf(e.date), 0, ExpenseAmount(e))] else [])
  {
    assert (expenses + [e])[..|expenses|] == expenses;
  }

  /** One loop step: `map[key] = map[key] || { income: 0, expense: 0 }`, then add the flow's amounts. */
  method AddFlow(ghost flows: seq<Flow>, order: seq<LineKey>, sums: map<LineKey, (int, int)>, f: Flow)
    returns (order': seq<LineKey>, sums': map<LineKey, (int, int)>)
    requires Tallied(flows, order, sums)
    ensures Tallied(flows + [f], order', sums')
  {
    var cur := if f.key in sums then sums[f.key] else (0, 0);
    order' := if f.key in sums then order else order + [f.key];
    sums' := sums[f.key := (cur.0 + f.income, cur.1 + f.expense)];
    TalliedSnoc(flows, order, sums, f, order', sums');
  }

  /** `Object.values(map)`: the buckets in key insertion order. */
  method Values(ghost flows: seq<Flow>, order: seq<LineKey>, sums: map<LineKey, (int, int)>) returns (line: seq<Bucket>)
    requires Tallied(flows, order, sums)
    ensures line == BucketsFor(flows, Keys(flows, FlowKey))
  {
    line := [];
    var n := 0;
    while n < |order|
      invariant 0 <= n <= |order|
      invariant line == BucketsFor(flows, order[..n])
    {
      assert order[..n + 1][..n] == order[..n];
      line := line + [Bucket(order[n], sums[order[n]].0, sums[order[n]].1)];
      n := n + 1;
    }
    assert order[..n] == order;
  }

  /** One more expense extends the flows by its flow when it counts, and not at all otherwise. */
  lemma ExpenseStep(base: seq<Flow>, expenses: seq<Expense>, j: int)
    requires 0 <= j < |expenses|
    ensures ExpenseCounted(expenses[j]) ==>
      base + ExpenseFlows(expenses[..j + 1])
        == base + ExpenseFlows(expenses[..j]) + [Flow(KeyOf(expenses[j].date), 0, ExpenseAmount(expenses[j]))]
    ensures !ExpenseCounted(expenses[j]) ==>
      base + ExpenseFlows(expenses[..j + 1]) == base + ExpenseFlows(expenses[..j])
  {
    var x := expenses[j];
    assert expenses[..j + 1] == expenses[..j] + [x];
    ExpenseFlowsSnoc(expenses[..j], x);
    if !ExpenseCounted(x) {
      assert ExpenseFlows(expenses[..j]) + [] == ExpenseFlows(expenses[..j]);
    }
  }

  /** `incomeExpenseLine`: the two `forEach` loops over incomes, then expenses. */
  method IncomeExpenseLine(incomes: seq<Income>, expenses: seq<Expense>) returns (line: seq<Bucket>)
    ensures line == Line(incomes, expenses)
  {
    var order, sums := TallyIncomes(incomes);
    order, sums := TallyExpenses(IncomeFlows(incomes), expenses, order, sums);
    line := Values(IncomeFlows(incomes) + ExpenseFlows(expenses), order, sums);
  }

  /** The first loop: every income with a date and a non-zero amount is added under its month. */
  method TallyIncomes(incomes: seq<Income>) returns (order: seq<LineKey>, sums: map<LineKey, (int, int)>)
    ensures Tallied(IncomeFlows(incomes), order, sums)
  {
    order, sums := [], map[];
    var i := 0;
    while i < |incomes|
      invariant 0 <= i <= |incomes|
      invariant Tallied(IncomeFlows(incomes[..i]), order, sums)
    {
      var x := incomes[i];
      assert incomes[..i + 1] == incomes[..i] + [x];
      IncomeFlowsSnoc(incomes[..i], x);
      if IncomeCounted(x) {
        order, sums := AddFlow(IncomeFlows(incomes[..i]), order, sums, Flow(KeyOf(x.date), IncomeAmount(x), 0));
      } else {
        assert IncomeFlows(incomes[..i]) + [] == IncomeFlows(incomes[..i]);
      }
      i := i + 1;
    }
    assert incomes[..i] == incomes;
  }

  /** The second loop, continuing on the object the first one filled. */
  method TallyExpenses(ghost base: seq<Flow>, expenses: seq<Expense>, order0: seq<LineKey>, sums0: map<LineKey, (int, int)>)
    returns (order: seq<LineKey>, sums: map<LineKey, (int, int)>)
    requires Tallied(base, order0, sums0)
    ensures Tallied(base + ExpenseFlows(expenses), order, sums)
  {
    order, sums := order0, sums0;
    assert base + ExpenseFlows(expenses[..0]) == base;
    var j := 0;
    while j < |expenses|
      invariant 0 <= j <= |expenses|
      invariant Tallied(base + ExpenseFlows(expenses[..j]), order, sums)
    {
      var x := expenses[j];
      ExpenseStep(base, expenses, j);
      if ExpenseCounted(x) {
        order, sums := AddFlow(base + ExpenseFlows(expenses[..j]), order, sums, Flow(KeyOf(x.date), 0, ExpenseAmount(x)));
      }
      j := j + 1;
    }
    assert expenses[..j] == expenses;
  }

  function BucketIncome(b: Bucket): int
  {
    b.income
  }

  function BucketExpense(b: Bucket): int
  {
    b.expense
  }

  function BucketKey(b: Bucket): LineKey
  {
    b.key
  }

  lemma {:induction false} BucketsForAt(flows: seq<Flow>, ks: seq<LineKey>)
    ensures |BucketsFor(flows, ks)| == |ks|
    ensures forall n :: 0 <= n < |ks| ==>
      BucketsFor(flows, ks)[n] == Bucket(ks[n], Total(Select(flows, FlowKey, ks[n]), FlowIncome), Total(Select(flows, FlowKey, ks[n]), FlowExpense))
  {
    if ks != [] {
      BucketsForAt(flows, ks[..|ks| - 1]);
    }
  }

  /** Bucket incomes (or expenses) are the per-key sums of the flows. */
  lemma {:induction false} BucketsAsSums(flows: seq<Flow>, ks: seq<LineKey>)
    ensures Total(BucketsFor(flows, ks), BucketIncome) == SumValues(SumsFor(flows, FlowKey, FlowIncome, ks))
    ensures Total(BucketsFor(flows, ks), BucketExpense) == SumValues(SumsFor(flows, FlowKey, FlowExpense, ks))
  {
    if ks != [] {
      BucketsAsSums(flows, ks[..|ks| - 1]);
    }
  }

  /** The income flows carry the amounts of the incomes that are not skipped, and no expense. */
  lemma {:induction false} IncomeFlowsTotals(incomes: seq<Income>)
    ensures Total(IncomeFlows(incomes), FlowIncome) == Total(Filter(incomes, IncomeCounted), IncomeAmount)
    ensures Total(IncomeFlows(incomes), FlowExpense) == 0
  {
    if incomes != [] {
      var init, i := incomes[..|incomes| - 1], incomes[|incomes| - 1];
      IncomeFlowsTotals(init);
      var extra := if IncomeCounted(i) then [Flow(KeyOf(i.date), IncomeAmount(i), 0)] else [];
      TotalAppend(IncomeFlows(init), extra, FlowIncome);
      TotalAppend(IncomeFlows(init), extra, FlowExpense);
      assert incomes == init + [i];
      TotalFilterSnoc(init, i, IncomeCounted, IncomeAmount);
      if IncomeCounted(i) {
        assert Total(extra, FlowIncome) == IncomeAmount(i);
        assert Total(extra, FlowExpense) == 0;
      }
    }
  }

  lemma {:induction false} ExpenseFlowsTotals(expenses: seq<Expense>)
    ensures Total(ExpenseFlows(expenses), FlowExpense) == Total(Filter(expenses, ExpenseCounted), ExpenseAmount)
    ensures Total(ExpenseFlows(expenses), FlowIncome) == 0
  {
    if expenses != [] {
      var init, e := expenses[..|expenses| - 1], expenses[|expenses| - 1];
      ExpenseFlowsTotals(init);
      var extra := if ExpenseCounted(e) then [Flow(KeyOf(e.date), 0, ExpenseAmount(e))] else [];
      TotalAppend(ExpenseFlows(init), extra, FlowIncome);
      TotalAppend(ExpenseFlows(init), extra, FlowExpense);
      assert expenses == init + [e];
      TotalFilterSnoc(init, e, ExpenseCounted, ExpenseAmount);
      if ExpenseCounted(e) {
        assert Total(extra, FlowIncome) == 0;
        assert Total(extra, FlowExpense) == ExpenseAmount(e);
      }
    }
  }

  /**
   * The line has one bucket per (year, month) key that some non-skipped
   * record carries, keys distinct; the bucket incomes add up to the
   * non-skipped income amounts and the bucket expenses to the non-skipped
   * expense amounts, so an income and an expense of the same month meet in
   * the same bucket.
   */
  lemma LineSpec(incomes: seq<Income>, expenses: seq<Expense>)
    ensures var flows := IncomeFlows(incomes) + ExpenseFlows(expenses);
      && |Line(incomes, expenses)| == |Keys(flows, FlowKey)|
      && Distinct(Keys(flows, FlowKey))
      && (forall n :: 0 <= n < |Line(incomes, expenses)| ==> Line(incomes, expenses)[n].key == Keys(flows, FlowKey)[n])
      && (forall n :: 0 <= n < |Line(incomes, expenses)| ==> HasKey(flows, FlowKey, Line(incomes, expenses)[n].key))
    ensures Total(Line(incomes, expenses), BucketIncome) == Total(Filter(incomes, IncomeCounted), IncomeAmount)
    ensures Total(Line(incomes, expenses), BucketExpense) == Total(Filter(expenses, ExpenseCounted), ExpenseAmount)
  {
    var flows := IncomeFlows(incomes) + ExpenseFlows(expenses);
    KeysSpec(flows, FlowKey);
    BucketsForAt(flows, Keys(flows, FlowKey));
    BucketsAsSums(flows, Keys(flows, FlowKey));
    CategorySumsTotal(flows, FlowKey, FlowIncome);
    CategorySumsTotal(flows, FlowKey, FlowExpense);
    TotalAppend(IncomeFlows(incomes), ExpenseFlows(expenses), FlowIncome);
    TotalAppend(IncomeFlows(incomes), ExpenseFlows(expenses), FlowExpense);
    IncomeFlowsTotals(incomes);
    ExpenseFlowsTotals(expenses);
  }

  /** A record with a date and a non-zero amount always has its bucket; a skipped one adds no bucket. */
  lemma CountedHasBucket(incomes: seq<Income>, i: Income)
    ensures IncomeCounted(i) ==> KeyOf(i.date) in Keys(IncomeFlows(incomes + [i]), FlowKey)
    ensures !IncomeCounted(i) ==> IncomeFlows(incomes + [i]) == IncomeFlows(incomes)
  {
    IncomeFlowsSnoc(incomes, i);
    if IncomeCounted(i) {
      var flows := IncomeFlows(incomes + [i]);
      KeyListed(flows, FlowKey, |flows| - 1);
    } else {
      assert IncomeFlows(incomes) + [] == IncomeFlows(incomes);
    }
  }

  // ---------------------------------------------------------------- monthly bar

  /**
   * `monthlyExpense`: twelve zero slots, then each of this month's expenses
   * added to the slot of its month. All of them are in today's month, so
   * only that slot can be non-zero and it holds this month's total.
   */
  method MonthlyBar(expenses: seq<Expense>, today: Day) returns (bar: seq<int>)
    ensures |bar| == 12
    ensures bar[today.month] == TotalExpense(expenses, today)
    ensures forall m :: 0 <= m < 12 && m != today.month ==> bar[m] == 0
  {
    var current := CurrentMonthExpense(expenses, today);
    var months := new int[12](_ => 0);
    var i := 0;
    while i < |current|
      invariant 0 <= i <= |current|
      invariant months[today.month] == Total(current[..i], ExpenseAmount)
      invariant forall m :: 0 <= m < 12 && m != today.month ==> months[m] == 0
    {
      var e := current[i];
      assert e in current;
      var slot := e.date.date.month;
      assert current[..i + 1][..i] == current[..i];
      months[slot] := months[slot] + ExpenseAmount(e);
      i := i + 1;
    }
    assert current[..i] == current;
    bar := months[..];
  }
}

=== FILE: array_sort.dfy ===
/**
 * `data.sort((a, b) => new Date(b.date) - new Date(a.date))`: JavaScript's
 * `Array.prototype.sort` is stable and sorts the array in place. The model
 * sorts by insertion, which is stable too, and proves the array ends up as
 * the descending sort `SortDesc` of its old contents.
 */
module ArraySort {
  import opened Folds

  /**
   * Where the insertion lands: `x` goes in front of a run of entries ranked
   * below it, right after an entry ranked at least as high (or at the start).
   */
  lemma {:induction false} InsertSplit<T>(ys: seq<T>, x: T, rank: T -> int, j: nat)
    requires j <= |ys| && (j == 0 || rank(ys[j - 1]) >= rank(x))
    requires forall k :: j <= k < |ys| ==> rank(ys[k]) < rank(x)
    ensures Insert(ys, x, rank) == ys[..j] + [x] + ys[j..]
    decreases |ys|
  {
    if j == |ys| {
      assert ys[..j] == ys && ys[j..] == [];
    } else {
      var init, last := ys[..|ys| - 1], ys[|ys| - 1];
      assert rank(last) < rank(x);
      assert Insert(ys, x, rank) == Insert(init, x, rank) + [last];
      assert j == 0 || init[j - 1] == ys[j - 1];
      assert forall k :: j <= k < |init| ==> init[k] == ys[k];
      InsertSplit(init, x, rank, j);
      assert init[..j] == ys[..j];
      assert init[j..] + [last] == ys[j..];
    }
  }

  /** The array after the pass: the prefix before the gap, then `x`, then the shifted entries. */
  lemma Assemble<T>(s: seq<T>, ys: seq<T>, x: T, j: nat)
    requires j <= |ys| && |s| == |ys| + 1
    requires forall k :: 0 <= k < j ==> s[k] == ys[k]
    requires s[j] == x
    requires forall k :: j < k <= |ys| ==> s[k] == ys[k - 1]
    ensures s == ys[..j] + [x] + ys[j..]
  {
  }

  /** One pass of the outer loop: shift the prefix entries ranked below `a[i]` one place right and drop `a[i]` in the gap. */
  method InsertAt<T>(a: array<T>, i: nat, rank: T -> int)
    requires i < a.Length
    modifies a
    ensures a[..i + 1] == Insert(old(a[..i]), old(a[i]), rank)
    ensures a[i + 1..] == old(a[i + 1..])
  {
    var x := a[i];
    ghost var ys := a[..i];
    var j := i;
    while j > 0 && rank(a[j - 1]) < rank(x)
      invariant 0 <= j <= i
      invariant forall k :: 0 <= k < j ==> a[k] == ys[k]
      invariant forall k :: j < k <= i ==> a[k] == ys[k - 1]
      invariant forall k :: i < k < a.Length ==> a[k] == old(a[k])
      invariant forall k :: j <= k < i ==> rank(ys[k]) < rank(x)
    {
      a[j] := a[j - 1];
      j := j - 1;
    }
    InsertSplit(ys, x, rank, j);
    a[j] := x;
    Assemble(a[..i + 1], ys, x, j);
  }

  /** The in-place sort: the array ends up as the stable descending sort of what it held. */
  method SortByDateDesc<T>(a: array<T>, rank: T -> int)
    modifies a
    ensures a[..] == SortDesc(old(a[..]), rank)
  {
    ghost var input := a[..];
    var i := 0;
    while i < a.Length
      invariant 0 <= i <= a.Length
      invariant a[..i] == SortDesc(input[..i], rank)
      invariant a[i..] == input[i..]
    {
      InsertAt(a, i, rank);
      assert input[..i + 1][..i] == input[..i];
      assert a[i + 1..] == input[i + 1..] by {
        assert input[i..][1..] == input[i + 1..];
      }
      i := i + 1;
    }
    assert input[..i] == input;
  }
}

=== FILE: basics.dfy ===
/** Small value types shared by the whole model. */
module Basics {

  datatype Option<T> = None | Some(value: T)

  /** A document id (`_id`) and a user id (`user`, `req.user.id`). */
  type Id = nat
  type UserId = nat

  /**
   * The characters that JavaScript's String.prototype.trim removes: the
   * ECMAScript WhiteSpace set (tab, vertical tab, form feed, the Zs space
   * separators, no-break space and the byte order mark) and the
   * LineTerminator set (line feed, carriage return, U+2028 and U+2029).
   */
  predicate IsSpace(c: char)
  {
    || c == '\t' || c == '\U{000B}' || c == '\U{000C}' || c == ' ' || c == '\U{00A0}' || c == '\U{FEFF}'
    || c == '\U{1680}' || ('\U{2000}' <= c <= '\U{200A}') || c == '\U{202F}' || c == '\U{205F}' || c == '\U{3000}'
    || c == '\n' || c == '\r' || c == '\U{2028}' || c == '\U{2029}'
  }

  /** A title ending in a no-break space is stored without it, as `trim` does. */
  lemma TrimDropsNoBreakSpace()
    ensures Trim("Lunch\U{00A0}") == "Lunch"
  {
    assert TrimStart("Lunch\U{00A0}") == "Lunch\U{00A0}";
    assert "Lunch\U{00A0}"[..5] == "Lunch";
  }

  function TrimStart(s: string): (r: string)
    ensures |r| <= |s| && r == s[|s| - |r|..]
    ensures r == [] || !IsSpace(r[0])
    ensures forall i :: 0 <= i < |s| - |r| ==> IsSpace(s[i])
  {
    if s != [] && IsSpace(s[0]) then TrimStart(s[1..]) else s
  }

  function TrimEnd(s: string): (r: string)
    ensures |r| <= |s| && r == s[..|r|]
    ensures r == [] || !IsSpace(r[|r| - 1])
    ensures forall i :: |r| <= i < |s| ==> IsSpace(s[i])
  {
    if s != [] && IsSpace(s[|s| - 1]) then TrimEnd(s[..|s| - 1]) else s
  }

  /** String.prototype.trim: drops leading and trailing white space and nothing else. */
  function Trim(s: string): (r: string)
    ensures r == [] || (!IsSpace(r[0]) && !IsSpace(r[|r| - 1]))
  {
    TrimEnd(TrimStart(s))
  }

  /** Trimming twice changes nothing more: a stored, trimmed field is a fixed point. */
  lemma {:induction false} TrimIdempotent(s: string)
    ensures Trim(Trim(s)) == Trim(s)
  {
    var t := Trim(s);
    assert TrimStart(t) == t;
    assert TrimEnd(t) == t;
  }
}

=== FILE: calendar_view.dfy ===
/**
 * The calendar page: a month grid (blank cells up to the weekday of the 1st,
 * then one cell per day), month stepping, a dot on days with expenses, and
 * a popup with the selected day's expenses, their total and category pie.
 * The grid geometry itself (FirstDay, LastDate, Grid, PrevMonth, NextMonth)
 * is defined with the calendar arithmetic in module Dates.
 */
module CalendarView {
  import opened Basics
  import opened Dates
  import opened Folds
  import opened Records

  /** The test `hasExpenseOnDate(n)` runs: getDate(), getMonth() and getFullYear() all match. */
  function OnGridDay(ym: Month, n: int): Expense -> bool
  {
    (e: Expense) => e.date.On? && e.date.date.day == n && e.date.date.month == ym.month && e.date.date.year == ym.year
  }

  /** `hasExpenseOnDate(n)`: `expenses.some(...)` for day n of the displayed month. */
  function HasExpenseOnDate(expenses: seq<Expense>, ym: Month, n: int): bool
  {
    Any(expenses, OnGridDay(ym, n))
  }

  /** The day a click on cell n selects: `new Date(year, month, n)`. */
  function ClickedDay(ym: Month, n: int): Day
    requires ValidMonth(ym) && 1 <= n <= LastDate(ym)
  {
    Date(ym.year, ym.month, n)
  }

  /** `selectedDayExpenses`: nothing without a selection, else the expenses on the selected day. */
  function SelectedDayExpenses(expenses: seq<Expense>, selected: Option<Day>): (r: seq<Expense>)
    ensures selected.None? ==> r == []
    ensures Subseq(r, expenses)
    ensures selected.Some? ==> forall e :: e in r <==> e in expenses && e.date == On(selected.value)
  {
    if selected.None? then
      EmptySubseq(expenses);
      []
    else
      FilterSpec(expenses, ExpenseOnDay(selected.value));
      Filter(expenses, ExpenseOnDay(selected.value))
  }

  /**
   * The dot on cell n appears exactly when some expense falls on that day,
   * that is exactly when clicking the cell opens a non-empty list.
   */
  lemma DotMeansExpenses(expenses: seq<Expense>, ym: Month, n: int)
    requires ValidMonth(ym) && 1 <= n <= LastDate(ym)
    ensures HasExpenseOnDate(expenses, ym, n)
        <==> exists i :: 0 <= i < |expenses| && expenses[i].date == On(ClickedDay(ym, n))
    ensures HasExpenseOnDate(expenses, ym, n) <==> SelectedDayExpenses(expenses, Some(ClickedDay(ym, n))) != []
  {
    AnySpec(expenses, OnGridDay(ym, n));
    AnySpec(expenses, ExpenseOnDay(ClickedDay(ym, n)));
    if HasExpenseOnDate(expenses, ym, n) {
      var i :| 0 <= i < |expenses| && OnGridDay(ym, n)(expenses[i]);
      assert expenses[i].date == On(ClickedDay(ym, n));
    }
  }

  /** `dailyTotal`: the selected day's amounts, absent ones as 0. */
  function DailyTotal(selected: seq<Expense>): int
  {
    Total(selected, ExpenseAmount)
  }

  /** `categoryData`: the reduce into `acc[e.category]`, listed with `Object.entries`. */
  function CategoryData(selected: seq<Expense>): seq<(string, int)>
  {
    CategorySums(selected, ExpenseCategory, ExpenseAmount)
  }

  /** One slice per distinct category key, each its category's sum, together `dailyTotal`. */
  lemma CategoryDataSpec(selected: seq<Expense>)
    ensures Distinct(Keys(selected, ExpenseCategory)) && |CategoryData(selected)| == |Keys(selected, ExpenseCategory)|
    ensures forall i :: 0 <= i < |CategoryData(selected)| ==>
      CategoryData(selected)[i].1 == Total(Select(selected, ExpenseCategory, CategoryData(selected)[i].0), ExpenseAmount)
    ensures SumValues(CategoryData(selected)) == DailyTotal(selected)
  {
    CategorySumsSpec(selected, ExpenseCategory, ExpenseAmount);
    CategorySumsTotal(selected, ExpenseCategory, ExpenseAmount);
  }

  /** Without a selection the popup list is empty and so are its total and pie. */
  lemma NoSelection(expenses: seq<Expense>)
    ensures DailyTotal(SelectedDayExpenses(expenses, None)) == 0
    ensures CategoryData(SelectedDayExpenses(expenses, None)) == []
  {
  }
}

=== FILE: category_analyzer.dfy ===
/**
 * The category analysis panel: a period selector (initially "All") and a
 * pie of per-category sums built with a `reduce` over the selected expenses.
 */
module CategoryAnalyzer {
  import opened Basics
  import opened Dates
  import opened Folds
  import opened Records

  /** `timeFilter`: four periods; "All" and any unmatched value apply no date filter. */
  datatype Period = Today | Week | ThisMonth | ThisYear | All(name: string)

  function Keep(p: Period, today: Day): Expense -> bool
  {
    match p
    case Today => ExpenseOnDay(today)
    case Week => ExpenseInDays(CalendarWeek(today).0, CalendarWeek(today).1)
    case ThisMonth => ExpenseInMonth(today)
    case ThisYear => ExpenseInYear(today)
    case All(_) => (e: Expense) => true
  }

  function Filtered(expenses: seq<Expense>, p: Period, today: Day): (r: seq<Expense>)
    ensures Subseq(r, expenses)
    ensures forall e :: e in r <==> e in expenses && Keep(p, today)(e)
  {
    FilterSpec(expenses, Keep(p, today));
    Filter(expenses, Keep(p, today))
  }

  /**
   * The week runs from the Sunday on or before today through the following
   * Saturday: it holds today, spans seven days and starts on a Sunday.
   */
  lemma WeekIsCalendarWeek(e: Expense, today: Day)
    ensures Keep(Week, today)(e) <==> e.date.On? && CalendarWeek(today).0 <= DayNumber(e.date.date) <= CalendarWeek(today).0 + 6
    ensures Keep(Today, today)(e) ==> Keep(Week, today)(e)
    ensures (CalendarWeek(today).0 + 6) % 7 == 0
  {
    var w := CalendarWeek(today);
    assert w.0 <= DayNumber(today) <= w.1;
  }

  /** "All", or an unmatched value, keeps every expense. */
  lemma AllKeepsEverything(expenses: seq<Expense>, name: string, today: Day)
    ensures Filtered(expenses, All(name), today) == expenses
  {
    FilterAll(expenses, Keep(All(name), today));
  }

  /** `expense.category || "Other"`: an absent or empty category is counted as "Other". */
  function CategoryOrOther(e: Expense): (k: string)
    ensures k != ""
    ensures e.category.None? || e.category == Some("") ==> k == "Other"
  {
    if e.category.None? || e.category.value == "" then "Other" else e.category.value
  }

  /** `chartData`: `Object.entries` of the reduced object. */
  function ChartData(filtered: seq<Expense>): seq<(string, int)>
  {
    CategorySums(filtered, CategoryOrOther, ExpenseAmount)
  }

  /**
   * One entry per distinct category, each summing that category's records,
   * every category carried by at least one record (no empty slice), and the
   * amounts adding up to the total of the selected records.
   */
  lemma ChartDataSpec(filtered: seq<Expense>)
    ensures Distinct(Keys(filtered, CategoryOrOther)) && |ChartData(filtered)| == |Keys(filtered, CategoryOrOther)|
    ensures forall i :: 0 <= i < |ChartData(filtered)| ==>
      ChartData(filtered)[i].1 == Total(Select(filtered, CategoryOrOther, ChartData(filtered)[i].0), ExpenseAmount)
    ensures forall i :: 0 <= i < |ChartData(filtered)| ==> HasKey(filtered, CategoryOrOther, ChartData(filtered)[i].0)
    ensures SumValues(ChartData(filtered)) == Total(filtered, ExpenseAmount)
  {
    CategorySumsSpec(filtered, CategoryOrOther, ExpenseAmount);
    CategorySumsTotal(filtered, CategoryOrOther, ExpenseAmount);
  }

  /** A selected record with no category makes an "Other" entry appear. */
  lemma UncategorisedIsOther(filtered: seq<Expense>, j: int)
    requires 0 <= j < |filtered| && filtered[j].category.None?
    ensures "Other" in Keys(filtered, CategoryOrOther)
  {
    KeyListed(filtered, CategoryOrOther, j);
  }
}

=== FILE: daily_expense.dfy ===
/** The "Today's Expenses" page: today's records, their per-category pie and their total. */
module DailyExpense {
  import opened Dates
  import opened Folds
  import opened Records
  import opened Tally

  /** `todayExpenses`: the records dated today, in input order. */
  function TodayExpenses(expenses: seq<Expense>, today: Day): (r: seq<Expense>)
    ensures Subseq(r, expenses)
    ensures forall e :: e in r <==> e in expenses && e.date == On(today)
  {
    FilterSpec(expenses, ExpenseOnDay(today));
    Filter(expenses, ExpenseOnDay(today))
  }

  /** `categoryData`: the `forEach` filling `map[e.category]`, then `Object.entries`. */
  method CategoryData(todays: seq<Expense>) returns (entries: seq<(string, int)>)
    ensures entries == CategorySums(todays, ExpenseCategory, ExpenseAmount)
  {
    entries := SumByKey(todays, ExpenseCategory, ExpenseAmount);
  }

  function TotalAmount(todays: seq<Expense>): int
  {
    Total(todays, ExpenseAmount)
  }

  /**
   * One pie entry per distinct category of today's records, in order of first
   * appearance, each that category's sum, the entries adding up to `totalAmount`.
   */
  lemma CategoryDataSpec(expenses: seq<Expense>, today: Day)
    ensures Distinct(Keys(TodayExpenses(expenses, today), ExpenseCategory))
    ensures |CategorySums(TodayExpenses(expenses, today), ExpenseCategory, ExpenseAmount)| == |Keys(TodayExpenses(expenses, today), ExpenseCategory)|
    ensures var todays := TodayExpenses(expenses, today);
      forall i :: 0 <= i < |Keys(todays, ExpenseCategory)| ==>
        CategorySums(todays, ExpenseCategory, ExpenseAmount)[i]
          == (Keys(todays, ExpenseCategory)[i], Total(Select(todays, ExpenseCategory, Keys(todays, ExpenseCategory)[i]), ExpenseAmount))
    ensures forall i :: 0 <= i < |Keys(TodayExpenses(expenses, today), ExpenseCategory)| ==>
      HasKey(TodayExpenses(expenses, today), ExpenseCategory, Keys(TodayExpenses(expenses, today), ExpenseCategory)[i])
    ensures SumValues(CategorySums(TodayExpenses(expenses, today), ExpenseCategory, ExpenseAmount))
         == TotalAmount(TodayExpenses(expenses, today))
  {
    CategorySumsSpec(TodayExpenses(expenses, today), ExpenseCategory, ExpenseAmount);
    CategorySumsTotal(TodayExpenses(expenses, today), ExpenseCategory, ExpenseAmount);
  }

  /** With nothing dated today the pie is empty and the total 0. */
  lemma NothingToday(expenses: seq<Expense>, today: Day)
    requires forall i :: 0 <= i < |expenses| ==> expenses[i].date != On(today)
    ensures CategorySums(TodayExpenses(expenses, today), ExpenseCategory, ExpenseAmount) == []
    ensures TotalAmount(TodayExpenses(expenses, today)) == 0
  {
    FilterNone(expenses, ExpenseOnDay(today));
  }
}

=== FILE: dates.dfy ===
/**
 * Calendar days as the views see them through JavaScript's Date getters:
 * getFullYear(), getMonth() (0 = January) and getDate(). Time of day and
 * time zones are not part of the model.
 */
module Dates {

  datatype Date = Date(year: int, month: int, day: int)

  predicate IsLeapYear(y: int)
  {
    (y % 4 == 0 && y % 100 != 0) || y % 400 == 0
  }

  /** Length of month `m` (0-based) of year `y` in the Gregorian calendar. */
  function DaysInMonth(y: int, m: int): (n: int)
    requires 0 <= m < 12
    ensures 28 <= n <= 31
  {
    if m == 1 then (if IsLeapYear(y) then 29 else 28)
    else if m == 3 || m == 5 || m == 8 || m == 10 then 30
    else 31
  }

  predicate ValidDate(d: Date)
  {
    0 <= d.month < 12 && 1 <= d.day <= DaysInMonth(d.year, d.month)
  }

  /** A calendar day that exists: what a parsed JavaScript Date denotes. */
  type Day = d: Date | ValidDate(d) witness Date(1970, 0, 1)

  /** A record's date field: absent, present but unparseable (an Invalid Date), or a day. */
  datatype When = Missing | Invalid | On(date: Day)

  /** Number of leap years in [0, y), negative for negative y (floor division). */
  function LeapYearsBefore(y: int): int
  {
    (y + 3) / 4 - (y + 99) / 100 + (y + 399) / 400
  }

  function DaysBeforeYear(y: int): int
  {
    365 * y + LeapYearsBefore(y)
  }

  function DaysBeforeMonth(y: int, m: int): int
    requires 0 <= m <= 12
  {
    if m == 0 then 0 else DaysBeforeMonth(y, m - 1) + DaysInMonth(y, m - 1)
  }

  function YearLength(y: int): int
  {
    if IsLeapYear(y) then 366 else 365
  }

  /** Days elapsed since 0000-01-01 of the proleptic Gregorian calendar. */
  function DayNumber(d: Date): int
    requires 0 <= d.month < 12
  {
    DaysBeforeYear(d.year) + DaysBeforeMonth(d.year, d.month) + d.day - 1
  }

  /** Date.prototype.getDay(): 0 = Sunday ... 6 = Saturday (0000-01-01 was a Saturday). */
  function Weekday(d: Day): (w: int)
    ensures 0 <= w < 7
  {
    WeekdayOfNumber(DayNumber(d))
  }

  /** The weekday of day number `n`. */
  function WeekdayOfNumber(n: int): int
  {
    (n + 6) % 7
  }

  // ---------------------------------------------------------------- arithmetic

  /** Adding `n` commutes with reducing modulo 7. */
  lemma ModSevenShift(a: int, n: int)
    ensures (a % 7 + n) % 7 == (a + n) % 7
  {
    var q := a / 7;
    assert a == 7 * q + a % 7;
    assert a + n == 7 * q + (a % 7 + n);
  }

  /** One year further moves the day count on by exactly that year's length. */
  lemma DaysBeforeNextYear(y: int)
    ensures DaysBeforeYear(y + 1) == DaysBeforeYear(y) + YearLength(y)
  {
    LeapStep(y);
  }

  /** Year `y` adds one to the leap-year count exactly when it is a leap year. */
  lemma LeapStep(y: int)
    ensures LeapYearsBefore(y + 1) == LeapYearsBefore(y) + (if IsLeapYear(y) then 1 else 0)
  {
    CeilStep(y, 4);
    CeilStep(y, 100);
    CeilStep(y, 400);
    if y % 100 == 0 {
      CenturyIsMultipleOfFour(y);
    }
    if y % 400 == 0 {
      FourCenturiesIsCentury(y);
    }
  }

  lemma CenturyIsMultipleOfFour(y: int)
    requires y % 100 == 0
    ensures y % 4 == 0
  {
    var q := y / 100;
    assert y == 4 * (25 * q);
  }

  lemma FourCenturiesIsCentury(y: int)
    requires y % 400 == 0
    ensures y % 100 == 0
  {
    var q := y / 400;
    assert y == 100 * (4 * q);
  }

  /** The count of multiples of `k` below `y` grows by one exactly when `y` itself is one. */
  lemma CeilStep(y: int, k: int)
    requires k == 4 || k == 100 || k == 400
    ensures (y + k) / k - (y + k - 1) / k == (if y % k == 0 then 1 else 0)
  {
    var q, r := y / k, y % k;
    assert y == k * q + r && 0 <= r < k;
    assert (y + k) / k == q + 1 by {
      assert y + k == k * (q + 1) + r;
    }
    if r == 0 {
      assert (y + k - 1) / k == q by {
        assert y + k - 1 == k * q + (k - 1);
      }
    } else {
      assert (y + k - 1) / k == q + 1 by {
        assert y + k - 1 == k * (q + 1) + (r - 1);
      }
    }
  }

  /** The twelve months of a year add up to the year's length. */
  lemma WholeYear(y: int)
    ensures DaysBeforeMonth(y, 12) == YearLength(y)
  {
    assert DaysBeforeMonth(y, 1) == 31;
    assert DaysBeforeMonth(y, 2) == 31 + DaysInMonth(y, 1);
    assert DaysBeforeMonth(y, 3) == 62 + DaysInMonth(y, 1);
    assert DaysBeforeMonth(y, 4) == 92 + DaysInMonth(y, 1);
    assert DaysBeforeMonth(y, 5) == 123 + DaysInMonth(y, 1);
    assert DaysBeforeMonth(y, 6) == 153 + DaysInMonth(y, 1);
    assert DaysBeforeMonth(y, 7) == 184 + DaysInMonth(y, 1);
    assert DaysBeforeMonth(y, 8) == 215 + DaysInMonth(y, 1);
    assert DaysBeforeMonth(y, 9) == 245 + DaysInMonth(y, 1);
    assert DaysBeforeMonth(y, 10) == 276 + DaysInMonth(y, 1);
    assert DaysBeforeMonth(y, 11) == 306 + DaysInMonth(y, 1);
  }

  lemma {:induction false} DaysBeforeMonthGrows(y: int, m: int, n: int)
    requires 0 <= m <= n <= 12
    ensures DaysBeforeMonth(y, m) <= DaysBeforeMonth(y, n)
    decreases n - m
  {
    if m < n {
      DaysBeforeMonthGrows(y, m, n - 1);
    }
  }

  lemma {:induction false} DaysBeforeYearGrows(y: int, z: int)
    requires y <= z
    ensures DaysBeforeYear(y) + 365 * (z - y) <= DaysBeforeYear(z)
    decreases z - y
  {
    if y < z {
      DaysBeforeYearGrows(y, z - 1);
      DaysBeforeNextYear(z - 1);
    }
  }

  /** A day's offset inside its year is less than the year's length. */
  lemma OffsetWithinYear(d: Day)
    ensures 0 <= DaysBeforeMonth(d.year, d.month) + d.day - 1 < YearLength(d.year)
  {
    assert DaysBeforeMonth(d.year, d.month + 1) == DaysBeforeMonth(d.year, d.month) + DaysInMonth(d.year, d.month);
    DaysBeforeMonthGrows(d.year, 0, d.month);
    DaysBeforeMonthGrows(d.year, d.month + 1, 12);
    WholeYear(d.year);
  }

  /** A day's number lies inside its own year's range of numbers. */
  lemma DayNumberWithinYear(d: Day)
    ensures DaysBeforeYear(d.year) <= DayNumber(d) < DaysBeforeYear(d.year + 1)
  {
    OffsetWithinYear(d);
    DaysBeforeNextYear(d.year);
  }

  // ---------------------------------------------------------------- order

  /** Chronological order of calendar days. */
  predicate Before(a: Date, b: Date)
  {
    a.year < b.year
    || (a.year == b.year && a.month < b.month)
    || (a.year == b.year && a.month == b.month && a.day < b.day)
  }

  /** Day numbers follow the calendar, so comparing them compares dates. */
  lemma DayNumberOrdered(a: Day, b: Day)
    requires Before(a, b)
    ensures DayNumber(a) < DayNumber(b)
  {
    if a.year < b.year {
      DayNumberWithinYear(a);
      DayNumberWithinYear(b);
      DaysBeforeYearGrows(a.year + 1, b.year);
    } else if a.month < b.month {
      DaysBeforeMonthGrows(a.year, a.month + 1, b.month);
    }
  }

  /** Distinct days have distinct numbers. */
  lemma DayNumberInjective(a: Day, b: Day)
    requires DayNumber(a) == DayNumber(b)
    ensures a == b
  {
    if Before(a, b) {
      DayNumberOrdered(a, b);
    } else if Before(b, a) {
      DayNumberOrdered(b, a);
    }
  }

  // ---------------------------------------------------------------- periods of records

  /** `toDateString()` equality: the same calendar day as `today`. */
  predicate SameDay(w: When, today: Day)
  {
    w == On(today)
  }

  /** Same getMonth() and getFullYear() as `today`; an Invalid Date yields NaN and never matches. */
  predicate SameMonth(w: When, today: Day)
  {
    w.On? && w.date.month == today.month && w.date.year == today.year
  }

  predicate SameYear(w: When, today: Day)
  {
    w.On? && w.date.year == today.year
  }

  /** Between two day numbers, both ends included; an Invalid Date compares false. */
  predicate InDays(w: When, lo: int, hi: int)
  {
    w.On? && lo <= DayNumber(w.date) <= hi
  }

  /** The calendar day just before `today` (what `setDate(getDate() - 1)` yields). */
  predicate IsYesterday(w: When, today: Day)
  {
    w.On? && DayNumber(w.date) + 1 == DayNumber(today)
  }

  /** A day that is in the month of `today` shares its year, and one on `today` shares its month. */
  lemma PeriodsNest(w: When, today: Day)
    ensures SameDay(w, today) ==> SameMonth(w, today)
    ensures SameMonth(w, today) ==> SameYear(w, today)
  {
  }

  /** Rolling week: from 00:00 six days before `today` to the end of `today`. */
  function RollingWeek(today: Day): (r: (int, int))
    ensures r.1 - r.0 == 6 && r.1 == DayNumber(today)
  {
    (DayNumber(today) - 6, DayNumber(today))
  }

  /** Calendar week: the Sunday on or before `today` through the Saturday after it. */
  function CalendarWeek(today: Day): (r: (int, int))
    ensures r.1 - r.0 == 6
    ensures r.0 <= DayNumber(today) <= r.1
    ensures (r.0 + 6) % 7 == 0
  {
    SundayStart(DayNumber(today));
    var start := DayNumber(today) - Weekday(today);
    (start, start + 6)
  }

  /** Going back by the weekday lands on a Sunday. */
  lemma SundayStart(n: int)
    ensures (n - WeekdayOfNumber(n) + 6) % 7 == 0
  {
    var q := (n + 6) / 7;
    assert n + 6 == 7 * q + (n + 6) % 7;
    assert n - (n + 6) % 7 + 6 == 7 * q;
  }

  // ---------------------------------------------------------------- month grid

  /** A displayed month: `currentDate.getFullYear()` and `getMonth()`. */
  datatype Month = Month(year: int, month: int)

  predicate ValidMonth(ym: Month)
  {
    0 <= ym.month < 12
  }

  /** `new Date(year, month - 1, 1)`: the month index -1 rolls back into December of the previous year. */
  function PrevMonth(ym: Month): (r: Month)
    requires ValidMonth(ym)
    ensures ValidMonth(r)
    ensures 12 * r.year + r.month == 12 * ym.year + ym.month - 1
  {
    if ym.month == 0 then Month(ym.year - 1, 11) else Month(ym.year, ym.month - 1)
  }

  /** `new Date(year, month + 1, 1)`: month index 12 rolls over into January of the next year. */
  function NextMonth(ym: Month): (r: Month)
    requires ValidMonth(ym)
    ensures ValidMonth(r)
    ensures 12 * r.year + r.month == 12 * ym.year + ym.month + 1
  {
    if ym.month == 11 then Month(ym.year + 1, 0) else Month(ym.year, ym.month + 1)
  }

  /** Stepping back and forth returns to the displayed month. */
  lemma MonthStepsInverse(ym: Month)
    requires ValidMonth(ym)
    ensures NextMonth(PrevMonth(ym)) == ym && PrevMonth(NextMonth(ym)) == ym
  {
  }

  function FirstOf(ym: Month): Day
    requires ValidMonth(ym)
  {
    Date(ym.year, ym.month, 1)
  }

  /**
   * `new Date(year, month + 1, 0).getDate()`: the day before the 1st of the
   * next month, so the number of days of the displayed month.
   */
  function LastDate(ym: Month): (n: int)
    requires ValidMonth(ym)
    ensures 28 <= n <= 31
    ensures ValidDate(Date(ym.year, ym.month, n))
    ensures DayNumber(Date(ym.year, ym.month, n)) + 1 == DayNumber(FirstOf(NextMonth(ym)))
    ensures ym.month == 1 ==> (n == 29 <==> IsLeapYear(ym.year))
  {
    WholeYear(ym.year);
    DaysBeforeNextYear(ym.year);
    DaysInMonth(ym.year, ym.month)
  }

  /** `new Date(year, month, 1).getDay()`: how many blank cells precede the 1st. */
  function FirstDay(ym: Month): (w: int)
    requires ValidMonth(ym)
    ensures 0 <= w < 7 && w == Weekday(FirstOf(ym))
  {
    Weekday(FirstOf(ym))
  }

  /** `k` days after `d` the weekday has moved on by `k` (mod 7). */
  lemma WeekdayShift(d: Day, e: Day, k: int)
    requires DayNumber(e) == DayNumber(d) + k
    ensures Weekday(e) == (Weekday(d) + k) % 7
  {
    NumberShift(DayNumber(d), DayNumber(e), k);
  }

  lemma NumberShift(a: int, b: int, k: int)
    requires b == a + k
    ensures WeekdayOfNumber(b) == (WeekdayOfNumber(a) + k) % 7
  {
    ModSevenShift(a + 6, k);
  }

  /** The next month's grid starts in the column after this month's last day. */
  lemma NextMonthContinuesWeek(ym: Month)
    requires ValidMonth(ym)
    ensures FirstDay(NextMonth(ym)) == (FirstDay(ym) + LastDate(ym)) % 7
  {
    var n := LastDate(ym);
    WeekdayShift(FirstOf(ym), FirstOf(NextMonth(ym)), n);
  }

  datatype Cell = Blank | DayCell(day: int)

  /** The calendar body: `firstDay` blank cells, then one cell per day 1..lastDate. */
  function Grid(ym: Month): (cells: seq<Cell>)
    requires ValidMonth(ym)
  {
    seq(FirstDay(ym), _ => Blank) + seq(LastDate(ym), i => DayCell(i + 1))
  }

  /** The cell after the `firstDay` blanks and `n - 1` days is day `n`. */
  lemma GridCell(ym: Month, n: int)
    requires ValidMonth(ym) && 1 <= n <= LastDate(ym)
    ensures |Grid(ym)| == FirstDay(ym) + LastDate(ym)
    ensures Grid(ym)[FirstDay(ym) + n - 1] == DayCell(n)
  {
    var first, last := FirstDay(ym), LastDate(ym);
    var blanks, days := seq(first, _ => Blank), seq(last, i => DayCell(i + 1));
    assert Grid(ym) == blanks + days;
    assert (blanks + days)[first + n - 1] == days[n - 1];
  }

  /** Day n sits in the grid's column (0 = Sunday) of its weekday, and no cell is lost. */
  lemma GridColumns(ym: Month, n: int)
    requires ValidMonth(ym) && 1 <= n <= LastDate(ym)
    ensures |Grid(ym)| == FirstDay(ym) + LastDate(ym)
    ensures Grid(ym)[FirstDay(ym) + n - 1] == DayCell(n)
    ensures ValidDate(Date(ym.year, ym.month, n))
    ensures (FirstDay(ym) + n - 1) % 7 == Weekday(Date(ym.year, ym.month, n))
  {
    GridCell(ym, n);
    var d: Day := Date(ym.year, ym.month, n);
    assert DayNumber(d) == DayNumber(FirstOf(ym)) + n - 1;
    WeekdayShift(FirstOf(ym), d, n - 1);
  }

  /** Anchors the weekday numbering: 1970-01-01 was a Thursday and 2024-01-10 a Wednesday. */
  lemma WeekdayAnchors()
    ensures Weekday(Date(1970, 0, 1)) == 4
    ensures Weekday(Date(2024, 0, 10)) == 3
  {
  }

  /** The rolling week ending 2024-01-10 starts on 2024-01-04 and leaves out 2024-01-03. */
  lemma RollingWeekExample()
    ensures InDays(On(Date(2024, 0, 4)), RollingWeek(Date(2024, 0, 10)).0, RollingWeek(Date(2024, 0, 10)).1)
    ensures !InDays(On(Date(2024, 0, 3)), RollingWeek(Date(2024, 0, 10)).0, RollingWeek(Date(2024, 0, 10)).1)
  {
  }
}

=== FILE: expense_calendar.dfy ===
/** The small calendar widget: each day tile shows that day's expense total when it is non-zero. */
module ExpenseCalendar {
  import opened Basics
  import opened Dates
  import opened Folds
  import opened Records

  /** `getTotalForDate(date)`: the amounts of the expenses on that calendar day. */
  function TotalForDate(expenses: seq<Expense>, date: Day): int
  {
    Total(Filter(expenses, ExpenseOnDay(date)), ExpenseAmount)
  }

  /** The tile's content: the total when it is truthy (non-zero), otherwise nothing. */
  function TileContent(expenses: seq<Expense>, date: Day): (r: Option<int>)
    ensures r.Some? <==> TotalForDate(expenses, date) != 0
    ensures r.Some? ==> r.value == TotalForDate(expenses, date)
  {
    var total := TotalForDate(expenses, date);
    if total != 0 then Some(total) else None
  }

  /** One expense at a time: it adds its amount exactly when it is on that day. */
  lemma TotalForDateSnoc(expenses: seq<Expense>, e: Expense, date: Day)
    ensures TotalForDate([], date) == 0
    ensures TotalForDate(expenses + [e], date)
         == TotalForDate(expenses, date) + (if e.date == On(date) then ExpenseAmount(e) else 0)
  {
    TotalFilterSnoc(expenses, e, ExpenseOnDay(date), ExpenseAmount);
  }

  /** A day without expenses totals 0 and its tile stays empty. */
  lemma EmptyDay(expenses: seq<Expense>, date: Day)
    requires forall i :: 0 <= i < |expenses| ==> expenses[i].date != On(date)
    ensures TotalForDate(expenses, date) == 0
    ensures TileContent(expenses, date).None?
  {
    FilterNone(expenses, ExpenseOnDay(date));
  }

  /** With non-negative amounts the total is non-negative. */
  lemma TotalNonNegativeOnDay(expenses: seq<Expense>, date: Day)
    requires forall i :: 0 <= i < |expenses| ==> ExpenseAmount(expenses[i]) >= 0
    ensures TotalForDate(expenses, date) >= 0
  {
    var f := Filter(expenses, ExpenseOnDay(date));
    FilterSpec(expenses, ExpenseOnDay(date));
    forall i | 0 <= i < |f|
      ensures ExpenseAmount(f[i]) >= 0
    {
      assert f[i] in expenses;
    }
    TotalNonNegative(f, ExpenseAmount);
  }
}

=== FILE: expense_controller.dfy ===
/**
 * The expense controller over the expense collection: add, get and delete,
 * each scoped to the authenticated caller. The collection is a list of
 * documents plus the next free id; a status code stands for each response.
 */
module ExpenseController {
  import opened Basics
  import opened Dates
  import opened Folds
  import opened ExpenseModel
  import opened ListEdits

  /** The `add-expense` body; absent text is "", an absent or empty date is Missing. */
  datatype AddBody = AddBody(title: string, amount: Option<int>, category: string, date: When, notes: string)

  /** `!title || !amount || !category || !date` fails: all four truthy (an amount of 0 is falsy). */
  predicate Complete(b: AddBody)
  {
    b.title != "" && b.amount.Some? && b.amount.value != 0 && b.category != "" && !b.date.Missing?
  }

  /** What `addExpense` hands to `Expense.create`: `notes || ""` and the caller as owner. */
  function FieldsOf(user: UserId, b: AddBody): ExpenseFields
  {
    ExpenseFields(Some(user), Some(b.title), b.amount, Some(b.category), b.date, Some(b.notes))
  }

  function Rank(d: ExpenseDoc): int
  {
    DayNumber(d.date)
  }

  function OwnedBy(user: UserId): ExpenseDoc -> bool
  {
    (d: ExpenseDoc) => d.user == Some(user)
  }

  function DocId(d: ExpenseDoc): Id
  {
    d.id
  }

  /** Some document has this id and this owner (what `findOneAndDelete({ _id, user })` looks for). */
  predicate Owns(rows: seq<ExpenseDoc>, user: UserId, id: Id)
  {
    exists i :: 0 <= i < |rows| && rows[i].id == id && rows[i].user == Some(user)
  }

  class ExpenseStore {
    var rows: seq<ExpenseDoc>
    var nextId: Id

    /** Every stored document passed the schema, and ids are unique and below `nextId`. */
    ghost predicate Consistent()
      reads this
    {
      Stored(rows, nextId)
    }

    constructor ()
      ensures rows == [] && nextId == 0 && Consistent()
    {
      rows := [];
      nextId := 0;
    }

    /**
     * `addExpense`: 400 without a caller, 400 when a required field is falsy,
     * 400 when the schema refuses the document; otherwise 201 and the stored
     * document, owned by the caller, is appended.
     */
    method Add(user: Option<UserId>, body: AddBody, now: Day) returns (status: int, created: Option<ExpenseDoc>)
      requires Consistent()
      modifies this
      ensures Consistent()
      ensures status == 201 || status == 400
      ensures status == 400 ==> rows == old(rows) && nextId == old(nextId) && created.None?
      ensures user.None? || !Complete(body) ==> status == 400
      ensures status == 201 <==> user.Some? && Complete(body) && Create(FieldsOf(user.value, body), old(nextId), now).Some?
      ensures status == 201 ==>
        && created == Create(FieldsOf(user.value, body), old(nextId), now)
        && rows == old(rows) + [created.value]
        && created.value.user == user
        && created.value.title == Some(Trim(body.title))
        && created.value.amount == body.amount && body.amount.value > 0
        && created.value.notes == Some(Trim(body.notes))
    {
      created := None;
      if user.None? || !Complete(body) {
        status := 400;
        return;
      }
      var doc := Create(FieldsOf(user.value, body), nextId, now);
      if doc.None? {
        status := 400;
        return;
      }
      StoreFresh(rows, nextId, doc.value);
      rows := rows + [doc.value];
      nextId := nextId + 1;
      created := doc;
      status := 201;
    }

    /** `getExpense`: 400 without a caller; otherwise the caller's documents, newest first. */
    method Get(user: Option<UserId>) returns (status: int, list: seq<ExpenseDoc>)
      ensures user.None? ==> status == 400 && list == []
      ensures user.Some? ==> status == 200
      ensures user.Some? ==> list == SortDesc(Filter(rows, OwnedBy(user.value)), Rank)
      ensures user.Some? ==> SortedDesc(list, Rank) && forall d :: d in list <==> d in rows && d.user == user
    {
      if user.None? {
        return 400, [];
      }
      var mine := Filter(rows, OwnedBy(user.value));
      list := SortDesc(mine, Rank);
      FilterSpec(rows, OwnedBy(user.value));
      SortDescSpec(mine, Rank);
      forall d
        ensures d in list <==> d in mine
      {
        assert d in list <==> d in multiset(list);
        assert d in mine <==> d in multiset(mine);
      }
      status := 200;
    }

    /**
     * `deleteExpense`: 400 without a caller, 400 when no document has both
     * this id and this owner (nothing changes then); otherwise 200 and that
     * document is removed, every other one kept in order.
     */
    method Delete(user: Option<UserId>, id: Id) returns (status: int)
      requires Consistent()
      modifies this
      ensures Consistent() && nextId == old(nextId)
      ensures user.None? || !Owns(old(rows), user.value, id) ==> status == 400 && rows == old(rows)
      ensures user.Some? && Owns(old(rows), user.value, id) ==>
        && status == 200
        && rows == RemoveId(old(rows), DocId, id)
        && |rows| == |old(rows)| - 1
        && forall d :: d in rows <==> d in old(rows) && d.id != id
    {
      if user.None? || !Owns(rows, user.value, id) {
        return 400;
      }
      var k :| 0 <= k < |rows| && rows[k].id == id && rows[k].user == Some(user.value);
      assert DocId(rows[k]) == id;
      RemoveUnique(rows, DocId, id);
      rows := RemoveId(rows, DocId, id);
      status := 200;
    }
  }

  /** Stored documents satisfy the store's invariant. */
  ghost predicate Stored(rows: seq<ExpenseDoc>, nextId: Id)
  {
    && (forall d :: d in rows ==> Valid(d) && d.id < nextId)
    && UniqueIds(rows, DocId)
  }

  /** Appending a document that passed the schema, under the next id, keeps the invariant. */
  lemma StoreFresh(rows: seq<ExpenseDoc>, nextId: Id, doc: ExpenseDoc)
    requires Stored(rows, nextId)
    requires Valid(doc) && doc.id == nextId
    ensures Stored(rows + [doc], nextId + 1)
  {
    var r := rows + [doc];
    forall i, j | 0 <= i < j < |r|
      ensures DocId(r[i]) != DocId(r[j])
    {
      if j < |rows| {
        assert r[i] == rows[i] && r[j] == rows[j];
      } else {
        assert r[i] in rows;
      }
    }
  }
}

=== FILE: expense_list.dfy ===
/**
 * The expense list page: a page of the fetched expenses at a time, grouped
 * into month and day sections with a total per day and per month, plus
 * delete and edit.
 */
module ExpenseList {
  import opened Basics
  import opened Dates
  import opened Folds
  import opened Records
  import opened Labels
  import opened MonthDay
  import opened ListEdits

  const PAGE_SIZE: nat := 10

  // ---------------------------------------------------------------- paging

  /** `expenses.slice(0, visibleCount)`. */
  function Visible(expenses: seq<Expense>, visibleCount: nat): seq<Expense>
  {
    Prefix(expenses, visibleCount)
  }

  /** The "Load more" button is rendered only while some expenses are hidden. */
  predicate ShowLoadMore(expenses: seq<Expense>, visibleCount: nat)
  {
    visibleCount < |expenses|
  }

  /** The button's click: ten more. */
  function LoadMore(visibleCount: nat): nat
  {
    visibleCount + PAGE_SIZE
  }

  /**
   * The visible list is the first `visibleCount` expenses (all of them when
   * fewer); the button shows exactly when that leaves some out, and a click
   * reveals the next ten (or the rest) while the visible ones stay in front.
   */
  lemma PagingSpec(expenses: seq<Expense>, visibleCount: nat)
    ensures Visible(expenses, visibleCount) == expenses[..|Visible(expenses, visibleCount)|]
    ensures ShowLoadMore(expenses, visibleCount) <==> |Visible(expenses, visibleCount)| < |expenses|
    ensures !ShowLoadMore(expenses, visibleCount) ==> Visible(expenses, visibleCount) == expenses
    ensures ShowLoadMore(expenses, visibleCount) ==>
      |Visible(expenses, LoadMore(visibleCount))|
        == (if |expenses| - visibleCount < PAGE_SIZE then |expenses| else visibleCount + PAGE_SIZE)
    ensures Visible(expenses, LoadMore(visibleCount))[..|Visible(expenses, visibleCount)|] == Visible(expenses, visibleCount)
  {
  }

  // ---------------------------------------------------------------- grouping

  function ExpenseMonth(e: Expense): MonthLabel
  {
    MonthOf(e.date)
  }

  function ExpenseDay(today: Day): Expense -> DayLabel
  {
    (e: Expense) => DayOf(e.date, today)
  }

  /** `groupExpenses()` over the visible expenses. */
  method GroupExpenses(expenses: seq<Expense>, visibleCount: nat, today: Day)
    returns (grouped: seq<Section<Expense, MonthLabel, DayLabel>>)
    ensures grouped == Sections(Visible(expenses, visibleCount), ExpenseMonth, ExpenseDay(today))
  {
    grouped := GroupByMonthDay(Visible(expenses, visibleCount), ExpenseMonth, ExpenseDay(today));
  }

  /**
   * An expense is filed under (month m, day d) exactly when it is visible and
   * its headings are m and d, so every visible expense lands in one group and
   * nothing beyond the page is grouped; a group keeps the list's order.
   */
  lemma Grouping(expenses: seq<Expense>, visibleCount: nat, today: Day, m: MonthLabel, d: DayLabel)
    ensures forall e :: e in Select(Select(Visible(expenses, visibleCount), ExpenseMonth, m), ExpenseDay(today), d)
                    <==> e in Visible(expenses, visibleCount) && ExpenseMonth(e) == m && DayOf(e.date, today) == d
    ensures Subseq(Select(Select(Visible(expenses, visibleCount), ExpenseMonth, m), ExpenseDay(today), d),
                   Visible(expenses, visibleCount))
    ensures forall e :: e in Select(Select(Visible(expenses, visibleCount), ExpenseMonth, m), ExpenseDay(today), d)
                    ==> e in expenses[..|Visible(expenses, visibleCount)|]
  {
    var v := Visible(expenses, visibleCount);
    Placement(v, ExpenseMonth, ExpenseDay(today), m, d);
    SubseqTransitive(Select(Select(v, ExpenseMonth, m), ExpenseDay(today), d), Select(v, ExpenseMonth, m), v);
  }

  /** Every visible expense's month is a heading, and its day a heading in that month. */
  lemma EveryVisibleExpenseIsFiled(expenses: seq<Expense>, visibleCount: nat, today: Day)
    ensures forall j :: 0 <= j < |Visible(expenses, visibleCount)| ==>
      ExpenseMonth(Visible(expenses, visibleCount)[j]) in Keys(Visible(expenses, visibleCount), ExpenseMonth)
    ensures forall j :: 0 <= j < |Visible(expenses, visibleCount)| ==>
      DayOf(Visible(expenses, visibleCount)[j].date, today)
        in Keys(Select(Visible(expenses, visibleCount), ExpenseMonth, ExpenseMonth(Visible(expenses, visibleCount)[j])), ExpenseDay(today))
  {
    SectionsSpec(Visible(expenses, visibleCount), ExpenseMonth, ExpenseDay(today));
  }

  /**
   * `dayTotal` and `monthTotal`: a month's total, computed by flattening its
   * days, is the sum of its day totals and the total of its expenses; the
   * month totals add up to the total of the visible page.
   */
  lemma Totals(expenses: seq<Expense>, visibleCount: nat, today: Day, m: MonthLabel)
    ensures MonthTotal(Groups(Select(Visible(expenses, visibleCount), ExpenseMonth, m), ExpenseDay(today)), ExpenseAmount)
         == SumValues(DayTotals(Groups(Select(Visible(expenses, visibleCount), ExpenseMonth, m), ExpenseDay(today)), ExpenseAmount))
    ensures MonthTotal(Groups(Select(Visible(expenses, visibleCount), ExpenseMonth, m), ExpenseDay(today)), ExpenseAmount)
         == Total(Select(Visible(expenses, visibleCount), ExpenseMonth, m), ExpenseAmount)
    ensures SumValues(CategorySums(Visible(expenses, visibleCount), ExpenseMonth, ExpenseAmount))
         == Total(Visible(expenses, visibleCount), ExpenseAmount)
  {
    SectionTotals(Visible(expenses, visibleCount), ExpenseMonth, ExpenseDay(today), ExpenseAmount, m);
  }

  // ---------------------------------------------------------------- delete and edit

  function ExpenseId(e: Expense): Id
  {
    e.id
  }

  /** `handleDelete` after the server confirmed: drop the expenses with that id. */
  function Delete(expenses: seq<Expense>, id: Id): (r: seq<Expense>)
    ensures forall e :: e in r <==> e in expenses && e.id != id
    ensures Subseq(r, expenses)
  {
    RemoveId(expenses, ExpenseId, id)
  }

  /** `handleEditSave` after the server answered: the updated record takes the place of the edited one. */
  function Edit(expenses: seq<Expense>, id: Id, updated: Expense): (r: seq<Expense>)
    ensures |r| == |expenses|
    ensures forall i :: 0 <= i < |expenses| ==> r[i] == if expenses[i].id == id then updated else expenses[i]
  {
    ReplaceId(expenses, ExpenseId, id, updated)
  }

  /**
   * Deleting shrinks the page only where the deleted expense was: an
   * expense that stays keeps its heading, so no other group changes.
   */
  lemma DeleteKeepsOtherGroups(expenses: seq<Expense>, id: Id, m: MonthLabel, d: DayLabel, today: Day)
    requires forall e :: e in expenses && e.id == id ==> ExpenseMonth(e) != m
    ensures forall e :: e in Select(Select(Delete(expenses, id), ExpenseMonth, m), ExpenseDay(today), d)
                    <==> e in Select(Select(expenses, ExpenseMonth, m), ExpenseDay(today), d)
  {
    Placement(expenses, ExpenseMonth, ExpenseDay(today), m, d);
    Placement(Delete(expenses, id), ExpenseMonth, ExpenseDay(today), m, d);
  }
}

=== FILE: expense_model.dfy ===
/**
 * The expense schema: the fields an expense document may hold, the
 * invariants Mongoose enforces when one is created, and the defaults it
 * fills in.
 */
module ExpenseModel {
  import opened Basics
  import opened Dates

  /** The eleven categories the schema's `enum` allows. */
  const CATEGORIES: seq<string> :=
    ["Food", "Dairy", "Rent", "Travel", "Shopping", "Health", "Entertainment", "Grocery", "Study", "Personal", "Other"]

  /** A stored expense document. */
  datatype ExpenseDoc = ExpenseDoc(
    id: Id,
    user: Option<UserId>,
    title: Option<string>,
    amount: Option<int>,
    category: string,
    date: Day,
    notes: Option<string>)

  /** The fields handed to `Expense.create`; an absent date is `Missing`, an unparseable one `Invalid`. */
  datatype ExpenseFields = ExpenseFields(
    user: Option<UserId>,
    title: Option<string>,
    amount: Option<int>,
    category: Option<string>,
    date: When,
    notes: Option<string>)

  /** What every stored expense satisfies: amount at least 0, a listed category, trimmed text. */
  predicate Valid(d: ExpenseDoc)
  {
    && (d.amount.Some? ==> d.amount.value >= 0)
    && d.category in CATEGORIES
    && (d.title.Some? ==> Trim(d.title.value) == d.title.value)
    && (d.notes.Some? ==> Trim(d.notes.value) == d.notes.value)
  }

  /** The schema's `trim: true`: a stored text field is its own trim. */
  function TrimField(s: Option<string>): (r: Option<string>)
    ensures r.Some? <==> s.Some?
    ensures r.Some? ==> Trim(r.value) == r.value
  {
    if s.Some? then
      TrimIdempotent(s.value);
      Some(Trim(s.value))
    else None
  }

  /** The casts, defaults and trims that run before validation. */
  function Cast(f: ExpenseFields, id: Id, now: Day): (r: Option<ExpenseDoc>)
    ensures r.None? <==> f.date.Invalid?
  {
    if f.date.Invalid? then None
    else
      Some(ExpenseDoc(
        id,
        f.user,
        TrimField(f.title),
        f.amount,
        if f.category.Some? then f.category.value else "Other",
        if f.date.On? then f.date.date else now,
        TrimField(f.notes)))
  }

  /**
   * `Expense.create`. The schema writes `require: true` on title, amount,
   * date and user; `require` is not a Mongoose option and is ignored, so
   * only the date cast, `min: 0` and the category enum can refuse a
   * document. A stored document has its text trimmed, the category
   * defaulted to "Other" and the date defaulted to now.
   */
  function Create(f: ExpenseFields, id: Id, now: Day): (r: Option<ExpenseDoc>)
    ensures r.Some? <==> !f.date.Invalid? && (f.amount.Some? ==> f.amount.value >= 0)
                         && (f.category.Some? ==> f.category.value in CATEGORIES)
    ensures r.Some? ==> Valid(r.value)
    ensures r.Some? ==> r.value.id == id && r.value.user == f.user && r.value.amount == f.amount
    ensures r.Some? ==> r.value.category == (if f.category.Some? then f.category.value else "Other")
    ensures r.Some? ==> r.value.date == (if f.date.On? then f.date.date else now)
    ensures r.Some? ==> r.value.title == (if f.title.Some? then Some(Trim(f.title.value)) else None)
    ensures r.Some? ==> r.value.notes == (if f.notes.Some? then Some(Trim(f.notes.value)) else None)
  {
    var d := Cast(f, id, now);
    if d.Some? && Valid(d.value) then d else None
  }

  /** Nothing in the schema makes title, amount or owner mandatory: a document with none of them is stored. */
  lemma PresenceNotEnforced(now: Day)
    ensures Create(ExpenseFields(None, None, None, None, Missing, None), 0, now)
         == Some(ExpenseDoc(0, None, None, None, "Other", now, None))
  {
    assert Valid(ExpenseDoc(0, None, None, None, "Other", now, None));
  }

  /** A negative amount is refused, as is a category outside the list. */
  lemma BoundsEnforced(f: ExpenseFields, id: Id, now: Day)
    requires (f.amount.Some? && f.amount.value < 0) || (f.category.Some? && f.category.value !in CATEGORIES)
    ensures Create(f, id, now).None?
  {
  }
}

=== FILE: folds.dfy ===
/**
 * The list folds the views repeat: reduce to a total, filter, group by a key
 * into an insertion-ordered object (`acc[key] = ...`), and sort with a
 * descending comparator. Each is defined once here, on sequences, and the
 * views instantiate them with their own keys and amounts.
 */
module Folds {

  // ---------------------------------------------------------------- totals

  /** `xs.reduce((sum, x) => sum + amount(x), 0)`, accumulated left to right. */
  function Total<T>(xs: seq<T>, amount: T -> int): int
  {
    if xs == [] then 0 else Total(xs[..|xs| - 1], amount) + amount(xs[|xs| - 1])
  }

  function One<T>(x: T): int
  {
    1
  }

  lemma {:induction false} TotalAppend<T>(xs: seq<T>, ys: seq<T>, amount: T -> int)
    ensures Total(xs + ys, amount) == Total(xs, amount) + Total(ys, amount)
    decreases |ys|
  {
    if ys != [] {
      assert (xs + ys)[..|xs + ys| - 1] == xs + ys[..|ys| - 1];
      assert (xs + ys)[|xs + ys| - 1] == ys[|ys| - 1];
      TotalAppend(xs, ys[..|ys| - 1], amount);
      calc {
        Total(xs + ys, amount);
        Total(xs + ys[..|ys| - 1], amount) + amount(ys[|ys| - 1]);
        Total(xs, amount) + Total(ys[..|ys| - 1], amount) + amount(ys[|ys| - 1]);
      }
    } else {
      assert xs + ys == xs;
    }
  }

  /** Counting with amount 1 gives the length. */
  lemma {:induction false} TotalOne<T>(xs: seq<T>)
    ensures Total(xs, One) == |xs|
  {
    if xs != [] {
      TotalOne(xs[..|xs| - 1]);
    }
  }

  /** With non-negative amounts a total is non-negative. */
  lemma {:induction false} TotalNonNegative<T>(xs: seq<T>, amount: T -> int)
    requires forall i :: 0 <= i < |xs| ==> amount(xs[i]) >= 0
    ensures Total(xs, amount) >= 0
  {
    if xs != [] {
      TotalNonNegative(xs[..|xs| - 1], amount);
    }
  }

  /** A total over a list where no record has a non-zero amount is 0. */
  lemma {:induction false} TotalOfZeros<T>(xs: seq<T>, amount: T -> int)
    requires forall i :: 0 <= i < |xs| ==> amount(xs[i]) == 0
    ensures Total(xs, amount) == 0
  {
    if xs != [] {
      TotalOfZeros(xs[..|xs| - 1], amount);
    }
  }

  // ---------------------------------------------------------------- map and slice

  /** `xs.map(f)`. */
  function Map<T, U>(xs: seq<T>, f: T -> U): (r: seq<U>)
    ensures |r| == |xs|
    ensures forall i :: 0 <= i < |xs| ==> r[i] == f(xs[i])
  {
    if xs == [] then [] else Map(xs[..|xs| - 1], f) + [f(xs[|xs| - 1])]
  }

  /** `xs.slice(0, n)` for a count `n` that is never negative. */
  function Prefix<T>(xs: seq<T>, n: nat): (r: seq<T>)
    ensures |r| == if n < |xs| then n else |xs|
    ensures r == xs[..|r|]
  {
    if n < |xs| then xs[..n] else xs
  }

  // ---------------------------------------------------------------- filtering

  /** `xs.filter(p)`. */
  function Filter<T>(xs: seq<T>, p: T -> bool): seq<T>
  {
    if xs == [] then []
    else Filter(xs[..|xs| - 1], p) + (if p(xs[|xs| - 1]) then [xs[|xs| - 1]] else [])
  }

  /** `a` is `b` with some elements deleted, the rest in their original order. */
  predicate Subseq<T(==)>(a: seq<T>, b: seq<T>)
    decreases |b|
  {
    if b == [] then a == []
    else
      (a != [] && a[|a| - 1] == b[|b| - 1] && Subseq(a[..|a| - 1], b[..|b| - 1]))
      || Subseq(a, b[..|b| - 1])
  }

  lemma {:induction false} EmptySubseq<T>(b: seq<T>)
    ensures Subseq([], b)
    decreases |b|
  {
    if b != [] {
      EmptySubseq(b[..|b| - 1]);
    }
  }

  lemma {:induction false} SubseqRefl<T>(a: seq<T>)
    ensures Subseq(a, a)
  {
    if a != [] {
      SubseqRefl(a[..|a| - 1]);
    }
  }

  lemma {:induction false} SubseqTransitive<T>(a: seq<T>, b: seq<T>, c: seq<T>)
    requires Subseq(a, b) && Subseq(b, c)
    ensures Subseq(a, c)
    decreases |c|
  {
    if c != [] {
      var cinit := c[..|c| - 1];
      if b != [] && b[|b| - 1] == c[|c| - 1] && Subseq(b[..|b| - 1], cinit) {
        if a != [] && a[|a| - 1] == b[|b| - 1] && Subseq(a[..|a| - 1], b[..|b| - 1]) {
          SubseqTransitive(a[..|a| - 1], b[..|b| - 1], cinit);
        } else {
          SubseqTransitive(a, b[..|b| - 1], cinit);
        }
      } else {
        SubseqTransitive(a, b, cinit);
      }
    }
  }

  /** The filter keeps exactly the elements satisfying `p`, as an order-preserving subsequence. */
  lemma {:induction false} FilterSpec<T>(xs: seq<T>, p: T -> bool)
    ensures forall x :: x in Filter(xs, p) <==> x in xs && p(x)
    ensures Subseq(Filter(xs, p), xs)
    ensures |Filter(xs, p)| <= |xs|
  {
    if xs != [] {
      var init, last := xs[..|xs| - 1], xs[|xs| - 1];
      FilterSpec(init, p);
      assert xs == init + [last];
      var f := Filter(xs, p);
      assert xs[..|xs| - 1] == init;
      if p(last) {
        assert f == Filter(init, p) + [last];
        assert f[..|f| - 1] == Filter(init, p);
      } else {
        assert f == Filter(init, p);
      }
    }
  }

  /** Filtering everything that already satisfies `p` changes nothing. */
  lemma {:induction false} FilterAll<T>(xs: seq<T>, p: T -> bool)
    requires forall i :: 0 <= i < |xs| ==> p(xs[i])
    ensures Filter(xs, p) == xs
  {
    if xs != [] {
      FilterAll(xs[..|xs| - 1], p);
    }
  }

  /** Filtering twice keeps what satisfies both predicates. */
  lemma {:induction false} FilterFilter<T>(xs: seq<T>, p: T -> bool, q: T -> bool, pq: T -> bool)
    requires forall x :: pq(x) == (p(x) && q(x))
    ensures Filter(Filter(xs, p), q) == Filter(xs, pq)
  {
    if xs != [] {
      var init, last := xs[..|xs| - 1], xs[|xs| - 1];
      FilterFilter(init, p, q, pq);
      var f := Filter(xs, p);
      if p(last) {
        assert f == Filter(init, p) + [last];
        assert f[..|f| - 1] == Filter(init, p) && f[|f| - 1] == last;
      } else {
        assert f == Filter(init, p);
      }
    }
  }

  /** Appending a record to the input moves a filtered total by that record's amount, or not at all. */
  lemma TotalFilterSnoc<T>(xs: seq<T>, x: T, p: T -> bool, amount: T -> int)
    ensures Filter(xs + [x], p) == Filter(xs, p) + (if p(x) then [x] else [])
    ensures Total(Filter(xs + [x], p), amount) == Total(Filter(xs, p), amount) + (if p(x) then amount(x) else 0)
  {
    assert (xs + [x])[..|xs|] == xs;
    assert (xs + [x])[|xs|] == x;
    assert Filter(xs + [x], p) == Filter(xs, p) + (if p(x) then [x] else []);
    if p(x) {
      var f := Filter(xs, p) + [x];
      assert f[..|f| - 1] == Filter(xs, p) && f[|f| - 1] == x;
    } else {
      assert Filter(xs, p) + [] == Filter(xs, p);
    }
  }

  /** Filtering no records gives no records. */
  lemma FilterNone<T>(xs: seq<T>, p: T -> bool)
    requires forall i :: 0 <= i < |xs| ==> !p(xs[i])
    ensures Filter(xs, p) == []
  {
    if xs != [] {
      FilterNone(xs[..|xs| - 1], p);
    }
  }

  /** With non-negative amounts, a filter with a weaker predicate never totals less. */
  lemma {:induction false} TotalFilterMonotone<T>(xs: seq<T>, p: T -> bool, q: T -> bool, amount: T -> int)
    requires forall i :: 0 <= i < |xs| ==> amount(xs[i]) >= 0
    requires forall i :: 0 <= i < |xs| ==> p(xs[i]) ==> q(xs[i])
    ensures Total(Filter(xs, p), amount) <= Total(Filter(xs, q), amount)
  {
    if xs != [] {
      var init, last := xs[..|xs| - 1], xs[|xs| - 1];
      TotalFilterMonotone(init, p, q, amount);
      TotalAppend(Filter(init, p), if p(last) then [last] else [], amount);
      TotalAppend(Filter(init, q), if q(last) then [last] else [], amount);
    }
  }

  /** `xs.some(p)`, scanning left to right. */
  function Any<T>(xs: seq<T>, p: T -> bool): bool
  {
    xs != [] && (Any(xs[..|xs| - 1], p) || p(xs[|xs| - 1]))
  }

  /** `some` holds iff some element passes, iff the filter keeps something. */
  lemma {:induction false} AnySpec<T>(xs: seq<T>, p: T -> bool)
    ensures Any(xs, p) <==> exists i :: 0 <= i < |xs| && p(xs[i])
    ensures Any(xs, p) <==> Filter(xs, p) != []
  {
    if xs != [] {
      var init := xs[..|xs| - 1];
      AnySpec(init, p);
      if exists i :: 0 <= i < |init| && p(init[i]) {
        var i :| 0 <= i < |init| && p(init[i]);
        assert xs[i] == init[i];
      }
      if exists i :: 0 <= i < |xs| && p(xs[i]) {
        var i :| 0 <= i < |xs| && p(xs[i]);
        if i < |init| {
          assert init[i] == xs[i];
        }
      }
    }
  }

  // ---------------------------------------------------------------- grouping by key

  /** The records of `xs` whose key is `k`, in input order (what `acc[k].push(x)` collects). */
  function Select<T, K(==)>(xs: seq<T>, key: T -> K, k: K): seq<T>
  {
    if xs == [] then []
    else Select(xs[..|xs| - 1], key, k) + (if key(xs[|xs| - 1]) == k then [xs[|xs| - 1]] else [])
  }

  /** The distinct keys of `xs` in order of first appearance: `Object.keys` of the grouped object. */
  function Keys<T, K(==)>(xs: seq<T>, key: T -> K): seq<K>
  {
    if xs == [] then []
    else
      var ks := Keys(xs[..|xs| - 1], key);
      if key(xs[|xs| - 1]) in ks then ks else ks + [key(xs[|xs| - 1])]
  }

  predicate Distinct<K(==)>(ks: seq<K>)
  {
    forall i, j :: 0 <= i < j < |ks| ==> ks[i] != ks[j]
  }

  /** Some record of `xs` has key `k`. */
  predicate HasKey<T, K(==)>(xs: seq<T>, key: T -> K, k: K)
  {
    exists i :: 0 <= i < |xs| && key(xs[i]) == k
  }

  /** A key is listed iff some record has it, and each is listed once. */
  lemma {:induction false} KeysSpec<T, K>(xs: seq<T>, key: T -> K)
    ensures Distinct(Keys(xs, key))
    ensures forall k :: k in Keys(xs, key) <==> HasKey(xs, key, k)
  {
    if xs != [] {
      var init, last := xs[..|xs| - 1], xs[|xs| - 1];
      KeysSpec(init, key);
      forall k
        ensures k in Keys(xs, key) <==> HasKey(xs, key, k)
      {
        if HasKey(init, key, k) {
          var i :| 0 <= i < |init| && key(init[i]) == k;
          assert key(xs[i]) == k;
        }
        if k == key(last) {
          assert key(xs[|xs| - 1]) == k;
        }
        if HasKey(xs, key, k) {
          var i :| 0 <= i < |xs| && key(xs[i]) == k;
          if i < |xs| - 1 {
            assert key(init[i]) == k;
          }
        }
      }
    }
  }

  /** Appending one record adds its key at the end if it is new. */
  lemma KeysSnoc<T, K>(xs: seq<T>, x: T, key: T -> K)
    ensures Keys(xs + [x], key) == if key(x) in Keys(xs, key) then Keys(xs, key) else Keys(xs, key) + [key(x)]
  {
    assert (xs + [x])[..|xs|] == xs;
  }

  /**
   * Grouping a list sorted by rank lists its keys in the same order, when a
   * record's rank is the rank of its key: a later key never outranks an
   * earlier one.
   */
  lemma {:induction false} KeysSortedDesc<T, K>(xs: seq<T>, key: T -> K, rank: T -> int, keyRank: K -> int)
    requires SortedDesc(xs, rank)
    requires forall i :: 0 <= i < |xs| ==> rank(xs[i]) == keyRank(key(xs[i]))
    ensures SortedDesc(Keys(xs, key), keyRank)
  {
    if xs != [] {
      var init, last := xs[..|xs| - 1], xs[|xs| - 1];
      assert forall i :: 0 <= i < |init| ==> init[i] == xs[i];
      KeysSortedDesc(init, key, rank, keyRank);
      var ks := Keys(init, key);
      if key(last) !in ks {
        KeysSpec(init, key);
        forall i | 0 <= i < |ks|
          ensures keyRank(ks[i]) >= keyRank(key(last))
        {
          assert HasKey(init, key, ks[i]);
          var m :| 0 <= m < |init| && key(init[m]) == ks[i];
          assert rank(xs[m]) >= rank(xs[|xs| - 1]);
        }
      }
    }
  }

  /** Appending one record extends its own key's selection and no other. */
  lemma SelectSnoc<T, K>(xs: seq<T>, x: T, key: T -> K, k: K)
    ensures Select(xs + [x], key, k) == Select(xs, key, k) + (if key(x) == k then [x] else [])
    ensures key(x) == k ==> Select(xs + [x], key, k) == Select(xs, key, k) + [x]
    ensures key(x) != k ==> Select(xs + [x], key, k) == Select(xs, key, k)
  {
    assert (xs + [x])[..|xs|] == xs;
    assert Select(xs, key, k) + [] == Select(xs, key, k);
  }

  /** Every record's own key is listed. */
  lemma KeyListed<T, K>(xs: seq<T>, key: T -> K, j: int)
    requires 0 <= j < |xs|
    ensures key(xs[j]) in Keys(xs, key)
  {
    KeysSpec(xs, key);
    assert HasKey(xs, key, key(xs[j]));
  }

  /** The selected records are exactly those with key `k`, in input order. */
  lemma {:induction false} SelectSpec<T, K>(xs: seq<T>, key: T -> K, k: K)
    ensures forall x :: x in Select(xs, key, k) <==> x in xs && key(x) == k
    ensures Subseq(Select(xs, key, k), xs)
  {
    if xs != [] {
      var init, last := xs[..|xs| - 1], xs[|xs| - 1];
      SelectSpec(init, key, k);
      assert xs == init + [last];
      var s := Select(xs, key, k);
      assert xs[..|xs| - 1] == init;
      if key(last) == k {
        assert s == Select(init, key, k) + [last];
        assert s[..|s| - 1] == Select(init, key, k);
      } else {
        assert s == Select(init, key, k);
      }
    }
  }

  /** A key no record carries selects nothing. */
  lemma {:induction false} SelectAbsent<T, K>(xs: seq<T>, key: T -> K, k: K)
    requires k !in Keys(xs, key)
    ensures Select(xs, key, k) == []
  {
    if xs != [] {
      SelectAbsent(xs[..|xs| - 1], key, k);
    }
  }

  /** `Object.entries` of the grouped object: each key with its records. */
  function GroupsFor<T, K(==)>(xs: seq<T>, key: T -> K, ks: seq<K>): seq<(K, seq<T>)>
  {
    if ks == [] then []
    else GroupsFor(xs, key, ks[..|ks| - 1]) + [(ks[|ks| - 1], Select(xs, key, ks[|ks| - 1]))]
  }

  function Groups<T, K(==)>(xs: seq<T>, key: T -> K): seq<(K, seq<T>)>
  {
    GroupsFor(xs, key, Keys(xs, key))
  }

  lemma {:induction false} GroupsForAt<T, K>(xs: seq<T>, key: T -> K, ks: seq<K>)
    ensures |GroupsFor(xs, key, ks)| == |ks|
    ensures forall i :: 0 <= i < |ks| ==> GroupsFor(xs, key, ks)[i] == (ks[i], Select(xs, key, ks[i]))
  {
    if ks != [] {
      var init := ks[..|ks| - 1];
      GroupsForAt(xs, key, init);
      forall i | 0 <= i < |init|
        ensures ks[i] == init[i]
      {
      }
    }
  }

  /** Per-key sums as `[key, amount]` entries: the shape every pie and bar chart here consumes. */
  function SumsFor<T, K(==)>(xs: seq<T>, key: T -> K, amount: T -> int, ks: seq<K>): seq<(K, int)>
  {
    if ks == [] then []
    else SumsFor(xs, key, amount, ks[..|ks| - 1]) + [(ks[|ks| - 1], Total(Select(xs, key, ks[|ks| - 1]), amount))]
  }

  function CategorySums<T, K(==)>(xs: seq<T>, key: T -> K, amount: T -> int): seq<(K, int)>
  {
    SumsFor(xs, key, amount, Keys(xs, key))
  }

  lemma {:induction false} SumsForAt<T, K>(xs: seq<T>, key: T -> K, amount: T -> int, ks: seq<K>)
    ensures |SumsFor(xs, key, amount, ks)| == |ks|
    ensures forall i :: 0 <= i < |ks| ==>
      SumsFor(xs, key, amount, ks)[i] == (ks[i], Total(Select(xs, key, ks[i]), amount))
  {
    if ks != [] {
      var init := ks[..|ks| - 1];
      SumsForAt(xs, key, amount, init);
      forall i | 0 <= i < |init|
        ensures ks[i] == init[i]
      {
      }
    }
  }

  /** Sum of the amounts of `[key, amount]` entries. */
  function SumValues<K>(entries: seq<(K, int)>): int
  {
    if entries == [] then 0 else SumValues(entries[..|entries| - 1]) + entries[|entries| - 1].1
  }

  /** Appending one record moves exactly one per-key sum, the one of its key. */
  lemma {:induction false} SumsForSnoc<T, K>(xs: seq<T>, x: T, key: T -> K, amount: T -> int, ks: seq<K>)
    requires Distinct(ks)
    ensures SumValues(SumsFor(xs + [x], key, amount, ks))
         == SumValues(SumsFor(xs, key, amount, ks)) + (if key(x) in ks then amount(x) else 0)
  {
    if ks != [] {
      var k, kinit := ks[|ks| - 1], ks[..|ks| - 1];
      assert ks == kinit + [k];
      assert Distinct(kinit) by {
        forall i, j | 0 <= i < j < |kinit|
          ensures kinit[i] != kinit[j]
        {
          assert kinit[i] == ks[i] && kinit[j] == ks[j];
        }
      }
      SumsForSnoc(xs, x, key, amount, kinit);
      SelectSnoc(xs, x, key, k);
      if key(x) == k {
        TotalAppend(Select(xs, key, k), [x], amount);
        assert Total([x], amount) == amount(x);
        assert key(x) !in kinit by {
          forall i | 0 <= i < |kinit|
            ensures kinit[i] != k
          {
            assert kinit[i] == ks[i];
          }
        }
      }
      assert key(x) in ks <==> key(x) in kinit || key(x) == k;
    }
  }

  /** Conservation: the per-key sums add up to the total of all records. */
  lemma {:induction false} CategorySumsTotal<T, K>(xs: seq<T>, key: T -> K, amount: T -> int)
    ensures SumValues(CategorySums(xs, key, amount)) == Total(xs, amount)
  {
    if xs != [] {
      var init, x := xs[..|xs| - 1], xs[|xs| - 1];
      assert xs == init + [x];
      assert Total(xs, amount) == Total(init, amount) + amount(x);
      var ks := Keys(init, key);
      CategorySumsTotal(init, key, amount);
      KeysSpec(init, key);
      KeysSnoc(init, x, key);
      SumsForSnoc(init, x, key, amount, ks);
      if key(x) !in ks {
        SumsForNewKey(init, x, key, amount);
      }
    }
  }

  /** A record with a new key opens an entry holding just its amount. */
  lemma SumsForNewKey<T, K>(init: seq<T>, x: T, key: T -> K, amount: T -> int)
    requires key(x) !in Keys(init, key)
    ensures SumValues(SumsFor(init + [x], key, amount, Keys(init, key) + [key(x)]))
         == SumValues(SumsFor(init + [x], key, amount, Keys(init, key))) + amount(x)
  {
    var ks, kx := Keys(init, key), key(x);
    SelectAbsent(init, key, kx);
    SelectSnoc(init, x, key, kx);
    assert Select(init + [x], key, kx) == [x];
    assert Total([x], amount) == amount(x);
    assert (ks + [kx])[..|ks|] == ks;
  }

  /** One entry per distinct key, each the sum of that key's records, and no key without a record. */
  lemma {:induction false} CategorySumsSpec<T, K>(xs: seq<T>, key: T -> K, amount: T -> int)
    ensures Distinct(Keys(xs, key)) && |CategorySums(xs, key, amount)| == |Keys(xs, key)|
    ensures forall i :: 0 <= i < |Keys(xs, key)| ==>
      CategorySums(xs, key, amount)[i] == (Keys(xs, key)[i], Total(Select(xs, key, Keys(xs, key)[i]), amount))
    ensures forall i :: 0 <= i < |Keys(xs, key)| ==> HasKey(xs, key, Keys(xs, key)[i])
  {
    var ks := Keys(xs, key);
    KeysSpec(xs, key);
    SumsForAt(xs, key, amount, ks);
    forall i | 0 <= i < |ks|
      ensures HasKey(xs, key, ks[i])
    {
      assert ks[i] in Keys(xs, key);
      assert HasKey(xs, key, ks[i]);
    }
  }

  /** A selected record comes from the input and has the selected key. */
  lemma {:induction false} SelectMember<T, K>(xs: seq<T>, key: T -> K, k: K, x: T)
    requires x in Select(xs, key, k)
    ensures x in xs && key(x) == k
  {
    var init := xs[..|xs| - 1];
    if x in Select(init, key, k) {
      SelectMember(init, key, k, x);
      assert xs == init + [xs[|xs| - 1]];
    }
  }

  /** A group holds only records of its own key. */
  lemma GroupMember<T, K>(xs: seq<T>, key: T -> K, i: int, x: T)
    requires 0 <= i < |Keys(xs, key)| == |Groups(xs, key)|
    requires x in Groups(xs, key)[i].1
    ensures x in xs && key(x) == Keys(xs, key)[i]
  {
    var ks := Keys(xs, key);
    GroupsForAt(xs, key, ks);
    SelectMember(xs, key, ks[i], x);
  }

  /** Each record lies in some group. */
  lemma GroupCovers<T, K>(xs: seq<T>, key: T -> K, j: int)
    requires 0 <= j < |xs|
    ensures |Groups(xs, key)| == |Keys(xs, key)|
    ensures exists i :: 0 <= i < |Keys(xs, key)| && xs[j] in Groups(xs, key)[i].1
  {
    var ks := Keys(xs, key);
    GroupsForAt(xs, key, ks);
    KeyListed(xs, key, j);
    var i :| 0 <= i < |ks| && ks[i] == key(xs[j]);
    SelectSpec(xs, key, ks[i]);
    assert xs[j] in Groups(xs, key)[i].1;
  }

  /**
   * Partition: every record lies in a group, the groups have distinct keys (so,
   * with GroupMember, a record lies only in the group of its own key), and the
   * group sizes add up to the number of records.
   */
  lemma GroupsPartition<T, K>(xs: seq<T>, key: T -> K)
    ensures Distinct(Keys(xs, key)) && |Groups(xs, key)| == |Keys(xs, key)|
    ensures forall j :: 0 <= j < |xs| ==>
      exists i :: 0 <= i < |Keys(xs, key)| && xs[j] in Groups(xs, key)[i].1
    ensures SumValues(CategorySums(xs, key, One)) == |xs|
  {
    KeysSpec(xs, key);
    GroupsForAt(xs, key, Keys(xs, key));
    forall j | 0 <= j < |xs|
      ensures exists i :: 0 <= i < |Keys(xs, key)| && xs[j] in Groups(xs, key)[i].1
    {
      GroupCovers(xs, key, j);
    }
    CategorySumsTotal(xs, key, One);
    TotalOne(xs);
  }

  // ---------------------------------------------------------------- sorting

  /** Ordered by `rank`, largest first (a comparator `(a, b) => rank(b) - rank(a)`). */
  predicate SortedDesc<T>(xs: seq<T>, rank: T -> int)
  {
    forall i, j :: 0 <= i < j < |xs| ==> rank(xs[i]) >= rank(xs[j])
  }

  /** Places `x` after every element ranked at least as high, as a stable sort does. */
  function Insert<T>(ys: seq<T>, x: T, rank: T -> int): seq<T>
  {
    if ys == [] then [x]
    else if rank(ys[|ys| - 1]) >= rank(x) then ys + [x]
    else Insert(ys[..|ys| - 1], x, rank) + [ys[|ys| - 1]]
  }

  /** A stable sort by descending rank (insertion sort, left to right). */
  function SortDesc<T>(xs: seq<T>, rank: T -> int): seq<T>
  {
    if xs == [] then [] else Insert(SortDesc(xs[..|xs| - 1], rank), xs[|xs| - 1], rank)
  }

  lemma {:induction false} InsertMultiset<T>(ys: seq<T>, x: T, rank: T -> int)
    ensures multiset(Insert(ys, x, rank)) == multiset(ys) + multiset{x}
    ensures |Insert(ys, x, rank)| == |ys| + 1
  {
    if ys != [] && rank(ys[|ys| - 1]) < rank(x) {
      InsertMultiset(ys[..|ys| - 1], x, rank);
      assert ys == ys[..|ys| - 1] + [ys[|ys| - 1]];
    }
  }

  lemma {:induction false} InsertSpec<T>(ys: seq<T>, x: T, rank: T -> int)
    requires SortedDesc(ys, rank)
    ensures SortedDesc(Insert(ys, x, rank), rank)
    ensures forall i :: 0 <= i < |Insert(ys, x, rank)| ==>
      Insert(ys, x, rank)[i] == x || exists j :: 0 <= j < |ys| && Insert(ys, x, rank)[i] == ys[j]
  {
    if ys != [] {
      var init, last := ys[..|ys| - 1], ys[|ys| - 1];
      if rank(last) < rank(x) {
        InsertSpec(init, x, rank);
        var r := Insert(init, x, rank);
        forall i | 0 <= i < |r|
          ensures rank(r[i]) >= rank(last)
        {
          if r[i] != x {
            var j :| 0 <= j < |init| && r[i] == init[j];
            assert r[i] == ys[j];
          }
        }
        var r' := Insert(ys, x, rank);
        assert r' == r + [last];
        forall i | 0 <= i < |r'|
          ensures r'[i] == x || exists j :: 0 <= j < |ys| && r'[i] == ys[j]
        {
          if i == |r| {
            assert r'[i] == ys[|ys| - 1];
          } else if r[i] != x {
            var j :| 0 <= j < |init| && r[i] == init[j];
            assert r'[i] == ys[j];
          }
        }
      } else {
        var r' := Insert(ys, x, rank);
        assert r' == ys + [x];
        forall i | 0 <= i < |r'|
          ensures r'[i] == x || exists j :: 0 <= j < |ys| && r'[i] == ys[j]
        {
          if i < |ys| {
            assert r'[i] == ys[i];
          }
        }
      }
    }
  }

  /** The sorted list is ordered and holds exactly the input's elements. */
  lemma {:induction false} SortDescSpec<T>(xs: seq<T>, rank: T -> int)
    ensures SortedDesc(SortDesc(xs, rank), rank)
    ensures multiset(SortDesc(xs, rank)) == multiset(xs)
    ensures |SortDesc(xs, rank)| == |xs|
  {
    if xs != [] {
      var init := xs[..|xs| - 1];
      SortDescSpec(init, rank);
      InsertSpec(SortDesc(init, rank), xs[|xs| - 1], rank);
      InsertMultiset(SortDesc(init, rank), xs[|xs| - 1], rank);
      assert xs == init + [xs[|xs| - 1]];
    }
  }

  /** A subsequence of a sorted list is sorted. */
  lemma {:induction false} SubseqSorted<T>(a: seq<T>, b: seq<T>, rank: T -> int)
    requires Subseq(a, b) && SortedDesc(b, rank)
    ensures SortedDesc(a, rank)
    ensures forall x :: x in a ==> x in b
    decreases |b|
  {
    if b != [] {
      var binit := b[..|b| - 1];
      if a != [] && a[|a| - 1] == b[|b| - 1] && Subseq(a[..|a| - 1], binit) {
        SubseqSorted(a[..|a| - 1], binit, rank);
        assert a == a[..|a| - 1] + [a[|a| - 1]];
        forall i | 0 <= i < |a| - 1
          ensures rank(a[i]) >= rank(a[|a| - 1])
        {
          assert a[i] in a[..|a| - 1];
        }
      } else {
        SubseqSorted(a, binit, rank);
      }
    }
  }

  /** Inserting adds the inserted element's amount to the total. */
  lemma {:induction false} TotalInsert<T>(ys: seq<T>, x: T, rank: T -> int, amount: T -> int)
    ensures Total(Insert(ys, x, rank), amount) == Total(ys, amount) + amount(x)
  {
    if ys != [] && rank(ys[|ys| - 1]) < rank(x) {
      var init, last := ys[..|ys| - 1], ys[|ys| - 1];
      TotalInsert(init, x, rank, amount);
      TotalAppend(Insert(init, x, rank), [last], amount);
      assert [last][..0] == [];
    } else if ys != [] {
      assert (ys + [x])[..|ys|] == ys;
    }
  }

  /** Sorting moves records around but keeps their total. */
  lemma {:induction false} TotalSortDesc<T>(xs: seq<T>, rank: T -> int, amount: T -> int)
    ensures Total(SortDesc(xs, rank), amount) == Total(xs, amount)
  {
    if xs != [] {
      TotalSortDesc(xs[..|xs| - 1], rank, amount);
      TotalInsert(SortDesc(xs[..|xs| - 1], rank), xs[|xs| - 1], rank, amount);
    }
  }

  /** In a descending list, nothing after position k outranks anything before it. */
  lemma SortedSplit<T>(sorted: seq<T>, rank: T -> int, k: nat)
    requires SortedDesc(sorted, rank) && k <= |sorted|
    ensures forall x, a :: x in sorted[k..] && a in sorted[..k] ==> rank(x) <= rank(a)
  {
    forall x, a | x in sorted[k..] && a in sorted[..k]
      ensures rank(x) <= rank(a)
    {
      var j :| k <= j < |sorted| && sorted[j] == x;
      var i :| 0 <= i < k && sorted[i] == a;
    }
  }

  lemma MultisetSplit<T>(s: seq<T>, k: nat)
    requires k <= |s|
    ensures multiset(s) - multiset(s[..k]) == multiset(s[k..])
  {
    assert s == s[..k] + s[k..];
  }

  /**
   * The first `n` records of a descending sort are the top `n`: they are in
   * order, they come from the input, and every record left out ranks no
   * higher than any record kept.
   */
  lemma TopOfSorted<T>(xs: seq<T>, rank: T -> int, n: nat)
    ensures SortedDesc(Prefix(SortDesc(xs, rank), n), rank)
    ensures multiset(Prefix(SortDesc(xs, rank), n)) <= multiset(xs)
    ensures forall x, a :: x in multiset(xs) - multiset(Prefix(SortDesc(xs, rank), n)) && a in Prefix(SortDesc(xs, rank), n)
              ==> rank(x) <= rank(a)
  {
    var sorted := SortDesc(xs, rank);
    SortDescSpec(xs, rank);
    var k := |Prefix(sorted, n)|;
    SortedSplit(sorted, rank, k);
    MultisetSplit(sorted, k);
  }
}

=== FILE: home.dfy ===
/**
 * The dashboard (Home page): this month's income and expense, today's
 * expense, savings, the income picked for editing, and the expense form.
 * The expense list may hold `undefined` entries (what the form appends, see
 * SubmitAsWritten), so it is a list of options; every figure first keeps
 * the entries for which `e?.date` is truthy.
 */
module Home {
  import opened Basics
  import opened Dates
  import opened Folds
  import opened Records

  // ---------------------------------------------------------------- figures

  function IncomeInMonth(today: Day): Income -> bool
  {
    (i: Income) => SameMonth(i.date, today)
  }

  /** `getMonthlyIncome()`: incomes of today's month and year, absent amounts as 0. */
  function MonthlyIncome(income: seq<Income>, today: Day): int
  {
    Total(Filter(income, IncomeInMonth(today)), IncomeAmount)
  }

  /** `e?.date`: the entry exists and has a non-empty date field. */
  function Dated(e: Option<Expense>): bool
  {
    e.Some? && !e.value.date.Missing?
  }

  function EntryInMonth(today: Day): Option<Expense> -> bool
  {
    (e: Option<Expense>) => e.Some? && SameMonth(e.value.date, today)
  }

  function EntryOnDay(today: Day): Option<Expense> -> bool
  {
    (e: Option<Expense>) => e.Some? && SameDay(e.value.date, today)
  }

  /** The amount of a present entry (the dated filter has already removed the others). */
  function EntryAmount(e: Option<Expense>): int
  {
    if e.Some? then ExpenseAmount(e.value) else 0
  }

  function MonthlyExpense(expenses: seq<Option<Expense>>, today: Day): int
  {
    Total(Filter(Filter(expenses, Dated), EntryInMonth(today)), EntryAmount)
  }

  function TodayExpense(expenses: seq<Option<Expense>>, today: Day): int
  {
    Total(Filter(Filter(expenses, Dated), EntryOnDay(today)), EntryAmount)
  }

  /** `totalSaving`: this month's income minus this month's expense, nothing carried over. */
  function TotalSaving(income: seq<Income>, expenses: seq<Option<Expense>>, today: Day): int
  {
    MonthlyIncome(income, today) - MonthlyExpense(expenses, today)
  }

  /**
   * Monthly income, one record at a time: an income counts with its amount
   * (0 when absent) exactly when it falls in today's month and year.
   */
  lemma MonthlyIncomeSnoc(income: seq<Income>, i: Income, today: Day)
    ensures MonthlyIncome([], today) == 0
    ensures MonthlyIncome(income + [i], today)
         == MonthlyIncome(income, today) + (if SameMonth(i.date, today) then Amount0(i.amount) else 0)
  {
    TotalFilterSnoc(income, i, IncomeInMonth(today), IncomeAmount);
  }

  /** The dated pre-filter adds nothing to the month test and drops `undefined` entries. */
  lemma DatedFirst(expenses: seq<Option<Expense>>, e: Option<Expense>, p: Option<Expense> -> bool)
    requires forall x :: p(x) ==> Dated(x)
    ensures Total(Filter(Filter(expenses + [e], Dated), p), EntryAmount)
         == Total(Filter(Filter(expenses, Dated), p), EntryAmount) + (if p(e) then EntryAmount(e) else 0)
  {
    TotalFilterSnoc(expenses, e, Dated, EntryAmount);
    var f := Filter(expenses, Dated);
    if Dated(e) {
      TotalFilterSnoc(f, e, p, EntryAmount);
    } else {
      assert f + [] == f;
    }
  }

  /**
   * Monthly expense, one entry at a time: an entry counts exactly when it
   * exists and its date lies in today's month and year; an `undefined`
   * entry, a dateless one or an unparseable date adds nothing.
   */
  lemma MonthlyExpenseSnoc(expenses: seq<Option<Expense>>, e: Option<Expense>, today: Day)
    ensures MonthlyExpense([], today) == 0
    ensures MonthlyExpense(expenses + [e], today)
         == MonthlyExpense(expenses, today)
            + (if e.Some? && SameMonth(e.value.date, today) then ExpenseAmount(e.value) else 0)
  {
    DatedFirst(expenses, e, EntryInMonth(today));
  }

  lemma TodayExpenseSnoc(expenses: seq<Option<Expense>>, e: Option<Expense>, today: Day)
    ensures TodayExpense([], today) == 0
    ensures TodayExpense(expenses + [e], today)
         == TodayExpense(expenses, today) + (if e.Some? && SameDay(e.value.date, today) then ExpenseAmount(e.value) else 0)
  {
    DatedFirst(expenses, e, EntryOnDay(today));
  }

  /** Every present expense has a non-negative amount (what the expense schema's `min: 0` keeps). */
  predicate NonNegative(expenses: seq<Option<Expense>>)
  {
    forall i :: 0 <= i < |expenses| ==> EntryAmount(expenses[i]) >= 0
  }

  /** With non-negative amounts, today's expense is part of this month's. */
  lemma {:induction false} TodayWithinMonth(expenses: seq<Option<Expense>>, today: Day)
    requires NonNegative(expenses)
    ensures 0 <= TodayExpense(expenses, today) <= MonthlyExpense(expenses, today)
  {
    if expenses != [] {
      var init, e := expenses[..|expenses| - 1], expenses[|expenses| - 1];
      assert expenses == init + [e];
      TodayWithinMonth(init, today);
      TodayExpenseSnoc(init, e, today);
      MonthlyExpenseSnoc(init, e, today);
    }
  }

  /**
   * No carry-forward: records dated outside today's month change neither
   * this month's income, nor its expense, nor the savings.
   */
  lemma SavingsIgnoreOtherMonths(income: seq<Income>, expenses: seq<Option<Expense>>, i: Income, e: Expense, today: Day)
    requires !SameMonth(i.date, today) && !SameMonth(e.date, today)
    ensures TotalSaving(income + [i], expenses + [Some(e)], today) == TotalSaving(income, expenses, today)
  {
    MonthlyIncomeSnoc(income, i, today);
    MonthlyExpenseSnoc(expenses, Some(e), today);
  }

  /** Savings go negative when this month's expense exceeds its income. */
  lemma SavingsCanBeNegative(e: Expense, today: Day)
    requires SameMonth(e.date, today) && ExpenseAmount(e) > 0
    ensures TotalSaving([], [Some(e)], today) == -ExpenseAmount(e)
  {
    MonthlyExpenseSnoc([], Some(e), today);
    assert [] + [Some(e)] == [Some(e)];
  }

  // ---------------------------------------------------------------- income to edit

  /**
   * `openEditIncome`: nothing when there is no income; otherwise the first
   * entry of a copy sorted by date, newest first, i.e. an entry whose date
   * no other entry exceeds.
   */
  function LatestIncome(income: seq<Income>): (r: Option<Income>)
    ensures r.None? <==> income == []
    ensures r.Some? ==> r.value in income
    ensures r.Some? ==> forall i :: i in income ==> IncomeRank(i) <= IncomeRank(r.value)
  {
    if income == [] then None
    else
      SortDescSpec(income, IncomeRank);
      LatestIsMaximal(SortDesc(income, IncomeRank), income);
      Some(SortDesc(income, IncomeRank)[0])
  }

  lemma LatestIsMaximal(sorted: seq<Income>, income: seq<Income>)
    requires sorted != [] && SortedDesc(sorted, IncomeRank) && multiset(sorted) == multiset(income)
    ensures sorted[0] in income
    ensures forall i :: i in income ==> IncomeRank(i) <= IncomeRank(sorted[0])
  {
    assert sorted[0] in multiset(sorted);
    forall i | i in income
      ensures IncomeRank(i) <= IncomeRank(sorted[0])
    {
      assert i in multiset(income);
      var j :| 0 <= j < |sorted| && sorted[j] == i;
      if j > 0 {
        assert IncomeRank(sorted[0]) >= IncomeRank(sorted[j]);
      }
    }
  }

  // ---------------------------------------------------------------- expense form

  /** The expense form's text fields. */
  datatype ExpenseForm = ExpenseForm(title: string, amount: string, category: string, date: string, note: string)

  /** `handleSubmit` goes on only when title, amount, category and date are all non-empty. */
  predicate Filled(f: ExpenseForm)
  {
    f.title != "" && f.amount != "" && f.category != "" && f.date != ""
  }

  /**
   * The add-expense response as the page reads it. The controller answers
   * `{ success, message, data: expense }`, so `res.expense` is always
   * `undefined`; `created` is the stored record, or None when the request failed.
   */
  datatype AddResponse = AddResponse(created: Option<Expense>)

  function ResExpense(res: AddResponse): Option<Expense>
  {
    None
  }

  /**
   * `handleSubmit` as written: a form with an empty required field changes
   * nothing; a failed request throws before the list is touched; otherwise
   * `res.expense` is appended.
   */
  function SubmitAsWritten(expenses: seq<Option<Expense>>, f: ExpenseForm, res: AddResponse): (r: seq<Option<Expense>>)
    ensures !Filled(f) || res.created.None? ==> r == expenses
    ensures Filled(f) && res.created.Some? ==> |r| == |expenses| + 1 && r[..|expenses|] == expenses
  {
    if !Filled(f) || res.created.None? then expenses
    else expenses + [ResExpense(res)]
  }

  /**
   * The discrepancy: a successfully added expense of this month with a
   * positive amount leaves this month's and today's expense unchanged,
   * because the appended entry is `undefined`.
   */
  lemma SubmitAsWrittenLosesExpense(expenses: seq<Option<Expense>>, f: ExpenseForm, e: Expense, today: Day)
    requires Filled(f) && SameDay(e.date, today) && ExpenseAmount(e) > 0
    ensures MonthlyExpense(SubmitAsWritten(expenses, f, AddResponse(Some(e))), today) == MonthlyExpense(expenses, today)
    ensures TodayExpense(SubmitAsWritten(expenses, f, AddResponse(Some(e))), today) == TodayExpense(expenses, today)
  {
    MonthlyExpenseSnoc(expenses, None, today);
    TodayExpenseSnoc(expenses, None, today);
  }

  /** The evident intent: append the record the controller stored (`res.data`). */
  function Submit(expenses: seq<Option<Expense>>, f: ExpenseForm, res: AddResponse): (r: seq<Option<Expense>>)
    ensures !Filled(f) || res.created.None? ==> r == expenses
    ensures Filled(f) && res.created.Some? ==> r == expenses + [res.created]
  {
    if !Filled(f) || res.created.None? then expenses
    else expenses + [res.created]
  }

  /** With the stored record appended, the figures move by exactly its amount, and earlier entries stay. */
  lemma SubmitCountsExpense(expenses: seq<Option<Expense>>, f: ExpenseForm, e: Expense, today: Day)
    requires Filled(f)
    ensures Submit(expenses, f, AddResponse(Some(e)))[..|expenses|] == expenses
    ensures MonthlyExpense(Submit(expenses, f, AddResponse(Some(e))), today)
         == MonthlyExpense(expenses, today) + (if SameMonth(e.date, today) then ExpenseAmount(e) else 0)
    ensures TodayExpense(Submit(expenses, f, AddResponse(Some(e))), today)
         == TodayExpense(expenses, today) + (if SameDay(e.date, today) then ExpenseAmount(e) else 0)
  {
    MonthlyExpenseSnoc(expenses, Some(e), today);
    TodayExpenseSnoc(expenses, Some(e), today);
  }
}

=== FILE: income_controller.dfy ===
/**
 * The income controller over the income collection: add and get, each
 * scoped to the authenticated caller.
 */
module IncomeController {
  import opened Basics
  import opened Dates
  import opened Folds
  import opened IncomeModel
  import MyWallet

  /** The `add-income` body; a `user` field in it is never read. */
  datatype IncomeBody = IncomeBody(title: Option<string>, amount: Option<int>, source: Option<string>, date: When, notes: Option<string>)

  /** What `addIncome` hands to `Income.create`: the body's fields and the caller as owner. */
  function FieldsOf(user: UserId, b: IncomeBody): IncomeFields
  {
    IncomeFields(Some(user), b.title, b.amount, b.source, b.date, b.notes)
  }

  function Rank(d: IncomeDoc): int
  {
    DayNumber(d.date)
  }

  function OwnedBy(user: UserId): IncomeDoc -> bool
  {
    (d: IncomeDoc) => d.user == user
  }

  /** Stored incomes passed the schema, and ids are unique and below `nextId`. */
  ghost predicate Stored(rows: seq<IncomeDoc>, nextId: Id)
  {
    && (forall d :: d in rows ==> Valid(d) && d.id < nextId)
    && (forall i, j :: 0 <= i < j < |rows| ==> rows[i].id != rows[j].id)
  }

  class IncomeStore {
    var rows: seq<IncomeDoc>
    var nextId: Id

    ghost predicate Consistent()
      reads this
    {
      Stored(rows, nextId)
    }

    constructor ()
      ensures rows == [] && nextId == 0 && Consistent()
    {
      rows := [];
      nextId := 0;
    }

    /**
     * `addIncome`: 401 and nothing stored without a caller; 500 when the
     * schema refuses the document; otherwise 201 and the document, owned by
     * the caller whatever the body says, is appended.
     */
    method Add(user: Option<UserId>, body: IncomeBody) returns (status: int, created: Option<IncomeDoc>)
      requires Consistent()
      modifies this
      ensures Consistent()
      ensures status == 201 || status == 401 || status == 500
      ensures status == 401 <==> user.None?
      ensures status != 201 ==> rows == old(rows) && nextId == old(nextId) && created.None?
      ensures status == 500 <==> user.Some? && Create(FieldsOf(user.value, body), old(nextId)).None?
      ensures status == 201 ==>
        && created == Create(FieldsOf(user.value, body), old(nextId))
        && rows == old(rows) + [created.value]
        && created.value.user == user.value
        && created.value.amount == body.amount.value
    {
      created := None;
      if user.None? {
        status := 401;
        return;
      }
      var doc := Create(FieldsOf(user.value, body), nextId);
      if doc.None? {
        status := 500;
        return;
      }
      rows := rows + [doc.value];
      nextId := nextId + 1;
      created := doc;
      status := 201;
    }

    /** `getIncome`: 401 without a caller; otherwise the caller's incomes, newest first. */
    method Get(user: Option<UserId>) returns (status: int, list: seq<IncomeDoc>)
      ensures user.None? ==> status == 401 && list == []
      ensures user.Some? ==> status == 200
      ensures user.Some? ==> list == SortDesc(Filter(rows, OwnedBy(user.value)), Rank)
      ensures user.Some? ==> SortedDesc(list, Rank) && forall d :: d in list <==> d in rows && d.user == user.value
    {
      if user.None? {
        return 401, [];
      }
      var mine := Filter(rows, OwnedBy(user.value));
      list := SortDesc(mine, Rank);
      FilterSpec(rows, OwnedBy(user.value));
      SortDescSpec(mine, Rank);
      forall d
        ensures d in list <==> d in mine
      {
        assert d in list <==> d in multiset(list);
        assert d in mine <==> d in multiset(mine);
      }
      status := 200;
    }
  }

  /**
   * The body the wallet's "add income" posts: its title as `source`, no
   * title or notes, and an amount that did not parse serialised as `null`.
   */
  function WalletBody(r: MyWallet.IncomeRequest): IncomeBody
  {
    IncomeBody(None, if r.amount.Num? then Some(r.amount.value) else None, Some(r.source), On(r.date), None)
  }

  /**
   * A request the wallet lets through is stored exactly when its amount is
   * a number, and then with that amount (always positive) and the title as
   * its source; a NaN amount passes the page's check and is refused here.
   */
  lemma WalletRequestStored(title: string, amount: MyWallet.Parsed, now: Day, user: UserId, id: Id)
    requires MyWallet.AddIncomeRequest(title, amount, now).Some?
    ensures Create(FieldsOf(user, WalletBody(MyWallet.AddIncomeRequest(title, amount, now).value)), id).Some? <==> amount.Num?
    ensures amount.Num? ==>
      var d := Create(FieldsOf(user, WalletBody(MyWallet.AddIncomeRequest(title, amount, now).value)), id).value;
      d.amount == amount.value && d.amount > 0 && d.source == title && d.date == now && d.user == user
  {
  }
}

=== FILE: income_model.dfy ===
/** The income schema: required amount, source, date and owner; no bound on the amount. */
module IncomeModel {
  import opened Basics
  import opened Dates

  datatype IncomeDoc = IncomeDoc(
    id: Id,
    user: UserId,
    title: Option<string>,
    amount: int,
    source: string,
    date: Day,
    notes: Option<string>)

  /** The fields handed to `Income.create`. */
  datatype IncomeFields = IncomeFields(
    user: Option<UserId>,
    title: Option<string>,
    amount: Option<int>,
    source: Option<string>,
    date: When,
    notes: Option<string>)

  /** Mongoose's `required` on a string refuses the empty string too. */
  predicate Valid(d: IncomeDoc)
  {
    d.source != ""
  }

  /** `Income.create`: refused when amount, source, date or owner is missing, or the date does not parse. */
  function Create(f: IncomeFields, id: Id): (r: Option<IncomeDoc>)
    ensures r.Some? <==> f.user.Some? && f.amount.Some? && f.source.Some? && f.source.value != "" && f.date.On?
    ensures r.Some? ==> Valid(r.value)
    ensures r.Some? ==> r.value == IncomeDoc(id, f.user.value, f.title, f.amount.value, f.source.value, f.date.date, f.notes)
  {
    if f.user.Some? && f.amount.Some? && f.source.Some? && f.source.value != "" && f.date.On? then
      Some(IncomeDoc(id, f.user.value, f.title, f.amount.value, f.source.value, f.date.date, f.notes))
    else None
  }

  /** Unlike an expense, an income of any amount, negative or zero, is stored. */
  lemma AnyAmountAccepted(u: UserId, v: int, source: string, d: Day, id: Id)
    requires source != ""
    ensures Create(IncomeFields(Some(u), None, Some(v), Some(source), On(d), None), id).Some?
    ensures Create(IncomeFields(Some(u), None, Some(v), Some(source), On(d), None), id).value.amount == v
  {
  }
}

=== FILE: khata_book.dfy ===
/**
 * The khata book page: lent and borrowed entries, fetched and sorted newest
 * first, shown fifteen at a time in month and day sections, with an
 * add-or-update form and delete.
 */
module KhataBook {
  import opened Basics
  import opened Dates
  import opened Folds
  import opened Records
  import opened Labels
  import opened MonthDay
  import opened ListEdits
  import opened ArraySort

  const PAGE_SIZE: nat := 15

  // ---------------------------------------------------------------- fetching

  /** The `data` field of the GET answer: an array, something else, or nothing. */
  datatype Data = Rows(rows: seq<KhataEntry>) | NotAnArray | Absent

  /** `Array.isArray(res?.data) ? res.data : []` on first load. */
  function Normalise(res: Option<Data>): (r: seq<KhataEntry>)
    ensures r != [] ==> res.Some? && res.value.Rows? && r == res.value.rows
    ensures res.Some? && res.value.Rows? ==> r == res.value.rows
  {
    if res.Some? && res.value.Rows? then res.value.rows else []
  }

  /** The first load: normalise, then sort the array in place, newest first. */
  method FirstLoad(res: Option<Data>) returns (khata: seq<KhataEntry>)
    ensures khata == SortDesc(Normalise(res), KhataRank)
  {
    var rows := Normalise(res);
    var a := new KhataEntry[|rows|](i requires 0 <= i < |rows| => rows[i]);
    assert a[..] == rows;
    SortByDateDesc(a, KhataRank);
    khata := a[..];
  }

  /** The loaded list is newest first and holds exactly the fetched entries (none when the answer was not an array). */
  lemma FirstLoadSpec(res: Option<Data>)
    ensures SortedDesc(SortDesc(Normalise(res), KhataRank), KhataRank)
    ensures multiset(SortDesc(Normalise(res), KhataRank)) == multiset(Normalise(res))
    ensures !(res.Some? && res.value.Rows?) ==> SortDesc(Normalise(res), KhataRank) == []
  {
    SortDescSpec(Normalise(res), KhataRank);
  }

  // ---------------------------------------------------------------- safe list and grouping

  function HasDate(k: KhataEntry): bool
  {
    !k.date.Missing?
  }

  function Parses(k: KhataEntry): bool
  {
    k.date.On?
  }

  /** `safeKhata`: the entries with a date field. */
  function Safe(khata: seq<KhataEntry>): (r: seq<KhataEntry>)
    ensures forall k :: k in r <==> k in khata && !k.date.Missing?
    ensures Subseq(r, khata)
  {
    FilterSpec(khata, HasDate);
    Filter(khata, HasDate)
  }

  /** The entries `groupKhata` files: the first `visibleCount` safe ones, minus those whose date does not parse. */
  function Filed(khata: seq<KhataEntry>, visibleCount: nat): seq<KhataEntry>
  {
    Filter(Prefix(Safe(khata), visibleCount), Parses)
  }

  function KhataMonth(k: KhataEntry): MonthLabel
  {
    MonthOf(k.date)
  }

  function KhataDay(today: Day): KhataEntry -> DayLabel
  {
    (k: KhataEntry) => DayOf(k.date, today)
  }

  /** `groupKhata()`. */
  method GroupKhata(khata: seq<KhataEntry>, visibleCount: nat, today: Day)
    returns (grouped: seq<Section<KhataEntry, MonthLabel, DayLabel>>)
    ensures grouped == Sections(Filed(khata, visibleCount), KhataMonth, KhataDay(today))
  {
    var visible := Prefix(Safe(khata), visibleCount);
    var parsed := Filter(visible, Parses);
    grouped := GroupByMonthDay(parsed, KhataMonth, KhataDay(today));
  }

  /**
   * An entry is filed under (m, d) exactly when it is among the first
   * `visibleCount` safe entries, its date parses, and its headings are m and
   * d ("Today" and "Yesterday" included); so each lands in one group, and no
   * month heading is "Invalid Date".
   */
  lemma GroupingSpec(khata: seq<KhataEntry>, visibleCount: nat, today: Day, m: MonthLabel, d: DayLabel)
    ensures forall k :: k in Select(Select(Filed(khata, visibleCount), KhataMonth, m), KhataDay(today), d)
                    <==> k in Prefix(Safe(khata), visibleCount) && k.date.On? && MonthOf(k.date) == m && DayOf(k.date, today) == d
    ensures forall k :: k in Filed(khata, visibleCount) ==> KhataMonth(k).Some? && DayOf(k.date, today) != InvalidLabel
  {
    FilterSpec(Prefix(Safe(khata), visibleCount), Parses);
    Placement(Filed(khata, visibleCount), KhataMonth, KhataDay(today), m, d);
  }

  /** "Load more" is shown only while some safe entries are hidden. */
  predicate ShowLoadMore(khata: seq<KhataEntry>, visibleCount: nat)
  {
    visibleCount < |Safe(khata)|
  }

  /** The button's click: fifteen more. */
  function LoadMore(visibleCount: nat): nat
  {
    visibleCount + PAGE_SIZE
  }

  /**
   * The button shows exactly when the visible prefix leaves safe entries out;
   * a click reveals the next fifteen (or the rest) and keeps the visible ones in front.
   */
  lemma LoadMoreSpec(khata: seq<KhataEntry>, visibleCount: nat)
    ensures ShowLoadMore(khata, visibleCount) <==> Prefix(Safe(khata), visibleCount) != Safe(khata)
    ensures !ShowLoadMore(khata, visibleCount) ==> |Prefix(Safe(khata), visibleCount)| == |Safe(khata)|
    ensures ShowLoadMore(khata, visibleCount) ==>
      |Prefix(Safe(khata), LoadMore(visibleCount))|
        == (if |Safe(khata)| - visibleCount < PAGE_SIZE then |Safe(khata)| else visibleCount + PAGE_SIZE)
    ensures Prefix(Safe(khata), LoadMore(visibleCount))[..|Prefix(Safe(khata), visibleCount)|]
         == Prefix(Safe(khata), visibleCount)
  {
  }

  // ---------------------------------------------------------------- the form

  datatype KhataForm = KhataForm(kind: string, person: string, amount: string, paymentMethod: string, date: string, notes: string)

  /** The form's initial and reset state: type Taken, method Cash, every other field empty. */
  const BlankForm := KhataForm("Taken", "", "", "Cash", "", "")

  /** `handleSubmit`'s guard: person, amount and date must be non-empty. */
  predicate Filled(f: KhataForm)
  {
    f.person != "" && f.amount != "" && f.date != ""
  }

  /** What the form sends: an update of the entry being edited, or a new entry. */
  datatype Request = UpdateRequest(id: Id, form: KhataForm) | AddRequest(form: KhataForm)

  function SubmitRequest(f: KhataForm, editId: Option<Id>): (r: Option<Request>)
    ensures r.None? <==> !Filled(f)
    ensures r.Some? && editId.Some? ==> r.value == UpdateRequest(editId.value, f)
    ensures r.Some? && editId.None? ==> r.value == AddRequest(f)
  {
    if !Filled(f) then None
    else if editId.Some? then Some(UpdateRequest(editId.value, f))
    else Some(AddRequest(f))
  }

  /** The page state `handleSubmit` reads and writes. */
  datatype Page = Page(khata: seq<KhataEntry>, visibleCount: nat, form: KhataForm, editId: Option<Id>)

  /** How the requests went: one of them threw, or both answered and the GET returned `data`. */
  datatype Outcome = Failed | Answered(data: Data)

  /** `res.data || []` on refresh: a non-array object is kept, and sorting it throws. */
  function Refreshed(data: Data): Option<seq<KhataEntry>>
  {
    match data
    case Rows(rows) => Some(rows)
    case Absent => Some([])
    case NotAnArray => None
  }

  /**
   * `handleSubmit`: an unfilled form changes nothing; a request or sort that
   * throws changes nothing; otherwise the list is replaced by the re-fetched
   * entries sorted newest first, edit mode ends and the form is reset.
   */
  function Submit(p: Page, outcome: Outcome): (r: Page)
    ensures !Filled(p.form) || outcome.Failed? ==> r == p
    ensures Filled(p.form) && outcome.Answered? && outcome.data.NotAnArray? ==> r == p
    ensures Filled(p.form) && outcome.Answered? && !outcome.data.NotAnArray? ==>
      && SortedDesc(r.khata, KhataRank)
      && multiset(r.khata) == multiset(Refreshed(outcome.data).value)
      && r.editId.None? && r.form == BlankForm && r.visibleCount == p.visibleCount
  {
    if !Filled(p.form) || outcome.Failed? then p
    else
      match Refreshed(outcome.data)
      case None => p
      case Some(rows) =>
        SortDescSpec(rows, KhataRank);
        Page(SortDesc(rows, KhataRank), p.visibleCount, BlankForm, None)
  }

  function KhataId(k: KhataEntry): Id
  {
    k.id
  }

  /**
   * `handleDelete`: a cancelled confirm or a rejected request (which throws
   * before `setKhata`) changes nothing; otherwise only the entries with that
   * id go. Paging and the form are untouched either way.
   */
  function Delete(p: Page, id: Id, confirmed: bool, succeeded: bool): (r: Page)
    ensures !confirmed || !succeeded ==> r == p
    ensures forall k :: k in r.khata <==> k in p.khata && (!confirmed || !succeeded || k.id != id)
    ensures Subseq(r.khata, p.khata)
    ensures r.visibleCount == p.visibleCount && r.form == p.form && r.editId == p.editId
  {
    if !confirmed || !succeeded then
      SubseqRefl(p.khata);
      p
    else
      p.(khata := RemoveId(p.khata, KhataId, id))
  }

  /** Deleting keeps a newest-first list newest first. */
  lemma DeleteKeepsOrder(p: Page, id: Id, confirmed: bool, succeeded: bool)
    requires SortedDesc(p.khata, KhataRank)
    ensures SortedDesc(Delete(p, id, confirmed, succeeded).khata, KhataRank)
  {
    SubseqSorted(Delete(p, id, confirmed, succeeded).khata, p.khata, KhataRank);
  }
}

=== FILE: khata_controller.dfy ===
/**
 * The khata controller over the khata collection: a filtered listing, add,
 * update and delete, each scoped to the authenticated caller (every khata
 * route requires one, so the caller is always known here).
 */
module KhataController {
  import opened Basics
  import opened Dates
  import opened Folds
  import opened ListEdits
  import opened KhataModel

  /**
   * The query string of `GET /khata`: an empty or absent filter is "" or
   * Missing; a date that does not parse is Invalid.
   */
  datatype Query = Query(person: string, paymentMethod: string, startDate: When, endDate: When)

  /** Every filter that was given holds; both date bounds are inclusive. */
  predicate Matches(k: KhataDoc, user: UserId, q: Query)
  {
    && k.user == user
    && (q.person != "" ==> k.person == q.person)
    && (q.paymentMethod != "" ==> k.paymentMethod == q.paymentMethod)
    && (q.startDate.On? ==> DayNumber(q.startDate.date) <= DayNumber(k.date))
    && (q.endDate.On? ==> DayNumber(k.date) <= DayNumber(q.endDate.date))
  }

  function MatchesFn(user: UserId, q: Query): KhataDoc -> bool
  {
    (k: KhataDoc) => Matches(k, user, q)
  }

  /** `sort({ date: 1 })`: oldest first, i.e. descending in the negated day number. */
  function Ascending(k: KhataDoc): int
  {
    -DayNumber(k.date)
  }

  /** The `add-khata` body; a `user` field in it is never read. */
  datatype KhataBody = KhataBody(
    kind: Option<string>,
    person: Option<string>,
    amount: Option<int>,
    paymentMethod: Option<string>,
    date: When,
    notes: Option<string>)

  function FieldsOf(user: UserId, b: KhataBody): KhataFields
  {
    KhataFields(Some(user), b.kind, b.person, b.amount, b.paymentMethod, b.date, b.notes)
  }

  /** An update body: the fields it carries are set, the others left alone. */
  datatype Patch = Patch(
    kind: Option<string>,
    person: Option<string>,
    amount: Option<int>,
    paymentMethod: Option<string>,
    date: When,
    notes: Option<string>)

  /** `findOneAndUpdate` without validators: each field present is written as given. */
  function Apply(k: KhataDoc, p: Patch): (r: KhataDoc)
    requires !p.date.Invalid?
    ensures r.id == k.id && r.user == k.user
    ensures r.kind == (if p.kind.Some? then p.kind.value else k.kind)
    ensures r.person == (if p.person.Some? then p.person.value else k.person)
    ensures r.amount == (if p.amount.Some? then p.amount.value else k.amount)
    ensures r.paymentMethod == (if p.paymentMethod.Some? then p.paymentMethod.value else k.paymentMethod)
    ensures r.date == (if p.date.On? then p.date.date else k.date)
    ensures r.notes == (if p.notes.Some? then p.notes else k.notes)
  {
    KhataDoc(
      k.id,
      k.user,
      if p.kind.Some? then p.kind.value else k.kind,
      if p.person.Some? then p.person.value else k.person,
      if p.amount.Some? then p.amount.value else k.amount,
      if p.paymentMethod.Some? then p.paymentMethod.value else k.paymentMethod,
      if p.date.On? then p.date.date else k.date,
      if p.notes.Some? then p.notes else k.notes)
  }

  function DocId(k: KhataDoc): Id
  {
    k.id
  }

  /** Some entry has this id and this owner. */
  predicate Owns(rows: seq<KhataDoc>, user: UserId, id: Id)
  {
    exists i :: 0 <= i < |rows| && rows[i].id == id && rows[i].user == user
  }

  /**
   * The collection's invariant: ids unique and below `nextId`. Schema
   * validity is not part of it, because an update runs no validators.
   */
  ghost predicate Stored(rows: seq<KhataDoc>, nextId: Id)
  {
    && (forall k :: k in rows ==> k.id < nextId)
    && UniqueIds(rows, DocId)
  }

  lemma StoreFresh(rows: seq<KhataDoc>, nextId: Id, doc: KhataDoc)
    requires Stored(rows, nextId) && doc.id == nextId
    ensures Stored(rows + [doc], nextId + 1)
  {
    var r := rows + [doc];
    forall i, j | 0 <= i < j < |r|
      ensures DocId(r[i]) != DocId(r[j])
    {
      if j < |rows| {
        assert r[i] == rows[i] && r[j] == rows[j];
      } else {
        assert r[i] in rows;
      }
    }
  }

  /** Rewriting the entry with id `id` by a patch that keeps its id keeps the invariant. */
  lemma StorePatched(rows: seq<KhataDoc>, nextId: Id, id: Id, updated: KhataDoc)
    requires Stored(rows, nextId) && updated.id == id
    requires exists i :: 0 <= i < |rows| && rows[i].id == id
    ensures Stored(ReplaceId(rows, DocId, id, updated), nextId)
  {
    var r := ReplaceId(rows, DocId, id, updated);
    var i0 :| 0 <= i0 < |rows| && rows[i0].id == id;
    forall k | k in r
      ensures k.id < nextId
    {
      var i :| 0 <= i < |r| && r[i] == k;
      assert rows[i] in rows;
      assert rows[i0] in rows;
    }
    forall i, j | 0 <= i < j < |r|
      ensures DocId(r[i]) != DocId(r[j])
    {
      assert DocId(r[i]) == DocId(rows[i]) && DocId(r[j]) == DocId(rows[j]);
    }
  }

  class KhataStore {
    var rows: seq<KhataDoc>
    var nextId: Id

    ghost predicate Consistent()
      reads this
    {
      Stored(rows, nextId)
    }

    constructor ()
      ensures rows == [] && nextId == 0 && Consistent()
    {
      rows := [];
      nextId := 0;
    }

    /**
     * `getKhata`: 500 when a date filter does not parse; otherwise 200 and
     * the caller's entries that meet every given filter, oldest first.
     */
    method Get(user: UserId, q: Query) returns (status: int, list: seq<KhataDoc>)
      ensures q.startDate.Invalid? || q.endDate.Invalid? ==> status == 500 && list == []
      ensures !q.startDate.Invalid? && !q.endDate.Invalid? ==>
        && status == 200
        && list == SortDesc(Filter(rows, MatchesFn(user, q)), Ascending)
        && (forall i, j :: 0 <= i < j < |list| ==> DayNumber(list[i].date) <= DayNumber(list[j].date))
        && (forall k :: k in list <==> k in rows && Matches(k, user, q))
        && multiset(list) == multiset(Filter(rows, MatchesFn(user, q)))
    {
      if q.startDate.Invalid? || q.endDate.Invalid? {
        return 500, [];
      }
      var found := Filter(rows, MatchesFn(user, q));
      list := SortDesc(found, Ascending);
      FilterSpec(rows, MatchesFn(user, q));
      SortDescSpec(found, Ascending);
      forall k
        ensures k in list <==> k in found
      {
        assert k in list <==> k in multiset(list);
        assert k in found <==> k in multiset(found);
      }
      assert SortedDesc(list, Ascending);
      status := 200;
    }

    /**
     * `addKhata`: 500 when the schema refuses the entry; otherwise 201 and
     * the entry, owned by the caller, is appended.
     */
    method Add(user: UserId, body: KhataBody, now: Day) returns (status: int, created: Option<KhataDoc>)
      requires Consistent()
      modifies this
      ensures Consistent()
      ensures status == 201 || status == 500
      ensures status == 500 <==> Create(FieldsOf(user, body), old(nextId), now).None?
      ensures status == 500 ==> rows == old(rows) && nextId == old(nextId) && created.None?
      ensures status == 201 ==>
        && created == Create(FieldsOf(user, body), old(nextId), now)
        && rows == old(rows) + [created.value]
        && created.value.user == user
        && Valid(created.value)
    {
      created := None;
      var doc := Create(FieldsOf(user, body), nextId, now);
      if doc.None? {
        status := 500;
        return;
      }
      StoreFresh(rows, nextId, doc.value);
      rows := rows + [doc.value];
      nextId := nextId + 1;
      created := doc;
      status := 201;
    }

    /**
     * `updateKhata`: 500 when the patch's date does not parse; 404 when the
     * caller has no entry with this id; otherwise 200, that entry is rewritten
     * by the patch and returned, and every other entry is left as it was.
     */
    method Update(user: UserId, id: Id, patch: Patch) returns (status: int, updated: Option<KhataDoc>)
      requires Consistent()
      modifies this
      ensures Consistent() && nextId == old(nextId)
      ensures patch.date.Invalid? ==> status == 500
      ensures !patch.date.Invalid? && !Owns(old(rows), user, id) ==> status == 404
      ensures status != 200 ==> rows == old(rows) && updated.None?
      ensures !patch.date.Invalid? && Owns(old(rows), user, id) ==>
        && status == 200
        && |rows| == |old(rows)|
        && (forall i :: 0 <= i < |rows| ==> rows[i] == if old(rows)[i].id == id then Apply(old(rows)[i], patch) else old(rows)[i])
        && updated.Some? && updated.value in rows && updated.value.id == id && updated.value.user == user
    {
      updated := None;
      if patch.date.Invalid? {
        return 500, None;
      }
      if !Owns(rows, user, id) {
        return 404, None;
      }
      var i :| 0 <= i < |rows| && rows[i].id == id && rows[i].user == user;
      var doc := Apply(rows[i], patch);
      ghost var before := rows;
      forall j | 0 <= j < |rows| && rows[j].id == id
        ensures rows[j] == rows[i]
      {
        assert DocId(rows[j]) == DocId(rows[i]);
      }
      StorePatched(rows, nextId, id, doc);
      rows := ReplaceId(rows, DocId, id, doc);
      assert rows[i] == doc;
      updated := Some(doc);
      status := 200;
    }

    /**
     * `deleteKhata`: 404 and nothing changes when the caller has no entry
     * with this id; otherwise 200 and exactly that entry is removed.
     */
    method Delete(user: UserId, id: Id) returns (status: int)
      requires Consistent()
      modifies this
      ensures Consistent() && nextId == old(nextId)
      ensures !Owns(old(rows), user, id) ==> status == 404 && rows == old(rows)
      ensures Owns(old(rows), user, id) ==>
        && status == 200
        && rows == RemoveId(old(rows), DocId, id)
        && |rows| == |old(rows)| - 1
        && forall k :: k in rows <==> k in old(rows) && k.id != id
    {
      if !Owns(rows, user, id) {
        return 404;
      }
      var k :| 0 <= k < |rows| && rows[k].id == id && rows[k].user == user;
      assert DocId(rows[k]) == id;
      RemoveUnique(rows, DocId, id);
      rows := RemoveId(rows, DocId, id);
      status := 200;
    }
  }

  /** With no filters, the listing is every entry of the caller and no one else's. */
  lemma NoFiltersListsAllOwn(rows: seq<KhataDoc>, user: UserId)
    ensures forall k :: k in Filter(rows, MatchesFn(user, Query("", "", Missing, Missing))) <==> k in rows && k.user == user
  {
    FilterSpec(rows, MatchesFn(user, Query("", "", Missing, Missing)));
  }

  /** A listing never holds another user's entry, whatever the filters. */
  lemma ListingIsPrivate(rows: seq<KhataDoc>, user: UserId, q: Query)
    ensures forall k :: k in Filter(rows, MatchesFn(user, q)) ==> k.user == user
  {
    FilterSpec(rows, MatchesFn(user, q));
  }

  /** Since no validator runs on update, a patch can store a type the schema's enum refuses. */
  lemma UpdateSkipsValidation(k: KhataDoc)
    requires Valid(k)
    ensures !Valid(Apply(k, Patch(Some("Lent"), None, None, None, Missing, None)))
    ensures Apply(k, Patch(Some("Lent"), None, None, None, Missing, None)).kind == "Lent"
  {
  }
}

=== FILE: khata_model.dfy ===
/** The khata schema: owner, type, person, amount and payment method required; date defaults to now. */
module KhataModel {
  import opened Basics
  import opened Dates

  const KINDS: seq<string> := ["Taken", "Given"]
  const METHODS: seq<string> := ["Cash", "UPI", "Card"]

  datatype KhataDoc = KhataDoc(
    id: Id,
    user: UserId,
    kind: string,
    person: string,
    amount: int,
    paymentMethod: string,
    date: Day,
    notes: Option<string>)

  /** The fields handed to `Khata.create`. */
  datatype KhataFields = KhataFields(
    user: Option<UserId>,
    kind: Option<string>,
    person: Option<string>,
    amount: Option<int>,
    paymentMethod: Option<string>,
    date: When,
    notes: Option<string>)

  predicate Valid(d: KhataDoc)
  {
    d.kind in KINDS && d.paymentMethod in METHODS && d.person != ""
  }

  /** A required text field: present and non-empty. */
  predicate Given(s: Option<string>)
  {
    s.Some? && s.value != ""
  }

  /**
   * `Khata.create`: every required field present, type and method from their
   * lists, a parseable date or none (then now); amount may be any number.
   */
  function Create(f: KhataFields, id: Id, now: Day): (r: Option<KhataDoc>)
    ensures r.Some? <==> f.user.Some? && Given(f.person) && f.amount.Some? && !f.date.Invalid?
                         && f.kind.Some? && f.kind.value in KINDS
                         && f.paymentMethod.Some? && f.paymentMethod.value in METHODS
    ensures r.Some? ==> Valid(r.value)
    ensures r.Some? ==> r.value.user == f.user.value && r.value.id == id && r.value.amount == f.amount.value
    ensures r.Some? ==> r.value.date == (if f.date.On? then f.date.date else now) && r.value.notes == f.notes
    ensures r.Some? ==> r.value.kind == f.kind.value && r.value.person == f.person.value
                        && r.value.paymentMethod == f.paymentMethod.value
  {
    if f.user.Some? && Given(f.person) && f.amount.Some? && !f.date.Invalid?
       && f.kind.Some? && f.kind.value in KINDS && f.paymentMethod.Some? && f.paymentMethod.value in METHODS
    then
      Some(KhataDoc(id, f.user.value, f.kind.value, f.person.value, f.amount.value, f.paymentMethod.value,
                    if f.date.On? then f.date.date else now, f.notes))
    else None
  }

  /** The form's reset values (type Taken, method Cash) are values the schema accepts. */
  lemma BlankChoicesAccepted(u: UserId, person: string, v: int, id: Id, now: Day)
    requires person != ""
    ensures Create(KhataFields(Some(u), Some("Taken"), Some(person), Some(v), Some("Cash"), Missing, None), id, now).Some?
    ensures !Given(Some("")) && !("" in KINDS) && !("" in METHODS)
  {
  }
}

=== FILE: labels.dfy ===
/**
 * The headings the list pages group by: `toLocaleString` with long month and
 * numeric year for the month, `toLocaleDateString` with day, short month and
 * year for the day, the latter replaced by "Today" or "Yesterday" when the
 * day is today or the day before. An unparseable date renders as "Invalid
 * Date" in both. The label text is left to the locale; what the model keeps
 * is which records share a heading.
 */
module Labels {
  import opened Basics
  import opened Dates

  /** A month heading: a calendar month, or "Invalid Date". */
  type MonthLabel = Option<Month>

  /** A day heading. */
  datatype DayLabel = TodayLabel | YesterdayLabel | DateLabel(day: Day) | InvalidLabel

  function MonthOf(w: When): (r: MonthLabel)
    ensures r.Some? <==> w.On?
    ensures w.On? ==> r.value == Month(w.date.year, w.date.month) && ValidMonth(r.value)
  {
    if w.On? then Some(Month(w.date.year, w.date.month)) else None
  }

  /** `dayKey`, with the "Today" check made before the "Yesterday" check. */
  function DayOf(w: When, today: Day): DayLabel
  {
    if w.On? && w.date == today then TodayLabel
    else if IsYesterday(w, today) then YesterdayLabel
    else if w.On? then DateLabel(w.date)
    else InvalidLabel
  }

  /**
   * The override: a record is headed "Today" exactly when it is on today,
   * "Yesterday" exactly when it is on the day before, "Invalid Date" exactly
   * when its date does not parse, and by its own date otherwise.
   */
  lemma DayOfSpec(w: When, today: Day)
    ensures DayOf(w, today) == TodayLabel <==> SameDay(w, today)
    ensures DayOf(w, today) == YesterdayLabel <==> IsYesterday(w, today)
    ensures DayOf(w, today) == InvalidLabel <==> !w.On?
    ensures DayOf(w, today).DateLabel? ==> w == On(DayOf(w, today).day) && !SameDay(w, today) && !IsYesterday(w, today)
  {
  }

  /**
   * Two dated records share a day heading only when they are on the same
   * day, and records of one day heading share their month heading.
   */
  lemma SameHeadingSameDay(v: When, w: When, today: Day)
    requires v.On? && w.On? && DayOf(v, today) == DayOf(w, today)
    ensures v == w
    ensures MonthOf(v) == MonthOf(w)
  {
    if DayOf(v, today) == YesterdayLabel {
      DayNumberInjective(v.date, w.date);
    }
  }
}

=== FILE: list_edits.dfy ===
/**
 * The two list updates the pages apply after a successful request:
 * `prev.filter((x) => x._id !== id)` after a delete and
 * `prev.map((x) => (x._id === id ? updated : x))` after an edit.
 */
module ListEdits {
  import opened Basics
  import opened Folds

  function KeepOthers<T>(id: T -> Id, target: Id): T -> bool
  {
    (x: T) => id(x) != target
  }

  /** The delete update: every record with id `target` goes, the others stay in order. */
  function RemoveId<T(==, !new)>(xs: seq<T>, id: T -> Id, target: Id): (r: seq<T>)
    ensures forall x :: x in r <==> x in xs && id(x) != target
    ensures Subseq(r, xs)
    ensures |r| <= |xs|
  {
    FilterSpec(xs, KeepOthers(id, target));
    Filter(xs, KeepOthers(id, target))
  }

  /** Deleting an id no record carries changes nothing. */
  lemma RemoveAbsent<T(!new)>(xs: seq<T>, id: T -> Id, target: Id)
    requires forall i :: 0 <= i < |xs| ==> id(xs[i]) != target
    ensures RemoveId(xs, id, target) == xs
  {
    FilterAll(xs, KeepOthers(id, target));
  }

  /** Deleting the same id twice is deleting it once. */
  lemma {:induction false} RemoveIdempotent<T(!new)>(xs: seq<T>, id: T -> Id, target: Id)
    ensures RemoveId(RemoveId(xs, id, target), id, target) == RemoveId(xs, id, target)
  {
    var r := RemoveId(xs, id, target);
    forall i | 0 <= i < |r|
      ensures id(r[i]) != target
    {
      assert r[i] in r;
    }
    RemoveAbsent(r, id, target);
  }

  /** No two records share an id, as for documents keyed by `_id`. */
  predicate UniqueIds<T>(xs: seq<T>, id: T -> Id)
  {
    forall i, j :: 0 <= i < j < |xs| ==> id(xs[i]) != id(xs[j])
  }

  /** Deleting keeps ids unique. */
  lemma {:induction false} RemoveKeepsUnique<T(!new)>(xs: seq<T>, id: T -> Id, target: Id)
    requires UniqueIds(xs, id)
    ensures UniqueIds(RemoveId(xs, id, target), id)
  {
    if xs != [] {
      var init, last := xs[..|xs| - 1], xs[|xs| - 1];
      var p := KeepOthers(id, target);
      assert UniqueIds(init, id);
      RemoveKeepsUnique(init, id, target);
      FilterSpec(init, p);
      var f := Filter(init, p);
      forall i | 0 <= i < |f|
        ensures id(f[i]) != id(last)
      {
        assert f[i] in init;
        var j :| 0 <= j < |init| && init[j] == f[i];
        assert xs[j] == f[i];
      }
    }
  }

  /** With unique ids, deleting an id some record carries removes exactly that one record. */
  lemma {:induction false} RemoveUnique<T(!new)>(xs: seq<T>, id: T -> Id, target: Id)
    requires UniqueIds(xs, id)
    requires exists k :: 0 <= k < |xs| && id(xs[k]) == target
    ensures |RemoveId(xs, id, target)| == |xs| - 1
    ensures UniqueIds(RemoveId(xs, id, target), id)
  {
    RemoveKeepsUnique(xs, id, target);
    var k :| 0 <= k < |xs| && id(xs[k]) == target;
    var init := xs[..|xs| - 1];
    var p := KeepOthers(id, target);
    if k == |xs| - 1 {
      forall i | 0 <= i < |init|
        ensures p(init[i])
      {
        assert xs[i] == init[i];
      }
      FilterAll(init, p);
    } else {
      assert id(init[k]) == target;
      assert UniqueIds(init, id);
      RemoveUnique(init, id, target);
      assert xs[k] == init[k];
    }
  }

  function SwapIn<T>(id: T -> Id, target: Id, updated: T): T -> T
  {
    (x: T) => if id(x) == target then updated else x
  }

  /** The edit update: same length, records with id `target` replaced, every other record kept in place. */
  function ReplaceId<T>(xs: seq<T>, id: T -> Id, target: Id, updated: T): (r: seq<T>)
    ensures |r| == |xs|
    ensures forall i :: 0 <= i < |xs| && id(xs[i]) == target ==> r[i] == updated
    ensures forall i :: 0 <= i < |xs| && id(xs[i]) != target ==> r[i] == xs[i]
  {
    Map(xs, SwapIn(id, target, updated))
  }

  /** Editing an id no record carries changes nothing. */
  lemma ReplaceAbsent<T>(xs: seq<T>, id: T -> Id, target: Id, updated: T)
    requires forall i :: 0 <= i < |xs| ==> id(xs[i]) != target
    ensures ReplaceId(xs, id, target, updated) == xs
  {
  }
}

=== FILE: month_day.dfy ===
/**
 * The two-level grouping the list pages write by hand:
 *
 *   map[monthKey] ??= {};  map[monthKey][dayKey] ??= [];  map[monthKey][dayKey].push(x);
 *
 * followed by `Object.entries` over months and, inside each, over days, with
 * a total per day and per month. The object is modelled as the month keys in
 * insertion order, each month's day keys in insertion order, and the records
 * filed under each (month, day) pair.
 */
module MonthDay {
  import opened Folds

  /** A month heading with its day headings, each with its records. */
  type Section<T, M, D> = (M, seq<(D, seq<T>)>)

  /** The nested entries the page renders: one section per month key, one group per day key in it. */
  function SectionsFor<T, M(==), D(==)>(xs: seq<T>, mkey: T -> M, dkey: T -> D, ms: seq<M>): seq<Section<T, M, D>>
  {
    if ms == [] then []
    else SectionsFor(xs, mkey, dkey, ms[..|ms| - 1]) + [(ms[|ms| - 1], Groups(Select(xs, mkey, ms[|ms| - 1]), dkey))]
  }

  function Sections<T, M(==), D(==)>(xs: seq<T>, mkey: T -> M, dkey: T -> D): seq<Section<T, M, D>>
  {
    SectionsFor(xs, mkey, dkey, Keys(xs, mkey))
  }

  // ---------------------------------------------------------------- the grouping loop

  /** `map[m] || []`: the day keys filed under a month so far. */
  function DaysAt<M(==), D>(days: map<M, seq<D>>, m: M): seq<D>
  {
    if m in days then days[m] else []
  }

  /** `map[m][d] || []`: the records filed under a (month, day) pair so far. */
  function ItemsAt<T, M(==), D(==)>(items: map<(M, D), seq<T>>, m: M, d: D): seq<T>
  {
    if (m, d) in items then items[(m, d)] else []
  }

  /** The object after the loop has run over `xs`. */
  ghost predicate Filed<T, M(!new), D(!new)>(xs: seq<T>, mkey: T -> M, dkey: T -> D,
                                         months: seq<M>, days: map<M, seq<D>>, items: map<(M, D), seq<T>>)
  {
    && months == Keys(xs, mkey)
    && (forall m :: m in days <==> m in months)
    && (forall m :: DaysAt(days, m) == Keys(Select(xs, mkey, m), dkey))
    && (forall m, d :: (m, d) in items <==> d in DaysAt(days, m))
    && (forall m, d :: ItemsAt(items, m, d) == Select(Select(xs, mkey, m), dkey, d))
  }

  /** The day list of x's month after x is filed: x's day key is added at the end when new. */
  function DaysAfter<T, M(==), D(==)>(days: map<M, seq<D>>, items: map<(M, D), seq<T>>, m: M, d: D): seq<D>
  {
    if (m, d) in items then DaysAt(days, m) else DaysAt(days, m) + [d]
  }

  lemma FiledMonths<T, M(!new), D(!new)>(xs: seq<T>, x: T, mkey: T -> M, dkey: T -> D,
                             months: seq<M>, days: map<M, seq<D>>, items: map<(M, D), seq<T>>)
    requires Filed(xs, mkey, dkey, months, days, items)
    ensures (if mkey(x) in days then months else months + [mkey(x)]) == Keys(xs + [x], mkey)
  {
    KeysSnoc(xs, x, mkey);
  }

  lemma FiledDays<T, M(!new), D(!new)>(xs: seq<T>, x: T, mkey: T -> M, dkey: T -> D,
                           months: seq<M>, days: map<M, seq<D>>, items: map<(M, D), seq<T>>, m: M)
    requires Filed(xs, mkey, dkey, months, days, items)
    ensures DaysAt(days[mkey(x) := DaysAfter(days, items, mkey(x), dkey(x))], m)
         == Keys(Select(xs + [x], mkey, m), dkey)
  {
    SelectSnoc(xs, x, mkey, m);
    var s := Select(xs, mkey, m);
    if m == mkey(x) {
      KeysSnoc(s, x, dkey);
    } else {
      assert s + [] == s;
    }
  }

  lemma FiledItems<T, M(!new), D(!new)>(xs: seq<T>, x: T, mkey: T -> M, dkey: T -> D,
                            items: map<(M, D), seq<T>>, m: M, d: D)
    requires ItemsAt(items, m, d) == Select(Select(xs, mkey, m), dkey, d)
    requires ItemsAt(items, mkey(x), dkey(x)) == Select(Select(xs, mkey, mkey(x)), dkey, dkey(x))
    ensures ItemsAt(items[(mkey(x), dkey(x)) := ItemsAt(items, mkey(x), dkey(x)) + [x]], m, d)
         == Select(Select(xs + [x], mkey, m), dkey, d)
  {
    if m == mkey(x) {
      FiledItemsOwnMonth(xs, x, mkey, dkey, items, d);
    } else {
      FiledItemsOtherMonth(xs, x, mkey, dkey, items, m, d);
    }
  }

  /** Inside x's month: x joins its own day's records and no other day's. */
  lemma FiledItemsOwnMonth<T, M(!new), D(!new)>(xs: seq<T>, x: T, mkey: T -> M, dkey: T -> D,
                                    items: map<(M, D), seq<T>>, d: D)
    requires ItemsAt(items, mkey(x), d) == Select(Select(xs, mkey, mkey(x)), dkey, d)
    ensures ItemsAt(items[(mkey(x), dkey(x)) := ItemsAt(items, mkey(x), dkey(x)) + [x]], mkey(x), d)
         == Select(Select(xs + [x], mkey, mkey(x)), dkey, d)
  {
    var s := Select(xs, mkey, mkey(x));
    SelectSnoc(xs, x, mkey, mkey(x));
    SelectSnoc(s, x, dkey, d);
  }

  /** Outside x's month nothing moves. */
  lemma FiledItemsOtherMonth<T, M(!new), D(!new)>(xs: seq<T>, x: T, mkey: T -> M, dkey: T -> D,
                                      items: map<(M, D), seq<T>>, m: M, d: D)
    requires m != mkey(x)
    requires ItemsAt(items, m, d) == Select(Select(xs, mkey, m), dkey, d)
    ensures ItemsAt(items[(mkey(x), dkey(x)) := ItemsAt(items, mkey(x), dkey(x)) + [x]], m, d)
         == Select(Select(xs + [x], mkey, m), dkey, d)
  {
    SelectSnoc(xs, x, mkey, m);
  }

  lemma FiledMembership<T, M(!new), D(!new)>(xs: seq<T>, x: T, mkey: T -> M, dkey: T -> D,
                                 months: seq<M>, days: map<M, seq<D>>, items: map<(M, D), seq<T>>, m: M, d: D)
    requires Filed(xs, mkey, dkey, months, days, items)
    ensures (m, d) in items[(mkey(x), dkey(x)) := ItemsAt(items, mkey(x), dkey(x)) + [x]]
        <==> d in DaysAt(days[mkey(x) := DaysAfter(days, items, mkey(x), dkey(x))], m)
  {
  }

  /** Filing one more record keeps the object in step with the records seen. */
  lemma FiledSnoc<T, M(!new), D(!new)>(xs: seq<T>, x: T, mkey: T -> M, dkey: T -> D,
                           months: seq<M>, days: map<M, seq<D>>, items: map<(M, D), seq<T>>)
    requires Filed(xs, mkey, dkey, months, days, items)
    ensures Filed(xs + [x], mkey, dkey,
                  if mkey(x) in days then months else months + [mkey(x)],
                  days[mkey(x) := DaysAfter(days, items, mkey(x), dkey(x))],
                  items[(mkey(x), dkey(x)) := ItemsAt(items, mkey(x), dkey(x)) + [x]])
  {
    FiledMonths(xs, x, mkey, dkey, months, days, items);
    var months' := if mkey(x) in days then months else months + [mkey(x)];
    var days' := days[mkey(x) := DaysAfter(days, items, mkey(x), dkey(x))];
    forall m
      ensures m in days' <==> m in months'
    {
      assert m in months + [mkey(x)] <==> m in months || m == mkey(x);
    }
    forall m
      ensures DaysAt(days[mkey(x) := DaysAfter(days, items, mkey(x), dkey(x))], m)
           == Keys(Select(xs + [x], mkey, m), dkey)
    {
      FiledDays(xs, x, mkey, dkey, months, days, items, m);
    }
    forall m, d
      ensures ItemsAt(items[(mkey(x), dkey(x)) := ItemsAt(items, mkey(x), dkey(x)) + [x]], m, d)
           == Select(Select(xs + [x], mkey, m), dkey, d)
    {
      FiledItems(xs, x, mkey, dkey, items, m, d);
    }
    forall m, d
      ensures (m, d) in items[(mkey(x), dkey(x)) := ItemsAt(items, mkey(x), dkey(x)) + [x]]
          <==> d in DaysAt(days[mkey(x) := DaysAfter(days, items, mkey(x), dkey(x))], m)
    {
      FiledMembership(xs, x, mkey, dkey, months, days, items, m, d);
    }
  }

  /** One `forEach` step: file `x` under its month and day key, creating either when missing. */
  method File<T, M(==, !new), D(==, !new)>(ghost seen: seq<T>, x: T, mkey: T -> M, dkey: T -> D,
                                           months: seq<M>, days: map<M, seq<D>>, items: map<(M, D), seq<T>>)
    returns (months': seq<M>, days': map<M, seq<D>>, items': map<(M, D), seq<T>>)
    requires Filed(seen, mkey, dkey, months, days, items)
    ensures Filed(seen + [x], mkey, dkey, months', days', items')
  {
    var m, d := mkey(x), dkey(x);
    FiledSnoc(seen, x, mkey, dkey, months, days, items);
    months' := if m in days then months else months + [m];
    days' := days[m := DaysAfter(days, items, m, d)];
    items' := items[(m, d) := ItemsAt(items, m, d) + [x]];
  }

  /** The outer `Object.entries(map)` walk, each month with its day groups. */
  method Walk<T, M(==, !new), D(==, !new)>(ghost xs: seq<T>, mkey: T -> M, dkey: T -> D,
                                           months: seq<M>, days: map<M, seq<D>>, items: map<(M, D), seq<T>>)
    returns (sections: seq<Section<T, M, D>>)
    requires Filed(xs, mkey, dkey, months, days, items)
    ensures sections == Sections(xs, mkey, dkey)
  {
    sections := [];
    var j := 0;
    while j < |months|
      invariant 0 <= j <= |months|
      invariant sections == SectionsFor(xs, mkey, dkey, months[..j])
    {
      var m := months[j];
      var groups := DayGroups(xs, mkey, dkey, m, DaysAt(days, m), items);
      assert months[..j + 1][..j] == months[..j];
      sections := sections + [(m, groups)];
      j := j + 1;
    }
    assert months[..j] == months;
  }

  /**
   * The `forEach` that files each record under its month and day key, then
   * the `Object.entries` walk over months and days.
   */
  method GroupByMonthDay<T, M(==, !new), D(==, !new)>(xs: seq<T>, mkey: T -> M, dkey: T -> D) returns (sections: seq<Section<T, M, D>>)
    ensures sections == Sections(xs, mkey, dkey)
  {
    var months: seq<M> := [];
    var days: map<M, seq<D>> := map[];
    var items: map<(M, D), seq<T>> := map[];
    var i := 0;
    while i < |xs|
      invariant 0 <= i <= |xs|
      invariant Filed(xs[..i], mkey, dkey, months, days, items)
    {
      months, days, items := File(xs[..i], xs[i], mkey, dkey, months, days, items);
      assert xs[..i + 1] == xs[..i] + [xs[i]];
      i := i + 1;
    }
    assert xs[..i] == xs;
    sections := Walk(xs, mkey, dkey, months, days, items);
  }

  /** The inner `Object.entries(days)` walk for one month. */
  method DayGroups<T, M(==), D(==)>(ghost xs: seq<T>, mkey: T -> M, dkey: T -> D, m: M, ds: seq<D>, items: map<(M, D), seq<T>>)
    returns (groups: seq<(D, seq<T>)>)
    requires ds == Keys(Select(xs, mkey, m), dkey)
    requires forall d :: ItemsAt(items, m, d) == Select(Select(xs, mkey, m), dkey, d)
    ensures groups == Groups(Select(xs, mkey, m), dkey)
  {
    groups := [];
    var k := 0;
    while k < |ds|
      invariant 0 <= k <= |ds|
      invariant groups == GroupsFor(Select(xs, mkey, m), dkey, ds[..k])
    {
      assert ds[..k + 1][..k] == ds[..k];
      groups := groups + [(ds[k], ItemsAt(items, m, ds[k]))];
      k := k + 1;
    }
    assert ds[..k] == ds;
  }

  // ---------------------------------------------------------------- what the sections hold

  lemma {:induction false} SectionsForAt<T, M, D>(xs: seq<T>, mkey: T -> M, dkey: T -> D, ms: seq<M>)
    ensures |SectionsFor(xs, mkey, dkey, ms)| == |ms|
    ensures forall i :: 0 <= i < |ms| ==>
      SectionsFor(xs, mkey, dkey, ms)[i] == (ms[i], Groups(Select(xs, mkey, ms[i]), dkey))
  {
    if ms != [] {
      var init := ms[..|ms| - 1];
      SectionsForAt(xs, mkey, dkey, init);
      forall i | 0 <= i < |init|
        ensures ms[i] == init[i]
      {
      }
    }
  }

  /**
   * Placement: a record is filed under (m, d) exactly when it is one of the
   * records and its keys are m and d, so it lands in one group and one only;
   * within a group the records keep their input order.
   */
  lemma Placement<T, M, D>(xs: seq<T>, mkey: T -> M, dkey: T -> D, m: M, d: D)
    ensures forall x :: x in Select(Select(xs, mkey, m), dkey, d) <==> x in xs && mkey(x) == m && dkey(x) == d
    ensures Subseq(Select(Select(xs, mkey, m), dkey, d), Select(xs, mkey, m))
    ensures Subseq(Select(xs, mkey, m), xs)
  {
    SelectSpec(xs, mkey, m);
    SelectSpec(Select(xs, mkey, m), dkey, d);
  }

  /**
   * The sections list each month key once, in first-appearance order, each
   * with the day groups of that month's records; every record is filed.
   */
  lemma SectionsSpec<T, M, D>(xs: seq<T>, mkey: T -> M, dkey: T -> D)
    ensures Distinct(Keys(xs, mkey)) && |Sections(xs, mkey, dkey)| == |Keys(xs, mkey)|
    ensures forall i :: 0 <= i < |Keys(xs, mkey)| ==>
      Sections(xs, mkey, dkey)[i] == (Keys(xs, mkey)[i], Groups(Select(xs, mkey, Keys(xs, mkey)[i]), dkey))
    ensures forall j :: 0 <= j < |xs| ==> mkey(xs[j]) in Keys(xs, mkey)
    ensures forall j :: 0 <= j < |xs| ==> dkey(xs[j]) in Keys(Select(xs, mkey, mkey(xs[j])), dkey)
  {
    KeysSpec(xs, mkey);
    SectionsForAt(xs, mkey, dkey, Keys(xs, mkey));
    forall j | 0 <= j < |xs|
      ensures mkey(xs[j]) in Keys(xs, mkey)
      ensures dkey(xs[j]) in Keys(Select(xs, mkey, mkey(xs[j])), dkey)
    {
      KeyListed(xs, mkey, j);
      var s := Select(xs, mkey, mkey(xs[j]));
      SelectSpec(xs, mkey, mkey(xs[j]));
      var k :| 0 <= k < |s| && s[k] == xs[j];
      KeyListed(s, dkey, k);
    }
  }

  // ---------------------------------------------------------------- totals

  /** `items.reduce((sum, e) => sum + amount(e), 0)` for each day: the day totals. */
  function DayTotals<T, D>(groups: seq<(D, seq<T>)>, amount: T -> int): seq<(D, int)>
  {
    if groups == [] then []
    else DayTotals(groups[..|groups| - 1], amount) + [(groups[|groups| - 1].0, Total(groups[|groups| - 1].1, amount))]
  }

  /** `Object.values(days).flat()`. */
  function Flatten<T, D>(groups: seq<(D, seq<T>)>): seq<T>
  {
    if groups == [] then [] else Flatten(groups[..|groups| - 1]) + groups[|groups| - 1].1
  }

  /** The month total as the page computes it: the flattened day groups, reduced. */
  function MonthTotal<T, D>(groups: seq<(D, seq<T>)>, amount: T -> int): int
  {
    Total(Flatten(groups), amount)
  }

  /** Reducing the flattened groups gives the sum of the day totals. */
  lemma {:induction false} MonthTotalIsSumOfDays<T, D>(groups: seq<(D, seq<T>)>, amount: T -> int)
    ensures MonthTotal(groups, amount) == SumValues(DayTotals(groups, amount))
  {
    if groups != [] {
      var init := groups[..|groups| - 1];
      MonthTotalIsSumOfDays(init, amount);
      TotalAppend(Flatten(init), groups[|groups| - 1].1, amount);
      var dt := DayTotals(init, amount);
      var last := (groups[|groups| - 1].0, Total(groups[|groups| - 1].1, amount));
      assert DayTotals(groups, amount) == dt + [last];
      assert (dt + [last])[..|dt|] == dt;
    }
  }

  /** The day totals of a grouping are its per-key sums. */
  lemma {:induction false} DayTotalsAreSums<T, D>(xs: seq<T>, dkey: T -> D, amount: T -> int, ds: seq<D>)
    ensures DayTotals(GroupsFor(xs, dkey, ds), amount) == SumsFor(xs, dkey, amount, ds)
  {
    if ds != [] {
      var init := ds[..|ds| - 1];
      DayTotalsAreSums(xs, dkey, amount, init);
      var g := GroupsFor(xs, dkey, ds);
      assert g[..|g| - 1] == GroupsFor(xs, dkey, init);
    }
  }

  /**
   * Conservation: a month's total is the sum of its day totals, and equals
   * the total of the records filed under that month; the month totals in
   * turn add up to the total of all records.
   */
  lemma SectionTotals<T, M, D>(xs: seq<T>, mkey: T -> M, dkey: T -> D, amount: T -> int, m: M)
    ensures MonthTotal(Groups(Select(xs, mkey, m), dkey), amount)
         == SumValues(DayTotals(Groups(Select(xs, mkey, m), dkey), amount))
    ensures MonthTotal(Groups(Select(xs, mkey, m), dkey), amount) == Total(Select(xs, mkey, m), amount)
    ensures SumValues(CategorySums(xs, mkey, amount)) == Total(xs, amount)
  {
    var s := Select(xs, mkey, m);
    MonthTotalIsSumOfDays(Groups(s, dkey), amount);
    DayTotalsAreSums(s, dkey, amount, Keys(s, dkey));
    CategorySumsTotal(s, dkey, amount);
    CategorySumsTotal(xs, mkey, amount);
  }
}

=== FILE: monthly_expense.dfy ===
/**
 * The "Monthly Expense" page: one of four period buttons selects expenses,
 * a pie shows their per-category sums and a label their total.
 */
module MonthlyExpense {
  import opened Dates
  import opened Folds
  import opened Records
  import opened Tally

  /** `activeFilter`: the four buttons, or any other value (which filters nothing). */
  datatype Period = Today | Week | ThisMonth | ThisYear | AnyOther(name: string)

  /** The callback `expenses.filter` runs for the active period. */
  function Keep(p: Period, today: Day): Expense -> bool
  {
    match p
    case Today => ExpenseOnDay(today)
    case Week => ExpenseInDays(RollingWeek(today).0, RollingWeek(today).1)
    case ThisMonth => ExpenseInMonth(today)
    case ThisYear => ExpenseInYear(today)
    case AnyOther(_) => (e: Expense) => true
  }

  /** `filteredExpenses`: the input's expenses of the period, in input order. */
  function FilteredExpenses(expenses: seq<Expense>, p: Period, today: Day): (r: seq<Expense>)
    ensures Subseq(r, expenses)
    ensures forall e :: e in r <==> e in expenses && Keep(p, today)(e)
  {
    FilterSpec(expenses, Keep(p, today));
    Filter(expenses, Keep(p, today))
  }

  /** What each period keeps, stated on the record's date. */
  lemma KeepSpec(e: Expense, today: Day)
    ensures Keep(Today, today)(e) <==> e.date == On(today)
    ensures Keep(Week, today)(e)
        <==> e.date.On? && DayNumber(today) - 6 <= DayNumber(e.date.date) <= DayNumber(today)
    ensures Keep(ThisMonth, today)(e) <==> e.date.On? && e.date.date.year == today.year && e.date.date.month == today.month
    ensures Keep(ThisYear, today)(e) <==> e.date.On? && e.date.date.year == today.year
    ensures forall name :: Keep(AnyOther(name), today)(e)
  {
  }

  /**
   * The rolling week holds today and never a later day; today's records are
   * in it, and so are those of the six days before.
   */
  lemma WeekIsPastSevenDays(e: Expense, today: Day)
    ensures Keep(Today, today)(e) ==> Keep(Week, today)(e)
    ensures Keep(Week, today)(e) ==> !Before(today, e.date.date)
    ensures Keep(Week, today)(e) ==> e.date == On(today) || Before(e.date.date, today)
  {
    if Keep(Week, today)(e) {
      var d := e.date.date;
      if Before(today, d) {
        DayNumberOrdered(today, d);
      }
    }
  }

  /** ThisMonth and year nest: a record of today's month is one of today's year. */
  lemma MonthWithinYear(expenses: seq<Expense>, today: Day)
    ensures Subseq(FilteredExpenses(expenses, ThisMonth, today), expenses)
    ensures forall e :: e in FilteredExpenses(expenses, ThisMonth, today) ==> e in FilteredExpenses(expenses, ThisYear, today)
  {
  }

  /** An unmatched filter value keeps the whole list. */
  lemma AnyOtherKeepsAll(expenses: seq<Expense>, name: string, today: Day)
    ensures FilteredExpenses(expenses, AnyOther(name), today) == expenses
  {
    FilterAll(expenses, Keep(AnyOther(name), today));
  }

  /** `pieData`: the `forEach` loop filling `map[e.category]`, then `Object.entries`. */
  method PieData(filtered: seq<Expense>) returns (entries: seq<(string, int)>)
    ensures entries == CategorySums(filtered, ExpenseCategory, ExpenseAmount)
  {
    entries := SumByKey(filtered, ExpenseCategory, ExpenseAmount);
  }

  /** `totalAmount`: the filtered amounts, absent ones as 0. */
  function TotalAmount(filtered: seq<Expense>): int
  {
    Total(filtered, ExpenseAmount)
  }

  /**
   * The pie has one entry per distinct category key, each the sum of that
   * category's filtered expenses, and its entries add up to `totalAmount`.
   */
  lemma PieDataSpec(filtered: seq<Expense>)
    ensures Distinct(Keys(filtered, ExpenseCategory))
    ensures |CategorySums(filtered, ExpenseCategory, ExpenseAmount)| == |Keys(filtered, ExpenseCategory)|
    ensures forall i :: 0 <= i < |Keys(filtered, ExpenseCategory)| ==>
      CategorySums(filtered, ExpenseCategory, ExpenseAmount)[i]
        == (Keys(filtered, ExpenseCategory)[i], Total(Select(filtered, ExpenseCategory, Keys(filtered, ExpenseCategory)[i]), ExpenseAmount))
    ensures SumValues(CategorySums(filtered, ExpenseCategory, ExpenseAmount)) == TotalAmount(filtered)
  {
    CategorySumsSpec(filtered, ExpenseCategory, ExpenseAmount);
    CategorySumsTotal(filtered, ExpenseCategory, ExpenseAmount);
  }
}

=== FILE: my_wallet.dfy ===
/**
 * The "My Wallet" page: all-time income and expense totals, the balance
 * between them, a feed of the five most recent movements, and the
 * add-income form.
 */
module MyWallet {
  import opened Basics
  import opened Dates
  import opened Folds
  import opened Records

  // ---------------------------------------------------------------- totals

  /** `totalIncome`: every income, no date filter, absent amounts as 0. */
  function TotalIncome(incomes: seq<Income>): int
  {
    Total(incomes, IncomeAmount)
  }

  function TotalExpense(expenses: seq<Expense>): int
  {
    Total(expenses, ExpenseAmount)
  }

  function Balance(incomes: seq<Income>, expenses: seq<Expense>): int
  {
    TotalIncome(incomes) - TotalExpense(expenses)
  }

  /** Every record counts towards the totals, whatever its date. */
  lemma TotalsSnoc(incomes: seq<Income>, expenses: seq<Expense>, i: Income, e: Expense)
    ensures Balance([], []) == 0
    ensures TotalIncome(incomes + [i]) == TotalIncome(incomes) + Amount0(i.amount)
    ensures TotalExpense(expenses + [e]) == TotalExpense(expenses) + Amount0(e.amount)
    ensures Balance(incomes + [i], expenses + [e]) == Balance(incomes, expenses) + Amount0(i.amount) - Amount0(e.amount)
  {
    assert (incomes + [i])[..|incomes|] == incomes;
    assert (expenses + [e])[..|expenses|] == expenses;
  }

  // ---------------------------------------------------------------- activity feed

  datatype Activity = Activity(title: string, amount: int, date: When)

  /** `a || b` on strings: the empty string is falsy. */
  function Or(a: string, b: string): string
  {
    if a != "" then a else b
  }

  /** `i.date || new Date()`: an absent date becomes the current day; an unparseable one stays. */
  function OrNow(w: When, now: Day): When
  {
    if w.Missing? then On(now) else w
  }

  function IncomeActivity(now: Day): Income -> Activity
  {
    (i: Income) => Activity(Or(Or(i.source, i.title), "Income"), Amount0(i.amount), OrNow(i.date, now))
  }

  function ExpenseActivity(now: Day): Expense -> Activity
  {
    (e: Expense) => Activity(Or(e.title, "Expense"), -Amount0(e.amount), OrNow(e.date, now))
  }

  /**
   * What a movement shows: an income its amount and the first non-empty of
   * source, title and "Income"; an expense its amount negated and its title
   * or "Expense". No title is empty and no date is absent.
   */
  lemma ActivitySpec(i: Income, e: Expense, now: Day)
    ensures IncomeActivity(now)(i).amount == Amount0(i.amount)
    ensures ExpenseActivity(now)(e).amount == -Amount0(e.amount)
    ensures IncomeActivity(now)(i).title
         == if i.source != "" then i.source else if i.title != "" then i.title else "Income"
    ensures ExpenseActivity(now)(e).title == if e.title != "" then e.title else "Expense"
    ensures IncomeActivity(now)(i).title != "" && ExpenseActivity(now)(e).title != ""
    ensures !IncomeActivity(now)(i).date.Missing? && !ExpenseActivity(now)(e).date.Missing?
  {
  }

  /** The income movements followed by the expense movements. */
  function Merged(incomes: seq<Income>, expenses: seq<Expense>, now: Day): seq<Activity>
  {
    Map(incomes, IncomeActivity(now)) + Map(expenses, ExpenseActivity(now))
  }

  function ActivityRank(a: Activity): int
  {
    DateRank(a.date)
  }

  function ActivityAmount(a: Activity): int
  {
    a.amount
  }

  /** `activities`: the merged list sorted by date, newest first, cut to 5. */
  function Activities(incomes: seq<Income>, expenses: seq<Expense>, now: Day): seq<Activity>
  {
    Prefix(SortDesc(Merged(incomes, expenses, now), ActivityRank), 5)
  }

  /**
   * The feed holds five movements, or all of them when there are fewer; they
   * are newest first, each comes from the merged list, and no movement left
   * out is more recent than one shown.
   */
  lemma ActivitiesSpec(incomes: seq<Income>, expenses: seq<Expense>, now: Day)
    ensures |Activities(incomes, expenses, now)| == if |incomes| + |expenses| < 5 then |incomes| + |expenses| else 5
    ensures SortedDesc(Activities(incomes, expenses, now), ActivityRank)
    ensures multiset(Activities(incomes, expenses, now)) <= multiset(Merged(incomes, expenses, now))
    ensures forall x, a :: x in multiset(Merged(incomes, expenses, now)) - multiset(Activities(incomes, expenses, now))
                           && a in Activities(incomes, expenses, now)
              ==> ActivityRank(x) <= ActivityRank(a)
  {
    SortDescSpec(Merged(incomes, expenses, now), ActivityRank);
    TopOfSorted(Merged(incomes, expenses, now), ActivityRank, 5);
  }

  lemma {:induction false} IncomeMovements(incomes: seq<Income>, now: Day)
    ensures Total(Map(incomes, IncomeActivity(now)), ActivityAmount) == TotalIncome(incomes)
  {
    if incomes != [] {
      var init := incomes[..|incomes| - 1];
      IncomeMovements(init, now);
      assert Map(incomes, IncomeActivity(now))[..|init|] == Map(init, IncomeActivity(now));
    }
  }

  lemma {:induction false} ExpenseMovements(expenses: seq<Expense>, now: Day)
    ensures Total(Map(expenses, ExpenseActivity(now)), ActivityAmount) == -TotalExpense(expenses)
  {
    if expenses != [] {
      var init := expenses[..|expenses| - 1];
      ExpenseMovements(init, now);
      assert Map(expenses, ExpenseActivity(now))[..|init|] == Map(init, ExpenseActivity(now));
    }
  }

  /**
   * Signed movements and balance agree: before the cut to five, the feed's
   * amounts add up to the balance.
   */
  lemma MovementsAddUpToBalance(incomes: seq<Income>, expenses: seq<Expense>, now: Day)
    ensures Total(SortDesc(Merged(incomes, expenses, now), ActivityRank), ActivityAmount) == Balance(incomes, expenses)
  {
    TotalSortDesc(Merged(incomes, expenses, now), ActivityRank, ActivityAmount);
    TotalAppend(Map(incomes, IncomeActivity(now)), Map(expenses, ExpenseActivity(now)), ActivityAmount);
    IncomeMovements(incomes, now);
    ExpenseMovements(expenses, now);
  }

  // ---------------------------------------------------------------- add income

  /** `Number(incomeForm.amount)`: a number, or NaN for text that does not parse. */
  datatype Parsed = Num(value: int) | NotANumber

  /** The body `handleAddIncome` posts: the title is sent as `source`, dated now. */
  datatype IncomeRequest = IncomeRequest(source: string, amount: Parsed, date: Day)

  /**
   * `handleAddIncome`: refused when the title is empty or the amount is at
   * most 0; NaN is not at most 0, so unparseable text gets through.
   */
  function AddIncomeRequest(title: string, amount: Parsed, now: Day): (r: Option<IncomeRequest>)
    ensures r.None? <==> title == "" || (amount.Num? && amount.value <= 0)
    ensures r.Some? ==> r.value.source != "" && (r.value.amount.Num? ==> r.value.amount.value > 0)
    ensures r.Some? ==> r.value == IncomeRequest(title, amount, now)
  {
    if title == "" || (amount.Num? && amount.value <= 0) then None
    else Some(IncomeRequest(title, amount, now))
  }

  /** An accepted request, once stored and fetched back, raises the balance by its amount. */
  lemma AddedIncomeRaisesBalance(incomes: seq<Income>, expenses: seq<Expense>, title: string, v: int, now: Day, id: Id)
    requires AddIncomeRequest(title, Num(v), now).Some?
    ensures Balance(incomes + [Income(id, "", title, Some(v), On(now))], expenses) > Balance(incomes, expenses)
  {
    TotalsSnoc(incomes, expenses, Income(id, "", title, Some(v), On(now)), Expense(id, "", None, None, Missing, ""));
  }
}

=== FILE: records.dfy ===
/**
 * The records the views receive from the backend, as the views read them:
 * any field may be absent, and a date field may hold a string that does not
 * parse. Amount and sort-rank conventions shared by all views live here.
 */
module Records {
  import opened Basics
  import opened Dates

  /** An expense as returned by `GET /api/expenses/get-expense`. */
  datatype Expense = Expense(
    id: Id,
    title: string,
    amount: Option<int>,
    category: Option<string>,
    date: When,
    notes: string)

  /** An income as returned by `GET /api/income/get-income`. */
  datatype Income = Income(
    id: Id,
    title: string,
    source: string,
    amount: Option<int>,
    date: When)

  /** A khata (lent / borrowed) entry as returned by `GET /api/khata/get`. */
  datatype KhataEntry = KhataEntry(
    id: Id,
    kind: string,
    person: string,
    amount: Option<int>,
    paymentMethod: string,
    date: When,
    notes: string)

  /** `Number(x || 0)`: an absent amount counts as 0. */
  function Amount0(a: Option<int>): (n: int)
    ensures a.None? ==> n == 0
    ensures a.Some? ==> n == a.value
  {
    match a
    case None => 0
    case Some(v) => v
  }

  function ExpenseAmount(e: Expense): int
  {
    Amount0(e.amount)
  }

  function IncomeAmount(i: Income): int
  {
    Amount0(i.amount)
  }

  /**
   * The number a date-descending comparator `new Date(b.date) - new Date(a.date)`
   * compares: the day number of a parsed date. JavaScript yields NaN for an
   * absent or unparseable date, which makes the comparator inconsistent; the
   * model ranks such records as -1, below every date from the year 0 on.
   */
  function DateRank(w: When): (r: int)
    ensures w.On? ==> r == DayNumber(w.date)
    ensures !w.On? ==> r == -1
  {
    if w.On? then DayNumber(w.date) else -1
  }

  function ExpenseRank(e: Expense): int
  {
    DateRank(e.date)
  }

  function IncomeRank(i: Income): int
  {
    DateRank(i.date)
  }

  function KhataRank(k: KhataEntry): int
  {
    DateRank(k.date)
  }

  /** The property name `obj[e.category]` uses: an absent category becomes "undefined". */
  function CategoryKey(c: Option<string>): (k: string)
    ensures c.Some? ==> k == c.value
    ensures c.None? ==> k == "undefined"
  {
    match c
    case None => "undefined"
    case Some(s) => s
  }

  function ExpenseCategory(e: Expense): string
  {
    CategoryKey(e.category)
  }

  // ---------------------------------------------------------------- date tests as filter callbacks

  /** `new Date(e.date).toDateString() === day.toDateString()`. */
  function ExpenseOnDay(day: Day): Expense -> bool
  {
    (e: Expense) => SameDay(e.date, day)
  }

  /** Same getMonth() and getFullYear() as `today`. */
  function ExpenseInMonth(today: Day): Expense -> bool
  {
    (e: Expense) => SameMonth(e.date, today)
  }

  function ExpenseInYear(today: Day): Expense -> bool
  {
    (e: Expense) => SameYear(e.date, today)
  }

  /** `d >= start && d <= end` over whole days. */
  function ExpenseInDays(lo: int, hi: int): Expense -> bool
  {
    (e: Expense) => InDays(e.date, lo, hi)
  }
}

=== FILE: tally.dfy ===
/**
 * The loop the views write to fill an object key by key:
 *
 *   const map = {};
 *   xs.forEach((x) => { map[key(x)] = (map[key(x)] || 0) + amount(x); });
 *   Object.entries(map).map(([k, v]) => ...)
 *
 * The object is a map plus the order in which its keys were first set
 * (JavaScript objects enumerate string keys in insertion order).
 */
module Tally {
  import opened Folds

  /** The per-key sums the loop leaves behind, as `Object.entries` lists them. */
  method SumByKey<T, K(==, !new)>(xs: seq<T>, key: T -> K, amount: T -> int) returns (entries: seq<(K, int)>)
    ensures entries == CategorySums(xs, key, amount)
  {
    var order, sums := Fill(xs, key, amount);
    entries := Entries(xs, key, amount, order, sums);
  }

  /** The `forEach` that fills the object. */
  method Fill<T, K(==, !new)>(xs: seq<T>, key: T -> K, amount: T -> int) returns (order: seq<K>, sums: map<K, int>)
    ensures Summed(xs, key, amount, order, sums)
  {
    order, sums := [], map[];
    var i := 0;
    ghost var seen: seq<T> := [];
    while i < |xs|
      invariant 0 <= i <= |xs| && seen == xs[..i]
      invariant Summed(seen, key, amount, order, sums)
    {
      var x := xs[i];
      order, sums := Step(seen, x, key, amount, order, sums);
      assert xs[..i + 1] == seen + [x];
      seen := seen + [x];
      i := i + 1;
    }
    assert seen == xs;
  }

  /** One `map[key(x)] = (map[key(x)] || 0) + amount(x)`. */
  method Step<T, K(==, !new)>(ghost seen: seq<T>, x: T, key: T -> K, amount: T -> int, order: seq<K>, sums: map<K, int>)
    returns (order': seq<K>, sums': map<K, int>)
    requires Summed(seen, key, amount, order, sums)
    ensures Summed(seen + [x], key, amount, order', sums')
  {
    if key(x) in sums {
      order', sums' := order, sums[key(x) := sums[key(x)] + amount(x)];
    } else {
      order', sums' := order + [key(x)], sums[key(x) := amount(x)];
    }
    TallyStep(seen, x, key, amount, order, sums, order', sums');
  }

  /** `Object.entries` of the filled object: each key in insertion order with its sum. */
  method Entries<T, K(==, !new)>(xs: seq<T>, key: T -> K, amount: T -> int, order: seq<K>, sums: map<K, int>)
    returns (entries: seq<(K, int)>)
    requires Summed(xs, key, amount, order, sums)
    ensures entries == CategorySums(xs, key, amount)
  {
    entries := [];
    var j := 0;
    while j < |order|
      invariant 0 <= j <= |order|
      invariant entries == SumsFor(xs, key, amount, order[..j])
    {
      EntriesStep(xs, key, amount, order, j);
      entries := entries + [(order[j], sums[order[j]])];
      j := j + 1;
    }
    assert order[..j] == order;
  }

  /** The object after the records `seen`: keys in first-set order, each holding its records' sum. */
  ghost predicate Summed<T, K(!new)>(seen: seq<T>, key: T -> K, amount: T -> int, order: seq<K>, sums: map<K, int>)
  {
    && order == Keys(seen, key)
    && (forall k :: k in sums <==> k in order)
    && (forall k :: k in sums ==> sums[k] == Total(Select(seen, key, k), amount))
  }

  /** One `map[k] = (map[k] || 0) + amount` step keeps the object summed. */
  lemma TallyStep<T, K(!new)>(seen: seq<T>, x: T, key: T -> K, amount: T -> int,
                        order: seq<K>, sums: map<K, int>, order': seq<K>, sums': map<K, int>)
    requires Summed(seen, key, amount, order, sums)
    requires sums' == if key(x) in sums then sums[key(x) := sums[key(x)] + amount(x)] else sums[key(x) := amount(x)]
    requires order' == if key(x) in sums then order else order + [key(x)]
    ensures Summed(seen + [x], key, amount, order', sums')
  {
    KeysSnoc(seen, x, key);
    SelectSnoc(seen, x, key, key(x));
    TotalAppend(Select(seen, key, key(x)), [x], amount);
    assert Total([x], amount) == amount(x);
    if key(x) !in sums {
      SelectAbsent(seen, key, key(x));
    }
    forall k | k in sums' && k != key(x)
      ensures sums'[k] == Total(Select(seen + [x], key, k), amount)
    {
      SelectSnoc(seen, x, key, k);
    }
  }

  /** `Object.entries` one key further: the next key's entry is appended. */
  lemma EntriesStep<T, K>(xs: seq<T>, key: T -> K, amount: T -> int, order: seq<K>, j: int)
    requires 0 <= j < |order|
    ensures SumsFor(xs, key, amount, order[..j + 1])
         == SumsFor(xs, key, amount, order[..j]) + [(order[j], Total(Select(xs, key, order[j]), amount))]
  {
    assert order[..j + 1][..j] == order[..j];
  }
}

=== FILE: transactions.dfy ===
/**
 * The transactions page: every expense, newest first, under one heading per
 * calendar day, with delete and a title-only edit through a prompt.
 */
module Transactions {
  import opened Basics
  import opened Dates
  import opened Folds
  import opened Records
  import opened ListEdits
  import opened ArraySort

  /** `new Date(tx.date).toDateString()`: the calendar day, or "Invalid Date". */
  function DayKey(e: Expense): Option<Day>
  {
    if e.date.On? then Some(e.date.date) else None
  }

  /** `groupedTransactions`: sort a copy newest first, then file each expense under its day. */
  method GroupedTransactions(transactions: seq<Expense>) returns (groups: seq<(Option<Day>, seq<Expense>)>)
    ensures groups == Groups(SortDesc(transactions, ExpenseRank), DayKey)
  {
    var copy := new Expense[|transactions|](i requires 0 <= i < |transactions| => transactions[i]);
    assert copy[..] == transactions;
    SortByDateDesc(copy, ExpenseRank);
    groups := Groups(copy[..], DayKey);
  }

  /**
   * One group per distinct day: the day keys are distinct, every expense's
   * day has a group, and the group sizes add up to the number of expenses.
   */
  lemma GroupsSpec(transactions: seq<Expense>)
    ensures Distinct(Keys(SortDesc(transactions, ExpenseRank), DayKey))
    ensures |Groups(SortDesc(transactions, ExpenseRank), DayKey)| == |Keys(SortDesc(transactions, ExpenseRank), DayKey)|
    ensures forall t :: t in transactions ==> DayKey(t) in Keys(SortDesc(transactions, ExpenseRank), DayKey)
    ensures SumValues(CategorySums(SortDesc(transactions, ExpenseRank), DayKey, One)) == |transactions|
  {
    var sorted := SortDesc(transactions, ExpenseRank);
    SortDescSpec(transactions, ExpenseRank);
    GroupsPartition(sorted, DayKey);
    KeysSpec(sorted, DayKey);
    forall t | t in transactions
      ensures DayKey(t) in Keys(sorted, DayKey)
    {
      assert t in multiset(sorted);
      var j :| 0 <= j < |sorted| && sorted[j] == t;
      assert HasKey(sorted, DayKey, DayKey(t));
    }
  }

  /** The rank the sort gives a day heading's records: the day number, or -1 for "Invalid Date". */
  function KeyRank(k: Option<Day>): int
  {
    if k.Some? then DayNumber(k.value) else -1
  }

  /**
   * Sorting before grouping puts the groups newest day first: a later group
   * never has a later day, two dated groups are strictly in descending day
   * order, and the "Invalid Date" group follows every group from year 0 on.
   * Each group holds only transactions of its own day.
   */
  lemma GroupOrder(transactions: seq<Expense>, k: Option<Day>)
    ensures var g := Groups(SortDesc(transactions, ExpenseRank), DayKey);
      forall i, j :: 0 <= i < j < |g| ==> KeyRank(g[i].0) >= KeyRank(g[j].0)
    ensures var g := Groups(SortDesc(transactions, ExpenseRank), DayKey);
      forall i, j :: (0 <= i < j < |g| && g[i].0.Some? && g[j].0.Some?) ==> DayNumber(g[i].0.value) > DayNumber(g[j].0.value)
    ensures var g := Groups(SortDesc(transactions, ExpenseRank), DayKey);
      forall i, j :: (0 <= i < j < |g| && g[i].0.None?) ==> g[j].0.Some? && DayNumber(g[j].0.value) < 0
    ensures forall t :: t in Select(SortDesc(transactions, ExpenseRank), DayKey, k) ==> t in transactions && DayKey(t) == k
  {
    var sorted := SortDesc(transactions, ExpenseRank);
    var ks := Keys(sorted, DayKey);
    SortDescSpec(transactions, ExpenseRank);
    KeysSortedDesc(sorted, DayKey, ExpenseRank, KeyRank);
    KeysSpec(sorted, DayKey);
    GroupsForAt(sorted, DayKey, ks);
    forall i, j | 0 <= i < j < |ks| && ks[i].Some? && ks[j].Some?
      ensures DayNumber(ks[i].value) > DayNumber(ks[j].value)
    {
      if DayNumber(ks[i].value) == DayNumber(ks[j].value) {
        DayNumberInjective(ks[i].value, ks[j].value);
        assert false;
      }
    }
    SelectSpec(sorted, DayKey, k);
    forall t | t in Select(sorted, DayKey, k)
      ensures t in transactions
    {
      assert t in multiset(sorted);
    }
  }

  function ExpenseId(e: Expense): Id
  {
    e.id
  }

  /** `handleDelete`: unconfirmed or failed, nothing changes; otherwise only that id goes. */
  function Delete(transactions: seq<Expense>, id: Id, confirmed: bool, succeeded: bool): (r: seq<Expense>)
    ensures !confirmed || !succeeded ==> r == transactions
    ensures forall t :: t in r <==> t in transactions && (!confirmed || !succeeded || t.id != id)
    ensures Subseq(r, transactions)
  {
    if !confirmed || !succeeded then
      SubseqRefl(transactions);
      transactions
    else RemoveId(transactions, ExpenseId, id)
  }

  /**
   * `handleEdit`: a cancelled prompt (`null`) or a failed request changes
   * nothing; otherwise the entries with the edited id are replaced by the
   * record the server returned, and every other entry stays in place.
   */
  function Edit(transactions: seq<Expense>, tx: Expense, newTitle: Option<string>, answer: Option<Expense>): (r: seq<Expense>)
    ensures newTitle.None? || answer.None? ==> r == transactions
    ensures |r| == |transactions|
    ensures newTitle.Some? && answer.Some? ==>
      forall i :: 0 <= i < |transactions| ==> r[i] == if transactions[i].id == tx.id then answer.value else transactions[i]
  {
    if newTitle.None? || answer.None? then transactions
    else ReplaceId(transactions, ExpenseId, tx.id, answer.value)
  }

  /** The body the edit sends: the transaction with only its title changed. */
  function EditBody(tx: Expense, newTitle: string): (r: Expense)
    ensures r.title == newTitle
    ensures r.(title := tx.title) == tx
  {
    tx.(title := newTitle)
  }
}
